=== FILE: README.md ===
# Role-based authentication: client and server

This project models the authentication core of a two-tier web application and
proves properties of that model in Dafny.

- The front end is a Next.js client. It has an API client that keeps a bearer
  token in memory and in cookies, and that refreshes the token after a 401. It
  also has a React authentication context built around a reducer, edge
  middleware, route and role gates, a `useApi` hook, and the admin page's form
  handlers.
- The back end is a Gin/GORM server. It has register, login, refresh,
  forgot-password and reset-password handlers. It has profile, admin and
  manager handlers over a soft-deleting user table with a unique e-mail index
  and a role foreign key. It also has JWT issue and validation, the request
  validators and the role seeding run at start-up.

The two tiers are modelled separately. The module `CrossTier` then runs the
client's requests against the server's handlers and proves what the pairing
does. Several of these results are mismatches:

- The client posts `{refreshToken}` but the server binds `refresh_token`, so
  every client refresh is refused. When a refresh cookie is present, the
  first 401 on a request therefore signs the user out. Without one, the 401
  is returned and the credentials stay.
- The server's refresh reply carries `token`, while the client reads
  `accessToken`.
- The register reply carries no tokens. The client nevertheless stores the
  text "undefined" in both cookies.
- The reset body names `token`/`password`, while the server binds
  `reset_token`/`new_password`.
- The admin page always sends `role`. No column has that name, so every edit
  made from the page fails. The create form never sends `role_id`, so every
  create from the page fails too.

Modelling choices:

- **Client side effects.** The client's world is a datatype: whether a window
  exists, the cookie jar, the in-memory token, the scripted replies the server
  will give, and the log of requests sent. Every `fetch` consumes one scripted
  reply, and an exhausted script rejects the way an unreachable network does.
  The client's recursive retry therefore terminates on the length of the
  script, with no artificial bound.
- **Server environment.** bcrypt, HS256 signing and parsing, the validator's
  e-mail syntax check, the clock and the database timestamp are parameters
  (`Server.Env`, `Jwt.Codec`). Lemmas that need the cryptography to behave
  assume it as a named hypothesis: `Server.BcryptSound`, `Server.BcryptTruncates`
  or `Jwt.Sound`. `Server.BcryptSound` claims uniqueness only for NUL-free
  passwords of at most 72 bytes, where bcrypt's key determines the password.
  `Server.BcryptTruncates` states the other side: only the first 72 bytes
  are compared.
- **The store.** It is a sequence of user rows and a sequence of role rows.
  `Store.Valid` is its invariant, and every handler preserves it. Users
  are kept in id order: `First` orders by primary key, and the order of an
  unordered `Find` is fixed as id order.

Where the code and its documentation disagree, the model follows the code:

- After a 401 the client retries after every successful refresh, not at most
  once. The lemma `ApiClient.RetryIsUnbounded` states this.
- The catch branch reports `error.message` for an `Error` and `'Network error'`
  otherwise.

## Model

| member | source | states |
|---|---|---|
| `Text.StripLeadingSpaces` | frontend/lib/api-client.ts:18 | the result is a suffix of the input, only `' '` characters were removed, and it does not start with a space |
| `Text.TrimStart` | frontend/app/admin/page.tsx:94 | the result is a suffix of the input, only JavaScript whitespace was removed, and it does not start with whitespace |
| `Text.TrimEnd` | frontend/app/admin/page.tsx:94 | the result is a prefix of the input, only JavaScript whitespace was removed, and it does not end with whitespace |
| `Text.NatToDecimal` | frontend/lib/api-client.ts:246 | the text is non-empty decimal digits, without a leading zero, that denote the number |
| `Text.Atoi` | backend/controllers/admin_controller.go:53 | `strconv.Atoi` succeeds exactly on an optional sign followed by one or more digits whose signed value fits int64, and then yields that value |
| `Text.AtoiExamples` | backend/controllers/admin_controller.go:53 | `1a`, a lone `+`, `--1` and the empty text are refused; `-42` and `+7` parse |
| `Text.TrimInside` | frontend/contexts/auth-context.tsx:21 | trimming keeps only characters of the input and leaves no trailing whitespace |
| `Text.AtoiInverts` | backend/controllers/admin_controller.go:53 | every int64 printed in decimal parses back to itself |
| `Text.Utf8` | backend/validators/auth_validator.go:52 | a code point encodes to 1 to 4 bytes, and to exactly one byte (itself) when it is ASCII |
| `Text.ByteLen` | backend/validators/auth_validator.go:52 | Go's byte length is never less than the character count |
| `Json.Get` | frontend/lib/api-client.ts:244-246 | a property read throws exactly on null or undefined, and otherwise reads the object's member |
| `ClientTypes.OrElse` | frontend/contexts/auth-context.tsx:155 | `e or fallback` is the message when there is a non-empty one, and is never empty when the fallback is not |
| `ClientTypes.UserFromJson` | frontend/types/auth.ts:3-10 | each member the JSON value holds as a string is copied into the `User` field of that name |
| `Cookies.Split` | frontend/lib/api-client.ts:15 | `split(';')` yields at least one piece, and no piece contains the delimiter |
| `Cookies.JoinSplit` | frontend/lib/api-client.ts:15 | joining the pieces of a split with the delimiter gives back the original string |
| `Cookies.SplitNoDelimiter` | frontend/contexts/auth-context.tsx:18 | a string without the delimiter splits into itself |
| `Cookies.SplitAt` | frontend/contexts/auth-context.tsx:18 | the split of `a;b` is `a` followed by the split of `b` |
| `Cookies.FirstIndex` | frontend/lib/api-client.ts:16-20 | the scan stops at the first entry that matches the prefix once cleaned, and no earlier entry matches |
| `Cookies.FirstWithPrefix` | frontend/lib/api-client.ts:16-21 | null exactly when no entry matches; otherwise the text after the prefix in the first match |
| `Cookies.GetCookieApi` | frontend/lib/api-client.ts:12-22 | null without a window; otherwise the first space-stripped entry that starts with `name=`; a value never contains `;` |
| `Cookies.GetCookieContext` | frontend/contexts/auth-context.tsx:16-25 | a value read by the context's parser never contains `;` and never ends in whitespace |
| `Cookies.CleanInside` | frontend/contexts/auth-context.tsx:21 | cleaning a `;`-free entry leaves it `;`-free, and trimming leaves no trailing whitespace |
| `Cookies.AfterInside` | frontend/contexts/auth-context.tsx:22 | the text after the prefix keeps both properties of the cleaned entry |
| `Cookies.ReadValueInside` | frontend/contexts/auth-context.tsx:20-23 | the text after the prefix in a `;`-free entry is `;`-free, and after trimming does not end in whitespace |
| `Cookies.LookupEntries` | frontend/contexts/auth-context.tsx:16-25 | the reference reading of a cookie list: null exactly when no cookie has the name, else the value of one that has it |
| `Cookies.NamePrefix` | frontend/contexts/auth-context.tsx:22 | a rendered cookie starts with `name=` exactly when it carries that name |
| `Cookies.CleanEntry` | frontend/contexts/auth-context.tsx:21 | stripping spaces or trimming a rendered cookie, with or without its leading space, gives the cookie text |
| `Cookies.MatchRendered` | frontend/lib/api-client.ts:18-19 | a rendered cookie matches `name=` exactly when it has the name, and the text after the prefix is its value |
| `Cookies.RenderSplitsAtFirst` | frontend/lib/api-client.ts:15 | the rendering of several cookies is the first cookie, a `;`, and the rendering of the rest |
| `Cookies.ParseRendered` | frontend/contexts/auth-context.tsx:16-25 | on the browser's rendering of any list of parsable cookies, both parsers agree with the reference lookup |
| `Cookies.ParseMore` | frontend/contexts/auth-context.tsx:18-23 | the loop step: the first rendered cookie is returned when its name matches, otherwise the search goes on to the rest of the text |
| `Cookies.ParsersReadJar` | frontend/lib/api-client.ts:12-22 | both `getCookie` implementations read exactly the jar's value for every name |
| `Cookies.ParsersDiffer` | frontend/contexts/auth-context.tsx:21 | the two parsers differ on a value with trailing whitespace: only the context's trims it |
| `Cookies.ApiKeepsTrailingSpace` | frontend/lib/api-client.ts:18-19 | the api client's parser, which strips only leading spaces, returns `b ` from the cookie text `a=b ` |
| `Cookies.ContextTrimsTrailingSpace` | frontend/contexts/auth-context.tsx:21-22 | the auth context's parser, which trims, returns `b` from the same text |
| `ApiClient.ReadCookie` | frontend/lib/api-client.ts:12-22 | null without a window; otherwise the jar's value for the name, null when it has none |
| `ApiClient.SetCookie` | frontend/lib/api-client.ts:5-10 | in a browser the name then reads as the value; without a window nothing changes; other cookies, the token, the script and the log are kept |
| `ApiClient.DeleteCookie` | frontend/lib/api-client.ts:24-27 | the name then reads as null; without a window nothing changes; other cookies, the token, the script and the log are kept |
| `ApiClient.Bearer` | frontend/lib/api-client.ts:38-41 | the token is held exactly when the value is truthy, a string is held as itself, and an in-memory token is never the empty string |
| `ApiClient.ThrownText` | frontend/lib/api-client.ts:93-98 | a thrown `Error` contributes its message, anything else `'Network error'` |
| `ApiClient.ClearCredentials` | frontend/lib/api-client.ts:139-143 | both cookies then read as null and the token is gone; every other cookie, the script and the log are kept |
| `ApiClient.Normalize` | frontend/lib/api-client.ts:245-252 | a numeric `id` becomes its decimal text and a string `id` is kept; string members are copied to `email`, `name`, `role`, `createdAt` and `updatedAt` |
| `ApiClient.AdvancesTrans` | frontend/lib/api-client.ts:43-100 | the constraints on what a client step may change compose across steps |
| `ApiClient.Fetch` | frontend/lib/api-client.ts:62-69 | a fetch returns the server's next reply, logs the call with its bearer, consumes an answer and leaves cookies and token alone |
| `ApiClient.ErrorText` | frontend/lib/api-client.ts:83-86 | the failure text is never empty, and is `'An error occurred'` for an object without `message` |
| `ApiClient.RefreshToken` | frontend/lib/api-client.ts:102-145 | without a refresh cookie: false, nothing sent, nothing changed; otherwise one unauthenticated POST, and true exactly when a 2xx JSON body came back whose `accessToken` the log line can print (a truthy non-string makes `substring` throw into the catch); on true the new access token is in memory and in the cookie and the refresh cookie is rotated if one came back; on false both cookies and the token are gone |
| `ApiClient.Request` | frontend/lib/api-client.ts:43-100 | a response succeeds exactly when it carries data, and fails exactly when it carries an error; at least one call is sent |
| `ApiClient.RequestSendsBearer` | frontend/lib/api-client.ts:55-57 | the first call goes out with the in-memory token as bearer |
| `ApiClient.RequestWithoutRefresh` | frontend/lib/api-client.ts:62-99 | apart from a 401 while a token is held: one call; a throw, an unparsable body, a 2xx or an error status each decide the response; cookies and token unchanged |
| `ApiClient.Unauthorized401WithoutCredential` | frontend/lib/api-client.ts:74-86 | a 401 with no refresh cookie sends no refresh and returns the 401's message |
| `ApiClient.Unauthorized401RefreshRefused` | frontend/lib/api-client.ts:74-86 | a 401 whose refresh is refused returns the 401's message after exactly one refresh call, with both cookies and the token gone |
| `ApiClient.RetryRounds` | frontend/lib/api-client.ts:74-80 | a script of `k` rounds has `2k` replies |
| `ApiClient.RetryRound` | frontend/lib/api-client.ts:74-80 | a 401 followed by a granted refresh leaves the same request pending against the refreshed token |
| `ApiClient.RetryStep` | frontend/lib/api-client.ts:74-80 | one more round of 401 and granted refresh extends the request log by one retry |
| `ApiClient.RetryIsUnbounded` | frontend/lib/api-client.ts:74-80 | against `k` rounds of 401 and granted refresh, the call is re-sent after every refresh, each time with the new token |
| `ApiClient.Login` | frontend/lib/api-client.ts:161-206 | the response is passed back unchanged; a success with a truthy `token` sets the in-memory token and the access cookie, and in a browser a truthy `refresh_token` is written to the refresh cookie, which changes for nothing else; every other cookie is as the request left it |
| `ApiClient.Logout` | frontend/lib/api-client.ts:208-220 | whatever the server answers, both cookies and the token are gone and every other cookie stays |
| `ApiClient.GetCurrentUser` | frontend/lib/api-client.ts:239-258 | a success with a truthy body resolves to the normalised `user`, and rejects exactly when `user` is null or missing; anything else resolves to a failure carrying the request's error |
| `ApiClient.LoadModule` | frontend/lib/api-client.ts:346-352 | in a browser a truthy access cookie becomes the in-memory token; otherwise nothing changes |
| `AuthContext.Reduce` | frontend/contexts/auth-context.tsx:54-73 | every action except `SET_LOADING` ends loading; `SET_USER` sets the user, sets `isAuthenticated` exactly when there is one, and clears the error; `SET_ERROR` sets the error and keeps the user and the flag; `LOGOUT` clears everything; `isAuthenticated` keeps agreeing with the user |
| `AuthContext.RunConsistent` | frontend/contexts/auth-context.tsx:54-73 | for any sequence of dispatched actions, the flag and the user never disagree |
| `AuthContext.RunStopsLoading` | frontend/contexts/auth-context.tsx:54-73 | after any sequence that does not end with `SET_LOADING(true)`, loading is off |
| `AuthContext.SignOut` | frontend/contexts/auth-context.tsx:115-117 | both cookies are deleted and the token dropped; other cookies, the log and the script are kept |
| `AuthContext.UserPayload` | frontend/contexts/auth-context.tsx:150 | a payload exists exactly for a truthy value, and is that value read as a user |
| `AuthContext.InitializeAuth` | frontend/contexts/auth-context.tsx:96-120 | without a window or a truthy access cookie, loading just stops; with the cookie as bearer, a `/user/me` that delivers a user signs it in and ends loading; any other resolved answer ends loading and deletes both cookies and the token, keeping other cookies; a rejection changes no state |
| `AuthContext.Login` | frontend/contexts/auth-context.tsx:128-157 | true exactly when the server's success carries a truthy `token`; then the cookie and the bearer hold it, a truthy `refresh_token` is stored, a truthy `user` signs in and no error is shown; a success without a token shows "No access token found in server response", any other answer its error or "Login failed"; on false the user is kept |
| `AuthContext.Register` | frontend/contexts/auth-context.tsx:159-178 | true exactly on a success with a body; the body's `accessToken` and `refreshToken` are stored as text and its `user` signs in; on false the error is the response's or "Registration failed", the user is kept and the world is the request's |
| `AuthContext.Logout` | frontend/contexts/auth-context.tsx:180-186 | whatever the server says, the state is signed out and not loading, and no credential is left |
| `AuthContext.Outcome` | frontend/contexts/auth-context.tsx:188-202 | the answer is the response's `success`; only a failure touches the state, setting the response's error or else the fallback |
| `AuthContext.ForgotPassword` | frontend/contexts/auth-context.tsx:188-194 | returns the request's success; a failure records the response's error or else "Failed to send reset email", a success keeps the state; the world is the request's |
| `AuthContext.ResetPassword` | frontend/contexts/auth-context.tsx:196-202 | returns the request's success; a failure records the response's error or else "Failed to reset password", a success keeps the state; the world is the request's |
| `AuthContext.RefreshUser` | frontend/contexts/auth-context.tsx:204-210 | no effect unless signed in; signed in, a `/user/me` that delivers a user sets it and ends loading, and any other outcome leaves the state as it was |
| `Uri.Escape` | frontend/components/auth/protected-route.tsx:39 | one byte escapes to `%` and two hex digits |
| `Uri.EscapeAll` | frontend/components/auth/protected-route.tsx:39 | n bytes escape to 3n characters, all `%` or hex digits |
| `Uri.EncodeChar` | frontend/components/auth/protected-route.tsx:39 | unreserved characters stay as they are, all others become escapes, and only unreserved characters and `%` are produced |
| `Uri.EncodeComponent` | frontend/components/auth/protected-route.tsx:39 | the encoding contains only unreserved characters and `%`, and is never shorter than the input |
| `Uri.EncodeUnreserved` | frontend/components/auth/protected-route.tsx:39 | a string of unreserved characters is its own encoding |
| `Uri.DecodeEncodeAscii` | frontend/components/auth/protected-route.tsx:39 | decoding the encoding of ASCII text gives the text back |
| `RoleCheck.HasRole` | frontend/hooks/use-role-check.ts:13 | true exactly when there is a user and the list holds its role at some position; never for no user or an empty list |
| `RoleCheck.HasAnyRole` | frontend/hooks/use-role-check.ts:14 | the scan finds a match exactly when some position of the list holds the user's role |
| `RoleCheck.Check` | frontend/hooks/use-role-check.ts:8-15 | each of `isUser`, `isManager` and `isAdmin` holds exactly when there is a user with that role; `isManagerOrAdmin` is manager or admin; no user means no flag; at most one of the three holds |
| `RoleCheck.HasRoleIsHasAnyRole` | frontend/hooks/use-role-check.ts:13-14 | `hasRole` and `hasAnyRole` agree on every user and every list |
| `RoleCheck.ManagerOrAdminIsHasRole` | frontend/hooks/use-role-check.ts:12-13 | `isManagerOrAdmin` is `hasRole(['manager','admin'])` |
| `RoleGuard.OrFallback` | frontend/components/auth/role-guard.tsx:15 | the fallback branch never renders the children |
| `RoleGuard.Guard` | frontend/components/auth/role-guard.tsx:11-19 | children exactly when a user is present whose role is allowed; otherwise the fallback or nothing; an empty list admits nobody |
| `RoleGuard.GuardIsHasRole` | frontend/components/auth/role-guard.tsx:14 | the guard admits exactly when the role-check hook's `hasRole` holds |
| `ProtectedRoute.LoginUrl` | frontend/components/auth/protected-route.tsx:37-40 | the redirect target is `/login?callbackUrl=` followed by the encoded location |
| `ProtectedRoute.Decide` | frontend/components/auth/protected-route.tsx:13-87 | spinner while loading; a redirect is scheduled exactly when settled and unauthenticated; children exactly for an authenticated user whose role is listed or when the list is empty; access denied exactly for a listed-out role |
| `ProtectedRoute.DefaultDeniesOtherRoles` | frontend/components/auth/protected-route.tsx:13-63 | with the prop omitted, a manager or an admin is denied |
| `ProtectedRoute.RouteAgreesWithGuard` | frontend/components/auth/protected-route.tsx:63 | for a settled user and a non-empty role list, the route shows children exactly when the role guard would |
| `ProtectedRoute.EmptyRolesDiffer` | frontend/components/auth/protected-route.tsx:63 | an empty role list opens the route to every signed-in user, but opens the role guard to nobody |
| `ProtectedRoute.CallbackRoundTrip` | frontend/components/auth/protected-route.tsx:39 | the callback decodes back to the ASCII path and search it was built from |
| `ProtectedRoute.CallbackIsOneValue` | frontend/components/auth/protected-route.tsx:39 | after the fixed prefix the URL has no `&`, `#`, `=` or `?`, so the location travels as one query value |
| `Middleware.FindRoute` | frontend/middleware.ts:17-19 | the first table key, in order, that the path starts with; no earlier key matches |
| `Middleware.FindRouteFindsProtected` | frontend/middleware.ts:17-19 | a route is found exactly when some key is a prefix of the path |
| `Middleware.Handle` | frontend/middleware.ts:13-45 | a protected path without a token redirects to `/login` with the path as callback; otherwise an auth page with a token goes to `/dashboard`; every redirect has its cause; in every other case the request passes |
| `Middleware.RolesAreIgnored` | frontend/middleware.ts:6-33 | tables with the same keys decide identically: the role lists are never read |
| `Middleware.Effective` | frontend/middleware.ts:47-56 | paths outside the matcher pass untouched; matched paths get the middleware's decision |
| `Middleware.NotUnder` | frontend/middleware.ts:48-52 | a path that differs from `base/` at some position is not under that base |
| `Middleware.PrefixBeyondMatcher` | frontend/middleware.ts:17-19 | `/administrator` is protected by the table's prefix test, yet the matcher lets it through without a token |
| `Middleware.MatchedUnderBaseIsProtected` | frontend/middleware.ts:47-56 | every path the matcher sends under a base is protected by the table |
| `UseApi.Execute` | frontend/hooks/use-api.ts:9-32 | loading ends; true exactly on a success with defined data, which is then stored; a failure keeps the previous data; a resolved failure sets the response's error or else "An error occurred", and a rejection uses its message or the unexpected-error text |
| `UseApi.Reset` | frontend/hooks/use-api.ts:34-38 | reset returns the idle state |
| `UseApi.FailureKeepsLastData` | frontend/hooks/use-api.ts:18-24 | a failing call after a successful one leaves the first call's data in place |
| `AdminPage.WithoutId` | frontend/app/admin/page.tsx:77 | the filter keeps exactly the users with another id, and adds none |
| `AdminPage.WithoutIdAppend` | frontend/app/admin/page.tsx:77 | the filter works piecewise, so the survivors keep their order |
| `AdminPage.WithoutIdAbsent` | frontend/app/admin/page.tsx:77 | a list without that id is left exactly as it was |
| `AdminPage.HandleDelete` | frontend/app/admin/page.tsx:71-80 | the delete is sent only when confirmed, and the list changes only on a confirmed success, losing exactly that id |
| `AdminPage.CreateBody` | frontend/app/admin/page.tsx:54-59 | the create body has exactly the four form fields |
| `AdminPage.UpdateBody` | frontend/app/admin/page.tsx:87-96 | email, name and role are always sent; the password is sent exactly when it is not blank |
| `AdminPage.HandleCreate` | frontend/app/admin/page.tsx:51-69 | success closes and clears the form and reloads; failure leaves the page as it was |
| `AdminPage.HandleUpdate` | frontend/app/admin/page.tsx:82-106 | nothing is sent unless a user is being edited; success ends the edit, clears the form and reloads |
| `AdminPage.StartEdit` | frontend/app/admin/page.tsx:108-116 | the form holds the user's fields and a blank password, so saving sends no password |
| `AdminPage.ResetForm` | frontend/app/admin/page.tsx:118-122 | the form is closed, emptied and not editing; the list is kept |
| `AdminPage.EditRoundTrip` | frontend/app/admin/page.tsx:87-116 | editing a user and saving unchanged sends back exactly the email, name and role the user had |
| `Validators.Classify` | backend/validators/auth_validator.go:57-64 | a rune is lower, upper or digit exactly by its ASCII range |
| `Validators.ValidatePassword` | backend/validators/auth_validator.go:44-67 | the one-pass flag loop accepts exactly the passwords of at least 8 bytes with an upper-case letter, a lower-case letter and a digit |
| `Validators.AsciiByteLen` | backend/validators/auth_validator.go:52 | for ASCII text the byte length is the character count |
| `Validators.ByteLenAppend` | backend/validators/auth_validator.go:52 | byte length is additive over concatenation |
| `Validators.AppendKeepsPolicy` | backend/validators/auth_validator.go:44-67 | appending anything to an accepted password keeps it accepted |
| `Validators.SixCharactersCanPass` | backend/validators/auth_validator.go:52 | a six-character password with three two-byte letters meets the 8-byte length rule |
| `Validators.NonAsciiLettersSetNoFlag` | backend/validators/auth_validator.go:56-65 | a password of only non-ASCII characters fails, however long |
| `Validators.BindingLengthMatchesPolicyOnAscii` | backend/validators/auth_validator.go:13 | for ASCII passwords, the binding's `min=8` in runes is the policy's 8-byte rule |
| `Binding.StrMember` | backend/validators/auth_validator.go:11-13 | an absent or null member decodes as `""`; a decoded present member was that string |
| `Binding.UintMember` | backend/validators/auth_validator.go:14 | an absent or null member decodes as 0; a decoded member is a number that fits uint64 |
| `Binding.Decode` | backend/validators/auth_validator.go:10-15 | each field decodes by its Go type |
| `Binding.DecodeAll` | backend/validators/auth_validator.go:24-31 | decoding succeeds exactly when every field does, giving their values in order; otherwise it reports a mistyped field present in the body, the first in declaration order, every earlier field having decoded |
| `Binding.FirstFailing` | backend/validators/auth_validator.go:10-15 | none exactly when every tag holds; otherwise a tag of the field that does not hold |
| `Binding.Violations` | backend/validators/auth_validator.go:26-27 | one non-empty message per failing field, none exactly when every tag of every field holds |
| `Binding.Join` | backend/validators/auth_validator.go:27 | no messages give empty details; otherwise the details begin with the first message |
| `Binding.Bind` | backend/validators/auth_validator.go:26 | a body binds exactly when it is an object or null, every field decodes and every tag holds; a refusal has non-empty details |
| `Binding.DecodeRegister` | backend/validators/auth_validator.go:10-15 | the register fields decode exactly when the body's members read as a register request, giving its four values |
| `Binding.RegisterTags` | backend/validators/auth_validator.go:10-15 | the register struct's tags hold exactly when the request is valid |
| `Binding.RegisterBinding` | backend/validators/auth_validator.go:24-31 | binding a register body succeeds exactly when it is shaped, decodes and is valid |
| `Binding.BindRegister` | backend/validators/auth_validator.go:24-31 | a register body is accepted exactly when it decodes and meets the tags, with the decoded request |
| `Binding.StringDecode` | backend/validators/auth_validator.go:18-21 | a struct of strings decodes exactly when every member is a string or missing, giving those strings |
| `Binding.LoginBinding` | backend/validators/auth_validator.go:34-41 | binding a login body succeeds exactly when it decodes, the e-mail is well formed and the password present |
| `Binding.BindLogin` | backend/validators/auth_validator.go:34-41 | a login body is accepted exactly when it decodes and is valid, with the decoded request |
| `Binding.OneBinding` | backend/controllers/auth_controller.go:144-151 | a one-field body binds exactly when its member is a non-empty string, and an e-mail when asked |
| `Binding.BindOne` | backend/controllers/auth_controller.go:144-151 | a one-field body is accepted exactly when its member is a non-empty string, and an e-mail when asked, giving that string |
| `Binding.BindReset` | backend/controllers/auth_controller.go:223-231 | a reset body is accepted exactly with a non-empty `reset_token` and a `new_password` of at least eight runes |
| `Binding.DecodeMap` | backend/controllers/user_controller.go:43-47 | an object gives its members and null gives the empty map; any other value is refused |
| `Jwt.Subject` | backend/utils/jwt.go:27-76 | every kind has a non-empty subject |
| `Jwt.Lifetime` | backend/utils/jwt.go:27-76 | every kind has a positive lifetime |
| `Jwt.Generate` | backend/utils/jwt.go:28-76 | the claims carry the kind's subject, the user's id and e-mail, the role (or `"reset"` for a reset token) and expire one lifetime after issue |
| `Jwt.ValidateAny` | backend/utils/jwt.go:79-90 | a token is accepted exactly when it parses and has not expired, and the claims are the parsed ones |
| `Jwt.Validate` | backend/utils/jwt.go:93-132 | a kind's validator accepts exactly the valid tokens with that kind's subject |
| `Jwt.IssuedTokenValidates` | backend/utils/jwt.go:93-104 | a token validated as its own kind gives back its claims exactly until it expires |
| `Jwt.KindsDoNotMix` | backend/utils/jwt.go:92-132 | no validator accepts a token of another kind, at any time |
| `Store.UserById` | backend/controllers/auth_controller.go:125 | found exactly when a live row has that id, and then it is that row |
| `Store.UserByEmail` | backend/controllers/auth_controller.go:78 | found exactly when a live row has that e-mail, and then it is that row |
| `Store.EmailTaken` | backend/models/models.go:15 | the unique index holds an e-mail exactly when some row has it, deleted or not |
| `Store.RoleById` | backend/models/models.go:18 | found exactly when a role row has that id |
| `Store.RoleByName` | backend/controllers/auth_controller.go:32 | found exactly when a role row has that name |
| `Store.RoleName` | backend/controllers/auth_controller.go:135 | the preloaded role's name, and the empty string when the role row is missing |
| `Store.LiveUsers` | backend/controllers/manager_controller.go:15 | a query sees exactly the rows that are not deleted |
| `Store.CreateUser` | backend/controllers/auth_controller.go:54 | the insert fails exactly on a taken e-mail or a missing role; otherwise it appends the row under the next id and keeps the store valid |
| `Store.CreateRole` | backend/config/database.go:62 | a role insert appends the role under the next id and keeps the store valid |
| `Store.ReplaceValid` | backend/models/models.go:9-19 | replacing a live row with the same id and an unchanged or unused e-mail keeps the store valid |
| `Store.DeleteUser` | backend/controllers/admin_controller.go:98 | exactly the rows with that id become deleted, a missing id changes nothing, and the store stays valid |
| `Store.ColumnOf` | backend/models/models.go:14-17 | a map key names a column by its column name or its Go field name |
| `Store.WriteOf` | backend/controllers/user_controller.go:67 | a column is kept exactly when no key names it, and otherwise takes a value some key gives it |
| `Store.Updated` | backend/controllers/user_controller.go:67 | every key names a column; id, creation time and deletion are kept, `updated_at` is stamped, unnamed columns are kept and a written password is the value given |
| `Store.Updates` | backend/controllers/user_controller.go:67 | a successful update replaces the row with the updated one under an unchanged or unused e-mail, and an update leaving e-mail and role alone never fails |
| `Store.UpdatesValid` | backend/models/models.go:9-19 | an update of a live row keeps the store valid |
| `Store.UpdatePassword` | backend/controllers/auth_controller.go:265 | setting the password column replaces the row with the new hash and timestamp |
| `Store.FoundById` | backend/models/models.go:10 | in a valid store, a live row is the one found by its id |
| `Store.FoundByEmail` | backend/models/models.go:15 | in a valid store, a live row is the one found by its e-mail |
| `Server.Hash` | backend/controllers/auth_controller.go:23-27 | bcrypt succeeds exactly for passwords of at most 72 bytes, giving their hash |
| `Server.Error` | backend/controllers/auth_controller.go:25 | the error reply is the status and a body holding only `error` |
| `Server.Message` | backend/controllers/auth_controller.go:118 | the message reply is the status and a body holding only `message` |
| `Server.PlainPassword` | backend/controllers/user_controller.go:54-55 | a plain password is present exactly when the key holds a non-empty string |
| `Server.HashKey` | backend/controllers/admin_controller.go:71-81 | fails exactly on a plain password over 72 bytes; replaces a plain password by its hash; drops or keeps any other value as asked; leaves every other key alone |
| `AuthController.DefaultRole` | backend/controllers/auth_controller.go:29-37 | a requested role is kept; none requested gives the `user` role, if it exists |
| `AuthController.Register` | backend/controllers/auth_controller.go:15-67 | only a 201 changes the store; a 201 means the body bound and no live user had the e-mail, and exactly one row was appended with the hashed password and the defaulted role; a binding failure is 400; validity is kept |
| `AuthController.Login` | backend/controllers/auth_controller.go:69-115 | 401 with one message exactly for an unknown e-mail or a wrong password; 200 carries an access token, a refresh token and `24h` for the user; 400 exactly on a binding failure |
| `AuthController.Logout` | backend/controllers/auth_controller.go:117-119 | logout always answers 200 with its message |
| `AuthController.GetCurrentUser` | backend/controllers/auth_controller.go:121-140 | 200 exactly for a live user, with the row's fields and role name; otherwise 404 |
| `AuthController.RefreshToken` | backend/controllers/auth_controller.go:143-179 | a binding failure is 400; a 200 needs a valid refresh-kind token of a live user and carries only message, token and expiry, with no new refresh token |
| `AuthController.ForgotPassword` | backend/controllers/auth_controller.go:182-219 | a bad e-mail is 400; an unknown e-mail gets the generic 200; a known one gets a reset token for that user in the reply |
| `AuthController.ResetPassword` | backend/controllers/auth_controller.go:222-273 | only a 200 changes the store; the policy is checked before the token; a 200 means a valid reset-kind token of a live user, and only that user's password and timestamp change |
| `AuthController.RegisterCreatedExactly` | backend/controllers/auth_controller.go:15-67 | a 201 comes exactly when the body binds, the password is at most 72 bytes, the defaulted role exists and the unique index does not hold the e-mail |
| `AuthController.RegisterCreatedNeeds` | backend/controllers/auth_controller.go:15-67 | a 201 implies the body bound, the password was at most 72 bytes, the defaulted role exists and the index did not hold the e-mail |
| `AuthController.RegisterCreatedSuffices` | backend/controllers/auth_controller.go:15-67 | those four conditions together give a 201 |
| `AuthController.RegisterTakenEmail` | backend/controllers/auth_controller.go:39-44 | registering a live user's e-mail answers 409 and creates nothing |
| `AuthController.RegisterAfterDelete` | backend/controllers/auth_controller.go:39-57 | a deleted user's e-mail passes the lookup but the unique index refuses it: 500 and no new row |
| `AuthController.DeletedEmailStaysTaken` | backend/controllers/admin_controller.go:98 | a soft delete hides the row from e-mail lookups but leaves its e-mail in the unique index |
| `AuthController.RegisterIndexClash` | backend/controllers/auth_controller.go:39-57 | an e-mail no live user has but the index holds passes the 409 check and ends in the 500 of a failed create |
| `AuthController.RegisterThenLogin` | backend/controllers/auth_controller.go:15-115 | after a successful register, the same e-mail and password log in, and the e-mail finds the new row |
| `AuthController.RegisteredRow` | backend/controllers/auth_controller.go:46-66 | a 201 leaves a live row under the requested e-mail with the next id and the hash of the requested password |
| `AuthController.RegisterBodyBinds` | backend/validators/auth_validator.go:10-15 | an accepted register body binds to its name, e-mail and password as sent, with no role, and the e-mail passed the syntax check |
| `AuthController.LoginWith` | backend/controllers/auth_controller.go:76-103 | a live user's e-mail with a password the hash accepts logs in |
| `AuthController.LoginTokens` | backend/controllers/auth_controller.go:89-101 | a login's access token and refresh token name the user, and each is refused by the other kind's validator |
| `AuthController.LoginReply` | backend/controllers/auth_controller.go:103-114 | a successful login's tokens are the signed access and refresh claims of the user |
| `AuthController.RefreshOutcome` | backend/controllers/auth_controller.go:153-165 | a token that is not a valid refresh token gets 401; a valid one for a live user gets 200 |
| `AuthController.LoginThenRefresh` | backend/controllers/auth_controller.go:153-178 | within seven days, the login's refresh token buys a new access token, and its access token is refused with 401 |
| `AuthController.ForgotReply` | backend/controllers/auth_controller.go:202-218 | a known e-mail's reply holds a reset token signed for that user |
| `AuthController.ResetAccepted` | backend/controllers/auth_controller.go:241-272 | a valid reset token of a live user with an acceptable password succeeds and stores the new hash |
| `AuthController.ForgotThenReset` | backend/controllers/auth_controller.go:202-272 | within the hour, the token a forgot-password reply hands out resets that user's password |
| `AuthController.LoginAfterRehash` | backend/controllers/auth_controller.go:83-87 | after the password hash is replaced, the new password logs in and any other NUL-free password of at most 72 bytes is refused |
| `AuthController.RehashAcceptsExtension` | backend/controllers/auth_controller.go:83-87 | after the hash is replaced by that of a 72-byte password, that password followed by anything logs in |
| `AuthController.LoginRefused` | backend/controllers/auth_controller.go:83-87 | a password the stored hash refuses answers 401 |
| `AuthController.ResetThenLogin` | backend/controllers/auth_controller.go:257-272 | after a reset, the new password logs in and any other NUL-free password of at most 72 bytes is refused |
| `UserController.SanitizeProfileAsWritten` | backend/controllers/user_controller.go:49-65 | as written: only `role_id` and `email` are removed, and only `password` is hashed or dropped |
| `UserController.SanitizeProfile` | backend/controllers/user_controller.go:49-65 | corrected: no remaining key reaches the e-mail or role column; every password key holds the hash of a plain password; name and unknown keys are untouched |
| `UserController.UpdateUserProfile` | backend/controllers/user_controller.go:34-73 | corrected: a missing user is 404 before the body is read; an undecodable body is 400; only a 200 changes the store, and it changes only the caller's row, keeping id, e-mail and role and setting the password to a hash or leaving it; validity is kept |
| `UserController.ProfileUpdateKeeps` | backend/controllers/user_controller.go:49-72 | with the corrected sanitisation a successful update keeps id, e-mail and role, and any new password is a hash |
| `UserController.ProfileAsWrittenSetsRole` | backend/controllers/user_controller.go:50 | as written, `{"RoleID": r}` passes the sanitisation and moves the caller to role `r` |
| `UserController.ProfileAsWrittenStoresPlaintext` | backend/controllers/user_controller.go:54-65 | as written, `{"Password": p}` skips hashing and stores `p` |
| `AdminController.SanitizeAdmin` | backend/controllers/admin_controller.go:71-81 | a plain password is hashed; an empty or non-string one stays; no other key is filtered |
| `AdminController.UserId` | backend/controllers/admin_controller.go:53-57 | the path id is refused exactly when it is not a signed decimal that fits int64, and otherwise is that number |
| `AdminController.UpdateUser` | backend/controllers/admin_controller.go:52-89 | a bad id is 400 before the store is read, a missing user is 404 before the body is read, then the decode error, the hash failure and the update failure; a 200 applies exactly the sanitised update; validity is kept |
| `AdminController.DeleteUser` | backend/controllers/admin_controller.go:91-104 | a bad id is 400; otherwise 200, and the visible rows lose exactly those with that id; validity is kept |
| `AdminController.DeleteHidesRow` | backend/controllers/admin_controller.go:98 | after a soft delete, queries see the rows they saw before minus those with the deleted id |
| `AdminController.UserJson` | backend/models/models.go:9-19 | a serialised user has id, timestamps, name, e-mail, role id and role, and never the password |
| `AdminController.CreateUser` | backend/controllers/admin_controller.go:24-50 | a binding failure is 400 with the details; a hash failure 500; the insert fails with 400 exactly on a taken e-mail or a missing role; a 201 appends exactly the row with the hash and the requested role; validity is kept |
| `AdminController.AdminSetsRole` | backend/controllers/admin_controller.go:83 | `{"role_id": r}` moves a live user to any existing role |
| `AdminController.AdminStoresEmptyPassword` | backend/controllers/admin_controller.go:72-81 | `{"password": ""}` stores the empty string as the password |
| `AdminController.CreateWithoutRoleFails` | backend/controllers/admin_controller.go:37-47 | a body without `role_id` never creates a user in a valid store, and leaves it unchanged |
| `ManagerController.Filter` | backend/controllers/manager_controller.go:22-25 | a group holds exactly the users with that key |
| `ManagerController.Names` | backend/controllers/manager_controller.go:22-25 | the distinct keys: every key of some user, each once |
| `ManagerController.GroupBy` | backend/controllers/manager_controller.go:21-25 | the loop's map has a group exactly for each key present, and each group is that key's users in fetch order |
| `ManagerController.GroupStep` | backend/controllers/manager_controller.go:22-25 | appending a user to the group of its key keeps every group equal to that key's users so far |
| `ManagerController.GetReports` | backend/controllers/manager_controller.go:12-33 | the total is the number of live users; one non-empty group per role name present, holding that role's users; the group sizes add up to the total |
| `ManagerController.GroupsShape` | backend/controllers/manager_controller.go:21-30 | the groups are keyed by the distinct names, none is empty, and their sizes add up to the number of users |
| `ManagerController.ReportPlacesUser` | backend/controllers/manager_controller.go:22-24 | a user is in a role's group exactly when it is live and has that role name |
| `ManagerController.TotalOfFilters` | backend/controllers/manager_controller.go:30 | counting the groups one by one is counting their filters |
| `ManagerController.GroupsCover` | backend/controllers/manager_controller.go:21-30 | every user lands in exactly one group, so the sizes add up to the number of users |
| `Database.SeedRole` | backend/config/database.go:59-65 | a failed or successful lookup changes nothing; only "record not found" creates the role |
| `Database.SeedAll` | backend/config/database.go:57-66 | users are untouched and existing roles keep their place; every name whose lookup did not fail is found afterwards; other names are unchanged; validity is kept |
| `Database.SeedRoleLookups` | backend/config/database.go:59-65 | one seeding step keeps every existing lookup and changes no other name |
| `Database.SeedData` | backend/config/database.go:56-67 | admin, manager and user are found afterwards unless their lookup failed; existing roles and users are untouched |
| `Database.SeedAllPresent` | backend/config/database.go:60 | when every name is already present, seeding changes nothing |
| `Database.SeedTwice` | backend/config/database.go:56-67 | after one clean run, seeding again creates nothing |
| `CrossTier.RefreshBodyRefused` | frontend/lib/api-client.ts:119 | the client's refresh body `{refreshToken}` is refused by the server with 400 |
| `CrossTier.ClientRefreshFails` | frontend/lib/api-client.ts:102-145 | against this server the client's refresh always answers false and wipes both cookies and the token |
| `CrossTier.ExpiredTokenSignsOut` | frontend/lib/api-client.ts:74-86 | when a refresh cookie is present, the first 401 on a request made with a token signs the user out and shows the generic error |
| `CrossTier.GrantedRefreshMisread` | frontend/lib/api-client.ts:126-127 | even a refresh the server grants leaves the client with no token and an access cookie reading "undefined" |
| `CrossTier.RefusedLoginShowsGenericError` | frontend/lib/api-client.ts:85 | a refused login shows "An error occurred", never the server's reason |
| `CrossTier.AcceptedLoginSignsIn` | frontend/lib/api-client.ts:192-195 | an accepted login gives the client the server's token, which the server accepts as an access token until it expires |
| `CrossTier.RegisterStoresUndefined` | frontend/contexts/auth-context.tsx:165-173 | a successful register stores "undefined" in both cookies and leaves no usable bearer |
| `CrossTier.ClientRegisterWithoutTokens` | frontend/contexts/auth-context.tsx:168-170 | any 2xx register reply without tokens stores "undefined" in both cookies |
| `CrossTier.RegisterReplyHasNoTokens` | backend/controllers/auth_controller.go:59-66 | the register reply holds only the message and the user |
| `CrossTier.ResetBodyRefused` | frontend/lib/api-client.ts:234 | the client's reset body is refused with 400 and the store is untouched |
| `CrossTier.ForgotBodyBinds` | frontend/lib/api-client.ts:226 | the client's forgot-password body binds exactly when the e-mail is non-empty and well formed |
| `CrossTier.AdminPageUpdateNeverApplies` | frontend/app/admin/page.tsx:87-91 | every update sent by the admin page fails and leaves the store unchanged |
| `CrossTier.AdminPageCreateNeverApplies` | frontend/app/admin/page.tsx:54-59 | no create sent by the admin page succeeds against a valid store |
| `CrossTier.CurrentUserRoundTrip` | frontend/lib/api-client.ts:245-252 | `/user/me` yields the stored row with its id in decimal and its role name |
| `CrossTier.LogoutRoundTrip` | backend/controllers/auth_controller.go:117-119 | the server's logout reply reaches the client as a success with its message, after one call, and the token is gone |
| `CrossTier.InitializeRestoresSession` | frontend/contexts/auth-context.tsx:109-113 | reloading with the access cookie of a live user signs that user in as the server reports it |
| `CrossTier.MissingUserReply` | backend/controllers/auth_controller.go:124-128 | the 404 for a missing user reaches the client as a failure reading "An error occurred", with cookies and token untouched |
| `CrossTier.InitializeDropsMissingUser` | frontend/contexts/auth-context.tsx:114-119 | reloading with the access cookie of a deleted user deletes both cookies and the token and ends loading |
| `CrossTier.RefreshUserKeepsDeletedUser` | frontend/contexts/auth-context.tsx:204-210 | refreshing after the user was deleted keeps the stale user signed in |
| `CrossTier.RefreshUserReloads` | frontend/contexts/auth-context.tsx:204-210 | refreshing a live user loads the server's current copy |

## Left out

- The handlers `GetUsers`, `GetUserDashboard`, `GetManagerDashboard`, `GetAdminDashboard` and `GetUserProfile` are not modelled. They are read-only listings outside the authentication core. The same holds for the client methods that call them.
- `backend/routes/routes.go`, `backend/main.go` and `backend/services/user_service.go` are not modelled. The authentication middleware that stores `userID` is not part of this model: the profile and `/user/me` handlers take the id as a parameter.
- Side effects whose only content is output are left out: the text `console.log` prints, the React rendering, the 100 ms timer before the redirect, and cookie attributes such as expiry, path and `secure`. The one log line that can throw, `token.substring(0, 20)` in `setAccessToken`, is modelled where its throw changes control flow: inside the refresh's `try` (`ApiClient.LogThrows`).
- bcrypt, HS256 signing and parsing, the e-mail syntax check, the clock and the database timestamp are parameters, not implementations.
- Database connection errors are not modelled. The error paths "Failed to fetch users", "Failed to delete user", "Failed to create token", "Failed to create refresh token", "Failed to generate new token" and "Failed to generate reset token" are therefore never taken. Token signing is a total function.
- JSON arrays and non-integer numbers do not occur in the modelled bodies and are not modelled. The manager report is a datatype rather than its JSON serialisation.
- Soft-deleted roles are not modelled. Role lookups see every role row.
- A failing `Create` inside the seeding loop is not modelled: creating a role after a "record not found" always succeeds.
- Map updates whose keys name other columns (`id`, `created_at`, `updated_at`, `deleted_at`) are treated as errors, just like keys that name no column.
- `Binding.DecodeAll`: `encoding/json` reports the first mistyped member in the order the body lists them. JSON objects are maps in the model, with no member order, so the first mistyped field in declaration order is reported instead.
- The validator's error details are modelled as the messages joined by newlines, in field order. Gin's exact wording and case-insensitive JSON key matching are not modelled.
- `Binding.Join`: it states only that the details begin with the first message, not their full text.
- `ApiClient.Request`: its own contract states only the shape of the response. The per-reply outcomes are stated by `ApiClient.RequestWithoutRefresh`, `ApiClient.Unauthorized401WithoutCredential`, `ApiClient.Unauthorized401RefreshRefused` and `ApiClient.RetryIsUnbounded`.
- `AuthContext.InitializeAuth`: when `getCurrentUser` rejects, no action is dispatched and loading never ends. The model states this rather than a recovery the code does not make.
- `ApiClient.Bearer`: it reads a truthy non-string token as its text. In the source, `setAccessToken` would first throw from `substring` (frontend/lib/api-client.ts:40). Outside the refresh's `try`, a caller whose server sends a non-string token is not modelled as rejecting. The server in backend/controllers always sends tokens as strings.
- `ApiClient.Login`: a truthy non-string `token` is stored as its text rather than making the call reject from the log line, as `ApiClient.Bearer` explains.
- `AuthContext.Login`: a truthy non-string `token` is stored as its text rather than making `login` reject from the log line, as `ApiClient.Bearer` explains.
- `AuthContext.Register`: the cookies hold the text of `accessToken` and `refreshToken` as `setCookie`'s template renders them, but a truthy non-string `accessToken` is not modelled as making `register` reject. The user is read with `ClientTypes.UserFromJson`, as the next lines explain.
- `ClientTypes.UserFromJson`: a TypeScript cast converts nothing, so a member that is not a string stays what it was. The model's `User` holds text in every field, and a missing member becomes the text "undefined", a number its decimal text. The contract states only the string case, which is the only one this server produces (`CrossTier.CurrentUserRoundTrip`). A role literally named "undefined" would be indistinguishable from a missing one.
- `ApiClient.Normalize`: `email`, `name`, `role`, `created_at` and `updated_at` are copied unconverted in the source (frontend/lib/api-client.ts:247-251); the model converts them to text as `ClientTypes.UserFromJson` does. Its contract covers the string members and the `String(id)` conversion.
- `ApiClient.GetCurrentUser`: the user it resolves to is `ApiClient.Normalize` of the reply, with the limits stated there.
- The listings: `Find` without ORDER BY (backend/controllers/admin_controller.go:16, backend/controllers/manager_controller.go:15) returns rows in an order the database chooses; the model returns them in id order.
- `Store.Valid`: the unique e-mail index and the role foreign key are taken from the `gorm` tags of backend/models/models.go. `AutoMigrate` is commented out (backend/config/database.go:28-37), so the model assumes an existing schema that carries them.
- `ManagerController.GetReports`: it models a successful `Find`. The 500 reply for a failing query is left out with the other connection errors.
- `AuthController.LoginAfterRehash` and `AuthController.ResetThenLogin` promise refusal only for NUL-free other passwords of at most 72 bytes. bcrypt's `CompareHashAndPassword` has no length check and cycles the password and a zero byte through a 72-byte key. So a 72-byte password also accepts every extension of it (`AuthController.RehashAcceptsExtension`), and a password with a NUL can collide with a shorter one. Login binding sets no maximum length, so both are reachable.
- The password rules count in two units. Binding's `min=8` counts runes, while `ValidatePassword` and bcrypt's 72-byte limit count bytes. Both are modelled as written.

## Findings

| source | as written | input that shows it | evidently intended | confidence | as-written member | corrected member |
|---|---|---|---|---|---|---|
| backend/controllers/user_controller.go:49-65 | The profile update deletes only the keys `role_id` and `email`, and hashes only `password`. GORM's map update also accepts the Go field names `RoleID`, `Email` and `Password` for the same columns. | `{"RoleID": 1}` changes the caller's role. `{"Password": "x"}` stores `x` as the password, unhashed. | A profile update never changes the e-mail or the role, and never stores a plain password. | not executed; medium, since it depends on GORM resolving Go field names in map updates | `UserController.SanitizeProfileAsWritten`, shown by `UserController.ProfileAsWrittenSetsRole` and `UserController.ProfileAsWrittenStoresPlaintext` | `UserController.SanitizeProfile`, used by `UserController.UpdateUserProfile`, with `UserController.ProfileUpdateKeeps` |

=== FILE: admin_controller.dfy ===
/** The user-management handlers of backend/controllers/admin_controller.go:
    `CreateUser`, `UpdateUser` and `DeleteUser`. */
module AdminController {
  import opened Wrappers
  import opened Json
  import Text
  import Validators
  import Binding
  import opened Store
  import opened Server

  /** The admin password step: a non-empty string `password` is replaced by
      its hash; an empty or non-string one stays in the map as it is. No
      other key is filtered. */
  function SanitizeAdmin(env: Env, m: map<string, Json>): (r: Sanitized)
    ensures r.HashFailed? <==> PlainPassword(m, "password").Some? && Text.ByteLen(PlainPassword(m, "password").value) > MaxPasswordBytes
    ensures r.Clean? ==> r.m.Keys == m.Keys
    ensures r.Clean? ==> forall k :: k in m && k != "password" ==> r.m[k] == m[k]
    ensures r.Clean? && "password" in m ==>
              r.m["password"] == (if PlainPassword(m, "password").Some? then JStr(env.hash(m["password"].s)) else m["password"])
  {
    HashKey(env, m, "password", false)
  }

  /** `:id` as the handlers read it: `strconv.Atoi`. */
  function UserId(param: string): (id: Option<int>)
    ensures id.None? <==> !Text.AtoiSyntax(param) || !(Text.MinInt64 <= Text.SignedValue(param) <= Text.MaxInt64)
    ensures id.Some? ==> id.value == Text.SignedValue(param)
  {
    Text.Atoi(param)
  }

  /** `UpdateUser`: the id is parsed before the store is read, and the row
      is looked up before the body is read. */
  function UpdateUser(env: Env, db: Db, param: string, body: Json): (h: Handled)
    ensures UserId(param).None? ==> h == Handled(Error(400, "Invalid user ID"), db)
    ensures UserId(param).Some? && UserById(db, UserId(param).value).None? ==> h == Handled(Error(404, "User not found"), db)
    ensures UserId(param).Some? && UserById(db, UserId(param).value).Some? && Binding.DecodeMap(body).Undecodable? ==>
              h == Handled(Error(400, Binding.DecodeMap(body).message), db)
    ensures h.response.status != 200 ==> h.db == db
    ensures h.response.status == 200 ==>
              && UserId(param).Some? && UserById(db, UserId(param).value).Some? && Binding.DecodeMap(body).Decoded?
              && SanitizeAdmin(env, Binding.DecodeMap(body).m).Clean?
              && Some(h.db) == Updates(db, UserById(db, UserId(param).value).value, SanitizeAdmin(env, Binding.DecodeMap(body).m).m, env.stamp)
              && h.response == Message(200, "User updated successfully")
    ensures h.response.status in {200, 400, 404, 500}
    ensures Valid(db) ==> Valid(h.db)
  {
    match UserId(param)
    case None => Handled(Error(400, "Invalid user ID"), db)
    case Some(id) =>
      match UserById(db, id)
      case None => Handled(Error(404, "User not found"), db)
      case Some(u) =>
        match Binding.DecodeMap(body)
        case Undecodable(message) => Handled(Error(400, message), db)
        case Decoded(m) =>
          match SanitizeAdmin(env, m)
          case HashFailed => Handled(Error(500, "Failed to hash password"), db)
          case Clean(clean) =>
            match Updates(db, u, clean, env.stamp)
            case None => Handled(Error(500, "Failed to update user"), db)
            case Some(db') =>
              UpdatesKeepValid(db, u, clean, env.stamp);
              Handled(Message(200, "User updated successfully"), db')
  }

  /** `DeleteUser`: a soft delete of the row with the parsed id; an id with
      no live row is not an error. */
  function DeleteUser(db: Db, param: string): (h: Handled)
    ensures UserId(param).None? ==> h == Handled(Error(400, "Invalid user ID"), db)
    ensures UserId(param).Some? ==> h.response == Message(200, "User deleted successfully")
    ensures UserId(param).Some? ==> LiveUsers(h.db) == RemoveId(LiveUsers(db), UserId(param).value)
    ensures Valid(db) ==> Valid(h.db)
  {
    match UserId(param)
    case None => Handled(Error(400, "Invalid user ID"), db)
    case Some(id) =>
      DeleteHidesRow(db.users, id);
      Handled(Message(200, "User deleted successfully"), Store.DeleteUser(db, id))
  }

  /** The users other than those with id `id`, in order. */
  function RemoveId(us: seq<User>, id: int): (r: seq<User>)
    ensures forall u :: u in r <==> u in us && u.id != id
    decreases |us|
  {
    if |us| == 0 then []
    else if us[0].id == id then RemoveId(us[1..], id)
    else [us[0]] + RemoveId(us[1..], id)
  }

  /** After the soft delete, the rows queries see are the ones they saw
      before minus those with the deleted id. */
  lemma {:induction false} DeleteHidesRow(users: seq<User>, id: int)
    ensures Live(Store.DeleteUser(Db(users, [], 1, 1), id).users) == RemoveId(Live(users), id)
    decreases |users|
  {
    var d := Store.DeleteUser(Db(users, [], 1, 1), id).users;
    if |users| > 0 {
      var rest := Store.DeleteUser(Db(users[1..], [], 1, 1), id).users;
      assert d[1..] == rest;
      DeleteHidesRow(users[1..], id);
    }
  }

  /** The zero `Role` value the created user carries, since `Create` does
      not load the association. */
  const ZeroTime := "0001-01-01T00:00:00Z"
  const ZeroRoleJson := JObj(map["id" := JNum(0), "created_at" := JStr(ZeroTime), "updated_at" := JStr(ZeroTime),
                                 "name" := JStr(""), "permissions" := JNull])

  /** A `models.User` as encoding/json writes it: the password and the
      deletion time are tagged `json:"-"`. */
  function UserJson(u: User): (j: Json)
    ensures j.JObj? && "password" !in j.fields
    ensures j.JObj? && j.fields.Keys == {"id", "created_at", "updated_at", "name", "email", "role_id", "role"}
  {
    JObj(map["id" := JNum(u.id), "created_at" := JStr(u.createdAt), "updated_at" := JStr(u.updatedAt),
             "name" := JStr(u.name), "email" := JStr(u.email), "role_id" := JNum(u.roleId), "role" := ZeroRoleJson])
  }

  /** `CreateUser`: binds `models.RegisterRequest` (password of at least six
      runes), stores the hash and the requested role id without defaulting
      it; the store's constraints are the only checks on e-mail and role. */
  function CreateUser(env: Env, db: Db, body: Json): (h: Handled)
    ensures Binding.BindRegister(body, env.isEmail, "models", 6).Rejected? ==>
              h == Handled(Error(400, Binding.BindRegister(body, env.isEmail, "models", 6).details), db)
    ensures h.response.status != 201 ==> h.db == db
    ensures h.response.status == 201 ==> Binding.BindRegister(body, env.isEmail, "models", 6).Accepted?
    ensures h.response.status == 201 ==>
              var q := Binding.BindRegister(body, env.isEmail, "models", 6).req;
              && !EmailTaken(db, q.email) && RoleById(db, q.roleId).Some?
              && exists u :: && h.db.users == db.users + [u] && h.db.roles == db.roles
                             && u == User(db.nextUserId, q.name, q.email, env.hash(q.password), q.roleId, env.stamp, env.stamp, false)
                             && h.response.body == JObj(map["message" := JStr("User created successfully"), "user" := UserJson(u)])
    ensures Binding.BindRegister(body, env.isEmail, "models", 6).Accepted? ==>
              var q := Binding.BindRegister(body, env.isEmail, "models", 6).req;
              Text.ByteLen(q.password) <= MaxPasswordBytes ==>
                (h.response == Error(400, "Failed to create user") <==> EmailTaken(db, q.email) || RoleById(db, q.roleId).None?)
    ensures h.response.status in {201, 400, 500}
    ensures Valid(db) ==> Valid(h.db)
  {
    match Binding.BindRegister(body, env.isEmail, "models", 6)
    case Rejected(details) => Handled(Error(400, details), db)
    case Accepted(q) =>
      match Hash(env, q.password)
      case None => Handled(Error(500, "Failed to hash password"), db)
      case Some(hashed) =>
        match Store.CreateUser(db, q.name, q.email, hashed, q.roleId, env.stamp)
        case None => Handled(Error(400, "Failed to create user"), db)
        case Some((db', u)) =>
          Handled(Response(201, JObj(map["message" := JStr("User created successfully"), "user" := UserJson(u)])), db')
  }

  /** Unlike the profile handler, the admin update reaches the role column:
      `{"role_id": r}` moves a user to any existing role. */
  lemma AdminSetsRole(env: Env, db: Db, id: nat, roleId: nat)
    requires Valid(db) && id <= Text.MaxInt64 && UserById(db, id).Some? && RoleById(db, roleId).Some?
    ensures var h := UpdateUser(env, db, Text.NatToDecimal(id), JObj(map["role_id" := JNum(roleId)]));
            && h.response == Message(200, "User updated successfully")
            && h.db == Replace(db, UserById(db, id).value.(roleId := roleId, updatedAt := env.stamp))
  {
    var m := map["role_id" := JNum(roleId)];
    Text.AtoiInverts(id);
    assert Text.IntToDecimal(id) == Text.NatToDecimal(id);
    assert SanitizeAdmin(env, m) == Clean(m);
    assert WriteOf(m, NameCol) == Some(Keep) && WriteOf(m, EmailCol) == Some(Keep) && WriteOf(m, PasswordCol) == Some(Keep);
    var u := UserById(db, id).value;
    assert Updated(u, m, env.stamp) == Some(u.(roleId := roleId, updatedAt := env.stamp));
    assert Updates(db, u, m, env.stamp) == Some(Replace(db, u.(roleId := roleId, updatedAt := env.stamp)));
    assert UserId(Text.NatToDecimal(id)) == Some(id);
  }

  /** An empty `password` is not dropped: the update stores the empty
      string as the password. */
  lemma AdminStoresEmptyPassword(env: Env, db: Db, id: nat)
    requires Valid(db) && id <= Text.MaxInt64 && UserById(db, id).Some?
    ensures var h := UpdateUser(env, db, Text.NatToDecimal(id), JObj(map["password" := JStr("")]));
            && h.response == Message(200, "User updated successfully")
            && h.db == Replace(db, UserById(db, id).value.(password := "", updatedAt := env.stamp))
  {
    var m := map["password" := JStr("")];
    Text.AtoiInverts(id);
    assert Text.IntToDecimal(id) == Text.NatToDecimal(id);
    assert SanitizeAdmin(env, m) == Clean(m);
    assert WriteOf(m, NameCol) == Some(Keep) && WriteOf(m, EmailCol) == Some(Keep) && WriteOf(m, RoleIdCol) == Some(Keep);
    var u := UserById(db, id).value;
    assert Updates(db, u, m, env.stamp) == Some(Replace(db, u.(password := "", updatedAt := env.stamp)));
    assert UserId(Text.NatToDecimal(id)) == Some(id);
  }

  /** A create body without `role_id` binds role id 0, which no role row
      has in a valid store, so no such body ever creates a user. */
  lemma CreateWithoutRoleFails(env: Env, db: Db, body: Json)
    requires Valid(db) && body.JObj? && "role_id" !in body.fields
    ensures CreateUser(env, db, body).response.status != 201
    ensures CreateUser(env, db, body).db == db
  {
    var b := Binding.BindRegister(body, env.isEmail, "models", 6);
    if b.Accepted? {
      assert b.req.roleId == 0;
      assert RoleById(db, 0).None?;
    }
  }
}

=== FILE: admin_page.dfy ===
/** The pure parts of the admin page, frontend/app/admin/page.tsx: the
    form, the payloads it sends and how the local user list changes. Each
    handler receives the outcome of its API call as a parameter. */
module AdminPage {
  import opened Wrappers
  import opened Json
  import opened Text
  import opened ClientTypes

  datatype Form = Form(email: string, name: string, password: string, role: string)

  const EmptyForm := Form("", "", "", "user")

  /** The page state; `users` is the list `useApi` holds. */
  datatype Page = Page(users: Option<seq<User>>, showCreateForm: bool, editingUser: Option<User>, form: Form)

  /** An API call a handler issues. */
  datatype AdminCall = CreateUser(body: Json) | UpdateUser(id: string, body: Json) | DeleteUser(id: string)

  /** A handler's result: the new page, the call it made, and whether it
      asks `execute` to reload the list. */
  datatype Outcome = Outcome(page: Page, call: Option<AdminCall>, reload: bool)

  /** `users.filter(user => user.id !== id)`. */
  function WithoutId(users: seq<User>, id: string): (r: seq<User>)
    ensures |r| <= |users|
    ensures forall i :: 0 <= i < |r| ==> r[i].id != id
    ensures forall u :: u in users && u.id != id ==> u in r
    ensures forall u :: u in r ==> u in users
    decreases |users|
  {
    if |users| == 0 then []
    else if users[0].id != id then [users[0]] + WithoutId(users[1..], id)
    else WithoutId(users[1..], id)
  }

  /** The filter works piecewise, so the survivors keep their order. */
  lemma {:induction false} WithoutIdAppend(a: seq<User>, b: seq<User>, id: string)
    ensures WithoutId(a + b, id) == WithoutId(a, id) + WithoutId(b, id)
    decreases |a|
  {
    if |a| == 0 {
      assert a + b == b;
    } else {
      assert (a + b)[1..] == a[1..] + b;
      WithoutIdAppend(a[1..], b, id);
    }
  }

  /** A list with no user of that id is left exactly as it was. */
  lemma {:induction false} WithoutIdAbsent(users: seq<User>, id: string)
    requires forall i :: 0 <= i < |users| ==> users[i].id != id
    ensures WithoutId(users, id) == users
    decreases |users|
  {
    if |users| > 0 {
      WithoutIdAbsent(users[1..], id);
    }
  }

  /** `handleDeleteUser(id)`: only a confirmed and successful delete touches
      the list, and a null list stays null. */
  function HandleDelete(p: Page, id: string, confirmed: bool, success: bool): (out: Outcome)
    ensures out.call == (if confirmed then Some(DeleteUser(id)) else None)
    ensures !(confirmed && success) ==> out.page == p
    ensures confirmed && success ==> out.page == p.(users := if p.users.Some? then Some(WithoutId(p.users.value, id)) else None)
    ensures !out.reload
  {
    if !confirmed then Outcome(p, None, false)
    else if !success then Outcome(p, Some(DeleteUser(id)), false)
    else
      var users := if p.users.Some? then Some(WithoutId(p.users.value, id)) else None;
      Outcome(p.(users := users), Some(DeleteUser(id)), false)
  }

  /** The create body: all four form fields. */
  function CreateBody(f: Form): (j: Json)
    ensures j.JObj? && j.fields.Keys == {"email", "name", "password", "role"}
    ensures j.fields["password"] == JStr(f.password)
  {
    JObj(map["email" := JStr(f.email), "name" := JStr(f.name), "password" := JStr(f.password), "role" := JStr(f.role)])
  }

  /** The update body: email, name and role always; the password only when
      it is not blank. */
  function UpdateBody(f: Form): (j: Json)
    ensures j.JObj?
    ensures {"email", "name", "role"} <= j.fields.Keys
    ensures j.fields["email"] == JStr(f.email) && j.fields["name"] == JStr(f.name) && j.fields["role"] == JStr(f.role)
    ensures "password" in j.fields <==> Trim(f.password) != ""
    ensures "password" in j.fields ==> j.fields["password"] == JStr(f.password)
    ensures j.fields.Keys <= {"email", "name", "password", "role"}
  {
    var base := map["email" := JStr(f.email), "name" := JStr(f.name), "role" := JStr(f.role)];
    if Trim(f.password) != "" then JObj(base["password" := JStr(f.password)]) else JObj(base)
  }

  /** `handleCreateUser`: success closes and clears the form and reloads;
      failure leaves the page as it was. */
  function HandleCreate(p: Page, success: bool): (out: Outcome)
    ensures out.call == Some(CreateUser(CreateBody(p.form)))
    ensures success ==> !out.page.showCreateForm && out.page.form == EmptyForm && out.reload
    ensures !success ==> out.page == p && !out.reload
    ensures out.page.users == p.users && out.page.editingUser == p.editingUser
  {
    if success then Outcome(p.(showCreateForm := false, form := EmptyForm), Some(CreateUser(CreateBody(p.form))), true)
    else Outcome(p, Some(CreateUser(CreateBody(p.form))), false)
  }

  /** `handleUpdateUser`: without a user being edited nothing is sent. */
  function HandleUpdate(p: Page, success: bool): (out: Outcome)
    ensures p.editingUser.None? ==> out == Outcome(p, None, false)
    ensures p.editingUser.Some? ==> out.call == Some(UpdateUser(p.editingUser.value.id, UpdateBody(p.form)))
    ensures p.editingUser.Some? && success ==> out.page.editingUser.None? && out.page.form == EmptyForm && out.reload
    ensures !success ==> out.page == p && !out.reload
  {
    if p.editingUser.None? then Outcome(p, None, false)
    else
      var call := Some(UpdateUser(p.editingUser.value.id, UpdateBody(p.form)));
      if success then Outcome(p.(editingUser := None, form := EmptyForm), call, true)
      else Outcome(p, call, false)
  }

  /** `startEdit(user)`: the form holds the user's fields and a blank
      password, so saving without typing one sends no password. */
  function StartEdit(p: Page, u: User): (p': Page)
    ensures p'.editingUser == Some(u)
    ensures p'.form.email == u.email && p'.form.name == u.name && p'.form.role == u.role && p'.form.password == ""
    ensures "password" !in UpdateBody(p'.form).fields
    ensures p'.users == p.users && p'.showCreateForm == p.showCreateForm
  {
    assert Trim("") == "";
    p.(editingUser := Some(u), form := Form(u.email, u.name, "", u.role))
  }

  /** `resetForm()`. */
  function ResetForm(p: Page): (p': Page)
    ensures !p'.showCreateForm && p'.editingUser.None? && p'.form == EmptyForm
    ensures p'.users == p.users
  {
    p.(showCreateForm := false, editingUser := None, form := EmptyForm)
  }

  /** Editing a user and saving unchanged sends back exactly the fields the
      user already had. */
  lemma EditRoundTrip(p: Page, u: User)
    ensures var body := UpdateBody(StartEdit(p, u).form);
            body == JObj(map["email" := JStr(u.email), "name" := JStr(u.name), "role" := JStr(u.role)])
  {
    assert Trim("") == "";
  }
}

=== FILE: api_client.dfy ===
/** The HTTP client of frontend/lib/api-client.ts: a bearer token held in
    memory, cookies in the browser jar, and `request`, which turns every fetch
    outcome into an `ApiResponse` and answers a 401 by refreshing the access
    token and re-issuing itself.

    The network is a script: the replies the server will give, in order. Each
    fetch consumes one reply; once the script is exhausted every fetch rejects.
    Since every `request` consumes a reply, the recursive retry terminates on
    the script's length; nothing caps the number of retries. */
module ApiClient {
  import opened Wrappers
  import opened Json
  import opened Cookies
  import opened ClientTypes

  const AccessCookie := "accessToken"
  const RefreshCookie := "refreshToken"

  const RegisterPath := "/api/auth/register"
  const LoginPath := "/api/auth/login"
  const LogoutPath := "/api/auth/logout"
  const RefreshPath := "/api/auth/refresh"
  const ForgotPasswordPath := "/api/auth/forgot-password"
  const ResetPasswordPath := "/api/auth/reset-password"
  const MePath := "/api/user/me"

  /** What `response.json()` yields: a value, or the SyntaxError it throws. */
  datatype Body = Parsed(json: Json) | Unparsable(syntaxError: string)

  /** The outcome of one `fetch`: an HTTP answer, or a rejection carrying the
      message of the thrown `Error` (`None` for a non-`Error` throw). */
  datatype Reply = Answer(status: int, body: Body) | Thrown(error: Option<string>)

  /** The rejection of a fetch the network cannot serve. */
  const FetchFailed := Thrown(Some("Failed to fetch"))

  /** A request as issued: endpoint, method and JSON body. */
  datatype Call = Call(endpoint: string, verb: string, body: Option<Json>)

  /** A request as it left the client, with the bearer token it carried. */
  datatype Sent = Sent(call: Call, bearer: Option<string>)

  /** Everything the client reads and writes. `token` is the in-memory access
      token, `Some` only when its JavaScript value is truthy. */
  datatype World = World(hasWindow: bool, jar: Jar, token: Option<string>, script: seq<Reply>, sent: seq<Sent>)

  /** A result paired with the world after it. */
  datatype Exchange<T> = Exchange(result: T, world: World)

  predicate IsOk(status: int) {
    200 <= status <= 299
  }

  /** The next reply the server will give. */
  function Head(script: seq<Reply>): Reply {
    if |script| > 0 then script[0] else FetchFailed
  }

  /** An in-memory token is never the empty string. */
  predicate TokenOk(w: World) {
    w.token.Some? ==> w.token.value != ""
  }

  /** `getCookie(name)`: null without a window, else the jar's value (the
      string parser returns exactly this, see `Cookies.ParsersReadJar`). */
  function ReadCookie(w: World, name: string): (r: Option<string>)
    ensures !w.hasWindow ==> r.None?
    ensures r.Some? <==> w.hasWindow && name in w.jar
    ensures r.Some? ==> r.value == w.jar[name]
  {
    if w.hasWindow then Lookup(w.jar, name) else None
  }

  /** `setCookie(name, value)`: dropped without a window. */
  function SetCookie(w: World, name: string, value: string): (w': World)
    ensures ReadCookie(w', name) == (if w.hasWindow then Some(value) else None)
    ensures forall n :: n != name ==> ReadCookie(w', n) == ReadCookie(w, n)
    ensures !w.hasWindow ==> w' == w
    ensures w'.token == w.token && w'.script == w.script && w'.sent == w.sent && w'.hasWindow == w.hasWindow
  {
    if w.hasWindow then w.(jar := w.jar[name := value]) else w
  }

  /** `deleteCookie(name)`: dropped without a window. */
  function DeleteCookie(w: World, name: string): (w': World)
    ensures ReadCookie(w', name).None?
    ensures forall n :: n != name ==> ReadCookie(w', n) == ReadCookie(w, n)
    ensures !w.hasWindow ==> w' == w
    ensures w'.token == w.token && w'.script == w.script && w'.sent == w.sent && w'.hasWindow == w.hasWindow
  {
    if w.hasWindow then w.(jar := w.jar - {name}) else w
  }

  /** `setAccessToken(v)` logs `v.substring(0, 20)` when `v` is truthy,
      which throws a TypeError unless `v` is a string. */
  predicate LogThrows(v: Option<Json>) {
    Truthy(v) && !v.value.JStr?
  }

  /** The in-memory token `setAccessToken(v)` leaves: the value's text when
      it is truthy, otherwise nothing usable. */
  function Bearer(v: Option<Json>): (t: Option<string>)
    ensures t.Some? <==> Truthy(v)
    ensures t.Some? ==> t.value != ""
    ensures Truthy(v) && v.value.JStr? ==> t == Some(v.value.s)
  {
    if Truthy(v) then
      assert ToText(v) != "" by { if v.value.JNum? { assert ToText(v) == Text.IntToDecimal(v.value.n); } }
      Some(ToText(v))
    else None
  }

  /** `setAccessToken` with a string argument. */
  function TokenOf(s: string): Option<string> {
    Bearer(Some(JStr(s)))
  }

  /** What any client operation may do to the world: keep the window, use
      up replies, append to the sent log, and keep the token well-formed. */
  predicate Advances(w: World, w': World) {
    && w'.hasWindow == w.hasWindow
    && |w'.script| <= |w.script|
    && |w.sent| <= |w'.sent| && w'.sent[..|w.sent|] == w.sent
    && (TokenOk(w) ==> TokenOk(w'))
  }

  lemma AdvancesTrans(a: World, b: World, c: World)
    requires Advances(a, b) && Advances(b, c)
    ensures Advances(a, c)
  {
    assert c.sent[..|a.sent|] == c.sent[..|b.sent|][..|a.sent|];
  }

  /** One `fetch`: consume the next reply and record what was sent. */
  function Fetch(w: World, c: Call, bearer: Option<string>): (out: Exchange<Reply>)
    ensures out.result == Head(w.script)
    ensures out.world.sent == w.sent + [Sent(c, bearer)]
    ensures out.result.Answer? ==> |out.world.script| < |w.script|
    ensures Advances(w, out.world) && out.world.jar == w.jar && out.world.token == w.token
  {
    Exchange(Head(w.script), w.(script := if |w.script| > 0 then w.script[1..] else [], sent := w.sent + [Sent(c, bearer)]))
  }

  /** `data.message || 'An error occurred'`; reading `message` off a null
      body throws, and the catch turns that into the TypeError's message. */
  function ErrorText(data: Json): (e: string)
    ensures e != ""
    ensures data.JObj? && "message" !in data.fields ==> e == "An error occurred"
  {
    match Get(Some(data), "message")
    case Throws(m) => m
    case Read(v) =>
      if Truthy(v) then
        assert ToText(v) != "" by { if v.value.JNum? { assert ToText(v) == Text.IntToDecimal(v.value.n); } }
        ToText(v)
      else "An error occurred"
  }

  /** The catch branch: the `Error`'s message, or `'Network error'`. */
  function ThrownText(error: Option<string>): (t: string)
    ensures error.Some? ==> t == error.value
    ensures error.None? ==> t == "Network error"
  {
    error.GetOr("Network error")
  }

  /** A refresh credential `refreshToken()` will use: present and truthy. */
  predicate HasRefreshCredential(w: World) {
    var rt := ReadCookie(w, RefreshCookie);
    rt.Some? && rt.value != ""
  }

  function RefreshCall(refreshToken: string): Call {
    Call(RefreshPath, "POST", Some(Single("refreshToken", JStr(refreshToken))))
  }

  /** Wipe both cookies and the in-memory token. */
  function ClearCredentials(w: World): (w': World)
    ensures ReadCookie(w', AccessCookie).None? && ReadCookie(w', RefreshCookie).None? && w'.token.None?
    ensures forall n :: n != AccessCookie && n != RefreshCookie ==> ReadCookie(w', n) == ReadCookie(w, n)
    ensures w.hasWindow ==> w'.jar == w.jar - {AccessCookie, RefreshCookie}
    ensures !w.hasWindow ==> w'.jar == w.jar
    ensures w'.script == w.script && w'.sent == w.sent && w'.hasWindow == w.hasWindow
  {
    DeleteCookie(DeleteCookie(w, AccessCookie), RefreshCookie).(token := None)
  }

  /** The reply carries what a successful refresh reads: a 2xx answer whose
      body parses to something that is not null, with an `accessToken` that
      `setAccessToken` can log. Anything else ends in the catch, or skips the
      `if`, and falls through to clearing the credentials. */
  predicate RefreshAccepted(r: Reply) {
    && r.Answer? && IsOk(r.status) && r.body.Parsed? && r.body.json != JNull
    && !LogThrows(Field(r.body.json, "accessToken"))
  }

  /** `refreshToken()`: without a credential, false and nothing touched;
      otherwise one unauthenticated POST, then either the new access token
      stored in memory and in the cookie (and a rotated refresh token if one
      came back), or every credential wiped. */
  function RefreshToken(w: World): (out: Exchange<bool>)
    ensures Advances(w, out.world)
    ensures out.result ==> |out.world.script| < |w.script|
    ensures !HasRefreshCredential(w) ==> out == Exchange(false, w)
    ensures HasRefreshCredential(w) ==>
              out.world.sent == w.sent + [Sent(RefreshCall(w.jar[RefreshCookie]), None)]
    ensures HasRefreshCredential(w) ==> (out.result <==> RefreshAccepted(Head(w.script)))
    ensures HasRefreshCredential(w) && !out.result ==>
              out.world.jar == w.jar - {AccessCookie, RefreshCookie} && out.world.token.None?
    ensures out.result ==>
              var d := Head(w.script).body.json;
              && out.world.token == Bearer(Field(d, "accessToken"))
              && Lookup(out.world.jar, AccessCookie) == Some(ToText(Field(d, "accessToken")))
              && Lookup(out.world.jar, RefreshCookie)
                   == (if Truthy(Field(d, "refresh_token")) then Some(ToText(Field(d, "refresh_token")))
                       else Lookup(w.jar, RefreshCookie))
              && forall n :: n != AccessCookie && n != RefreshCookie ==> Lookup(out.world.jar, n) == Lookup(w.jar, n)
  {
    if !HasRefreshCredential(w) then Exchange(false, w)
    else
      var rt := ReadCookie(w, RefreshCookie).value;
      var f := Fetch(w, RefreshCall(rt), None);
      if RefreshAccepted(f.result) then
        var d := f.result.body.json;
        var access := Field(d, "accessToken");
        var w1 := SetCookie(f.world.(token := Bearer(access)), AccessCookie, ToText(access));
        var rotated := Field(d, "refresh_token");
        var w2 := if Truthy(rotated) then SetCookie(w1, RefreshCookie, ToText(rotated)) else w1;
        Exchange(true, w2)
      else
        Exchange(false, ClearCredentials(f.world))
  }

  /** `request(endpoint, options)`: it never throws. A 2xx answer is a
      success carrying the body; a 401 while a token is held triggers a
      refresh and, if that succeeded, the whole request again; every other
      outcome is a failure with the server's `message`, the exception's
      message, or a fixed fallback. */
  function Request(w: World, c: Call): (out: Exchange<ApiResponse<Json>>)
    ensures out.result.success <==> out.result.data.Some?
    ensures out.result.success <==> out.result.error.None?
    ensures Advances(w, out.world) && |out.world.sent| > |w.sent|
    decreases |w.script|
  {
    var f := Fetch(w, c, w.token);
    match f.result
    case Thrown(e) => Exchange(Failed(ThrownText(e)), f.world)
    case Answer(status, body) =>
      match body
      case Unparsable(m) => Exchange(Failed(m), f.world)
      case Parsed(data) =>
        if IsOk(status) then Exchange(Succeeded(data), f.world)
        else if status == 401 && w.token.Some? then
          var r := RefreshToken(f.world);
          if r.result then
            var again := Request(r.world, c);
            AdvancesTrans(w, f.world, r.world);
            AdvancesTrans(w, r.world, again.world);
            again
          else Exchange(Failed(ErrorText(data)), r.world)
        else Exchange(Failed(ErrorText(data)), f.world)
  }

  /** The first sent call, the one for `c`, carries the in-memory token. */
  lemma RequestSendsBearer(w: World, c: Call)
    ensures Request(w, c).world.sent[|w.sent|] == Sent(c, w.token)
  {
    var out := Request(w, c);
    var f := Fetch(w, c, w.token);
    assert f.world.sent[|w.sent|] == Sent(c, w.token);
    if Head(w.script).Answer? && Head(w.script).body.Parsed? && !IsOk(Head(w.script).status)
       && Head(w.script).status == 401 && w.token.Some? {
      var r := RefreshToken(f.world);
      if r.result {
        assert r.world.sent[..|f.world.sent|] == f.world.sent;
        assert out.world.sent[..|r.world.sent|] == r.world.sent;
      }
    }
  }

  /** Outcomes that never refresh: one fetch, and the reply alone decides
      the response; cookies and token are untouched. */
  lemma RequestWithoutRefresh(w: World, c: Call)
    requires var r := Head(w.script);
             !(r.Answer? && r.status == 401 && r.body.Parsed? && w.token.Some?)
    ensures var out := Request(w, c);
            var r := Head(w.script);
            && |out.world.sent| == |w.sent| + 1
            && out.world.jar == w.jar && out.world.token == w.token
            && (r.Thrown? ==> out.result == Failed(ThrownText(r.error)))
            && (r.Answer? && r.body.Unparsable? ==> out.result == Failed(r.body.syntaxError))
            && (r.Answer? && r.body.Parsed? && IsOk(r.status) ==> out.result == Succeeded(r.body.json))
            && (r.Answer? && r.body.Parsed? && !IsOk(r.status) ==> out.result == Failed(ErrorText(r.body.json)))
  {
  }

  /** A 401 while a token is held, with no refresh credential: no refresh
      call goes out and the 401's own message is returned. */
  lemma Unauthorized401WithoutCredential(w: World, c: Call)
    requires var r := Head(w.script);
             r.Answer? && r.status == 401 && r.body.Parsed? && w.token.Some?
    requires !HasRefreshCredential(w)
    ensures var out := Request(w, c);
            && out.result == Failed(ErrorText(Head(w.script).body.json))
            && out.world.sent == w.sent + [Sent(c, w.token)]
            && out.world.jar == w.jar && out.world.token == w.token
  {
    var f := Fetch(w, c, w.token);
    assert ReadCookie(f.world, RefreshCookie) == ReadCookie(w, RefreshCookie);
  }

  /** A 401 whose refresh is refused: both cookies and the token are gone,
      exactly one refresh call was made, and the 401's message is returned. */
  lemma Unauthorized401RefreshRefused(w: World, c: Call)
    requires var r := Head(w.script);
             r.Answer? && r.status == 401 && r.body.Parsed? && w.token.Some?
    requires HasRefreshCredential(w)
    requires !RefreshAccepted(Head(w.script[1..]))
    ensures var out := Request(w, c);
            && out.result == Failed(ErrorText(Head(w.script).body.json))
            && out.world.sent == w.sent + [Sent(c, w.token), Sent(RefreshCall(w.jar[RefreshCookie]), None)]
            && out.world.jar == w.jar - {AccessCookie, RefreshCookie}
            && out.world.token.None?
  {
    var f := Fetch(w, c, w.token);
    assert ReadCookie(f.world, RefreshCookie) == ReadCookie(w, RefreshCookie);
    assert f.world.script == w.script[1..];
  }

  /** One round of the server's side: a 401, then a refresh granting `t`. */
  function Round(t: string): seq<Reply> {
    [Answer(401, Parsed(JObj(map[]))), Answer(200, Parsed(Single("accessToken", JStr(t))))]
  }

  /** The server's script for `k` rounds of `Round(t)`. */
  function RetryRounds(k: nat, t: string): (s: seq<Reply>)
    ensures |s| == 2 * k
  {
    if k == 0 then [] else RetryRounds(k - 1, t) + Round(t)
  }

  lemma {:induction false} RetryRoundsFront(k: nat, t: string)
    requires k > 0
    ensures RetryRounds(k, t) == Round(t) + RetryRounds(k - 1, t)
  {
    if k > 1 {
      RetryRoundsFront(k - 1, t);
    }
  }

  /** The world after one round: the call and the refresh have been sent,
      and the refreshed token is in memory and in the cookie. */
  function AfterRound(w: World, c: Call, t: string, rest: seq<Reply>): World
    requires HasRefreshCredential(w)
  {
    w.(jar := w.jar[AccessCookie := t], token := Some(t), script := rest,
       sent := w.sent + [Sent(c, w.token), Sent(RefreshCall(w.jar[RefreshCookie]), None)])
  }

  /** One round: a 401 followed by a granted refresh leaves `request`
      exactly where it started, with the new token. */
  lemma RetryRound(w: World, c: Call, t: string, rest: seq<Reply>)
    requires w.hasWindow && w.token.Some? && HasRefreshCredential(w) && t != ""
    requires w.script == Round(t) + rest
    ensures Request(w, c) == Request(AfterRound(w, c, t, rest), c)
  {
    var f := Fetch(w, c, w.token);
    assert f.world.script == [Answer(200, Parsed(Single("accessToken", JStr(t))))] + rest;
    assert ReadCookie(f.world, RefreshCookie) == ReadCookie(w, RefreshCookie);
    var r := RefreshToken(f.world);
    assert Field(Single("accessToken", JStr(t)), "accessToken") == Some(JStr(t));
    assert Field(Single("accessToken", JStr(t)), "refresh_token") == None;
    assert r.result;
    assert r.world == AfterRound(w, c, t, rest);
  }

  /** The log `request` leaves against `RetryRounds(k, t)`, from position
      `n`: the call, then alternately a refresh and the call again, every
      re-issued call carrying the refreshed token, and one final call. */
  predicate RetryLog(log: seq<Sent>, n: nat, c: Call, k: nat, t: string) {
    && |log| == n + 2 * k + 1
    && (forall i :: 0 <= i <= k ==> log[n + 2 * i].call == c)
    && (forall i :: 1 <= i <= k ==> log[n + 2 * i].bearer == Some(t))
    && (forall i :: 0 <= i < k ==> log[n + 2 * i + 1].call.endpoint == RefreshPath)
  }

  lemma RetryLogExtend(log: seq<Sent>, n: nat, c: Call, k: nat, t: string)
    requires k > 0 && RetryLog(log, n + 2, c, k - 1, t)
    requires log[n].call == c && log[n + 1].call.endpoint == RefreshPath && log[n + 2].bearer == Some(t)
    ensures RetryLog(log, n, c, k, t)
  {
    forall i | 1 <= i <= k
      ensures log[n + 2 * i].call == c && log[n + 2 * i].bearer == Some(t)
    {
      assert n + 2 * i == (n + 2) + 2 * (i - 1);
    }
    forall i | 1 <= i < k
      ensures log[n + 2 * i + 1].call.endpoint == RefreshPath
    {
      assert n + 2 * i + 1 == (n + 2) + 2 * (i - 1) + 1;
    }
  }

  lemma RetryStep(w: World, c: Call, k: nat, t: string)
    requires w.hasWindow && w.token.Some? && HasRefreshCredential(w)
    requires t != "" && w.script == RetryRounds(k, t) && k > 0
    requires var o := Request(AfterRound(w, c, t, RetryRounds(k - 1, t)), c);
             o.result == Failed("Failed to fetch") && RetryLog(o.world.sent, |w.sent| + 2, c, k - 1, t)
    ensures var out := Request(w, c);
            out.result == Failed("Failed to fetch") && RetryLog(out.world.sent, |w.sent|, c, k, t)
  {
    var w' := AfterRound(w, c, t, RetryRounds(k - 1, t));
    RetryRoundsFront(k, t);
    RetryRound(w, c, t, RetryRounds(k - 1, t));
    RequestSendsBearer(w', c);
    var log := Request(w', c).world.sent;
    assert log[..|w'.sent|] == w'.sent;
    assert log[|w.sent|] == w'.sent[|w.sent|];
    assert log[|w.sent| + 1] == w'.sent[|w.sent| + 1];
    RetryLogExtend(log, |w.sent|, c, k, t);
  }

  /** The retry is not bounded to one: against a server that keeps answering
      401 and keeps granting refreshes, `request` re-issues the call after
      every refresh, each time with the refreshed token, until the server
      stops answering. */
  lemma {:induction false} RetryIsUnbounded(w: World, c: Call, k: nat, t: string)
    requires w.hasWindow && w.token.Some? && HasRefreshCredential(w)
    requires t != "" && w.script == RetryRounds(k, t)
    ensures var out := Request(w, c);
            out.result == Failed("Failed to fetch") && RetryLog(out.world.sent, |w.sent|, c, k, t)
    decreases k
  {
    if k == 0 {
      RequestWithoutRefresh(w, c);
      RequestSendsBearer(w, c);
    } else {
      var w' := AfterRound(w, c, t, RetryRounds(k - 1, t));
      assert Lookup(w'.jar, RefreshCookie) == Lookup(w.jar, RefreshCookie);
      RetryIsUnbounded(w', c, k - 1, t);
      RetryStep(w, c, k, t);
    }
  }

  function LoginCall(credentials: Json): Call {
    Call(LoginPath, "POST", Some(credentials))
  }

  /** `login(data)`: the response is passed back unchanged; a success whose
      body holds a truthy `token` stores it in memory and in the access
      cookie, and a truthy `refresh_token` goes to the refresh cookie. */
  function Login(w: World, credentials: Json): (out: Exchange<ApiResponse<Json>>)
    ensures var req := Request(w, LoginCall(credentials));
            && out.result == req.result
            && out.world.sent == req.world.sent && out.world.script == req.world.script
    ensures var req := Request(w, LoginCall(credentials));
            var resp := req.result;
            var stores := resp.success && Truthy(resp.data) && Truthy(Field(resp.data.value, "token"));
            && (stores ==> out.world.token == Bearer(Field(resp.data.value, "token"))
                           && (w.hasWindow ==> Lookup(out.world.jar, AccessCookie) == Some(ToText(Field(resp.data.value, "token")))))
            && (!stores ==> out.world.token == req.world.token
                            && Lookup(out.world.jar, AccessCookie) == Lookup(req.world.jar, AccessCookie))
    ensures var req := Request(w, LoginCall(credentials));
            var resp := req.result;
            !(resp.success && Truthy(resp.data) && Truthy(Field(resp.data.value, "refresh_token")))
            ==> Lookup(out.world.jar, RefreshCookie) == Lookup(req.world.jar, RefreshCookie)
    ensures var req := Request(w, LoginCall(credentials));
            var resp := req.result;
            resp.success && Truthy(resp.data) && Truthy(Field(resp.data.value, "refresh_token")) && w.hasWindow
            ==> Lookup(out.world.jar, RefreshCookie) == Some(ToText(Field(resp.data.value, "refresh_token")))
    ensures var req := Request(w, LoginCall(credentials));
            forall n :: n != AccessCookie && n != RefreshCookie ==> Lookup(out.world.jar, n) == Lookup(req.world.jar, n)
    ensures out.world.hasWindow == w.hasWindow
  {
    var req := Request(w, LoginCall(credentials));
    var resp := req.result;
    if resp.success && Truthy(resp.data) then
      var d := resp.data.value;
      var token := Field(d, "token");
      var w1 := if Truthy(token) then SetCookie(req.world.(token := Bearer(token)), AccessCookie, ToText(token)) else req.world;
      var refresh := Field(d, "refresh_token");
      var w2 := if Truthy(refresh) then SetCookie(w1, RefreshCookie, ToText(refresh)) else w1;
      Exchange(resp, w2)
    else req
  }

  const LogoutCall := Call(LogoutPath, "POST", None)

  /** `logout()`: whatever the server said, both cookies and the in-memory
      token are gone afterwards; the server's answer is returned. */
  function Logout(w: World): (out: Exchange<ApiResponse<Json>>)
    ensures out.result == Request(w, LogoutCall).result
    ensures out.world.token.None?
    ensures w.hasWindow ==> AccessCookie !in out.world.jar && RefreshCookie !in out.world.jar
    ensures forall n :: n != AccessCookie && n != RefreshCookie ==>
              Lookup(out.world.jar, n) == Lookup(Request(w, LogoutCall).world.jar, n)
  {
    var req := Request(w, LogoutCall);
    Exchange(req.result, ClearCredentials(req.world))
  }

  function RegisterCall(data: Json): Call {
    Call(RegisterPath, "POST", Some(data))
  }

  function ForgotPasswordCall(email: string): Call {
    Call(ForgotPasswordPath, "POST", Some(Single("email", JStr(email))))
  }

  /** The reset body names its members `token` and `password`. */
  function ResetPasswordCall(token: string, password: string): Call {
    Call(ResetPasswordPath, "POST", Some(JObj(map["token" := JStr(token), "password" := JStr(password)])))
  }

  const MeCall := Call(MePath, "GET", None)

  /** The client's `User` built from the server's snake_case user object:
      `id` through `String()`, `created_at`/`updated_at` renamed. A numeric
      id becomes its decimal text, and string members are copied as they
      are. */
  function Normalize(apiUser: Json): (u: User)
    ensures Field(apiUser, "id").Some? && Field(apiUser, "id").value.JNum? ==> u.id == Text.IntToDecimal(Field(apiUser, "id").value.n)
    ensures Field(apiUser, "id").Some? && Field(apiUser, "id").value.JStr? ==> u.id == Field(apiUser, "id").value.s
    ensures Field(apiUser, "email").Some? && Field(apiUser, "email").value.JStr? ==> u.email == Field(apiUser, "email").value.s
    ensures Field(apiUser, "name").Some? && Field(apiUser, "name").value.JStr? ==> u.name == Field(apiUser, "name").value.s
    ensures Field(apiUser, "role").Some? && Field(apiUser, "role").value.JStr? ==> u.role == Field(apiUser, "role").value.s
    ensures Field(apiUser, "created_at").Some? && Field(apiUser, "created_at").value.JStr? ==> u.createdAt == Field(apiUser, "created_at").value.s
    ensures Field(apiUser, "updated_at").Some? && Field(apiUser, "updated_at").value.JStr? ==> u.updatedAt == Field(apiUser, "updated_at").value.s
  {
    User(ToText(Field(apiUser, "id")), ToText(Field(apiUser, "email")), ToText(Field(apiUser, "name")),
         ToText(Field(apiUser, "role")), ToText(Field(apiUser, "created_at")), ToText(Field(apiUser, "updated_at")))
  }

  /** `getCurrentUser()`: a success with a truthy body resolves to the
      normalised `data.user`, or rejects when `data.user` is null or missing
      (reading its `id` throws outside any catch); anything else resolves to
      a failure carrying the request's error. */
  function GetCurrentUser(w: World): (out: Exchange<Async<ApiResponse<User>>>)
    ensures out.world == Request(w, MeCall).world
    ensures var res := Request(w, MeCall).result;
            !(res.success && Truthy(res.data)) ==> out.result == Resolved(ApiResponse(false, None, res.error))
    ensures var res := Request(w, MeCall).result;
            res.success && Truthy(res.data) ==>
              var apiUser := Field(res.data.value, "user");
              && (out.result.Rejected? <==> (apiUser.None? || apiUser == Some(JNull)))
              && (out.result.Resolved? ==> out.result.value == Succeeded(Normalize(apiUser.value)))
  {
    var req := Request(w, MeCall);
    var res := req.result;
    if res.success && Truthy(res.data) then
      var apiUser := Field(res.data.value, "user");
      match Get(apiUser, "id")
      case Throws(m) => Exchange(Rejected(Some(m)), req.world)
      case Read(_) => Exchange(Resolved(Succeeded(Normalize(apiUser.value))), req.world)
    else Exchange(Resolved(ApiResponse(false, None, res.error)), req.world)
  }

  /** What loading the module does in a browser: adopt a truthy access
      cookie as the in-memory token. */
  function LoadModule(w: World): (w': World)
    ensures w'.jar == w.jar && w'.script == w.script && w'.sent == w.sent
    ensures w.hasWindow && ReadCookie(w, AccessCookie).Some? && ReadCookie(w, AccessCookie).value != ""
            ==> w'.token == ReadCookie(w, AccessCookie)
    ensures !(w.hasWindow && ReadCookie(w, AccessCookie).Some? && ReadCookie(w, AccessCookie).value != "")
            ==> w'.token == w.token
  {
    var t := ReadCookie(w, AccessCookie);
    if w.hasWindow && t.Some? && t.value != "" then w.(token := TokenOf(t.value)) else w
  }
}

=== FILE: auth_context.dfy ===
/** The authentication context of frontend/contexts/auth-context.tsx: a
    reducer over `AuthState` and the provider's actions, each a sequence of
    dispatches around one API call. */
module AuthContext {
  import opened Wrappers
  import opened Json
  import opened ClientTypes
  import opened Cookies
  import ApiClient

  datatype AuthState = AuthState(user: Option<User>, loading: bool, error: Option<string>, isAuthenticated: bool)

  /** The reducer's actions; a `SetUser` payload that is falsy is `None`. */
  datatype Action =
    | SetLoading(loading: bool)
    | SetUser(user: Option<User>)
    | SetError(error: Option<string>)
    | LogoutAction

  const InitialState := AuthState(None, true, None, false)

  /** `isAuthenticated` says exactly whether a user is held. */
  predicate Consistent(s: AuthState) {
    s.isAuthenticated <==> s.user.Some?
  }

  /** `authReducer`. */
  function Reduce(s: AuthState, a: Action): (s': AuthState)
    ensures Consistent(s) ==> Consistent(s')
    ensures !a.SetLoading? ==> !s'.loading
    ensures a.SetLoading? ==> s' == s.(loading := a.loading)
    ensures a.SetError? ==> s'.user == s.user && s'.error == a.error && s'.isAuthenticated == s.isAuthenticated
    ensures a.SetUser? ==> s'.user == a.user && s'.error.None? && s'.isAuthenticated == a.user.Some?
    ensures a.LogoutAction? ==> s'.user.None? && s'.error.None? && !s'.isAuthenticated
  {
    match a
    case SetLoading(b) => s.(loading := b)
    case SetUser(u) => s.(user := u, isAuthenticated := u.Some?, loading := false, error := None)
    case SetError(e) => s.(error := e, loading := false)
    case LogoutAction => InitialState.(loading := false)
  }

  /** Dispatching a sequence of actions in order. */
  function Run(s: AuthState, actions: seq<Action>): AuthState
    decreases |actions|
  {
    if |actions| == 0 then s else Run(Reduce(s, actions[0]), actions[1..])
  }

  /** Whatever is dispatched, starting from the initial state, the flag and
      the user never disagree. */
  lemma {:induction false} RunConsistent(s: AuthState, actions: seq<Action>)
    requires Consistent(s)
    ensures Consistent(Run(s, actions))
    decreases |actions|
  {
    if |actions| > 0 {
      RunConsistent(Reduce(s, actions[0]), actions[1..]);
    }
  }

  /** Dispatching `a` and then `b` is running the two-action sequence. */
  lemma RunPair(s: AuthState, a: Action, b: Action)
    ensures Run(s, [a, b]) == Reduce(Reduce(s, a), b)
  {
    assert [a, b][1..] == [b];
    assert [b][1..] == [];
    assert Run(Reduce(s, a), [b]) == Run(Reduce(Reduce(s, a), b), []);
  }

  /** The spinner stops after anything but `SET_LOADING(true)`. */
  lemma {:induction false} RunStopsLoading(s: AuthState, actions: seq<Action>)
    requires |actions| > 0 && actions[|actions| - 1] != SetLoading(true)
    ensures !Run(s, actions).loading
    decreases |actions|
  {
    if |actions| == 1 {
      assert actions[0].SetLoading? ==> actions[0] == SetLoading(actions[0].loading);
      assert Run(s, actions) == Reduce(s, actions[0]);
    } else {
      assert actions[1..][|actions[1..]| - 1] == actions[|actions| - 1];
      RunStopsLoading(Reduce(s, actions[0]), actions[1..]);
    }
  }

  /** The provider's state together with the client's world. */
  datatype Session = Session(state: AuthState, world: ApiClient.World)

  /** An action's boolean answer and the session after it. */
  datatype Step = Step(ok: bool, session: Session)

  /** The context's own `setCookie`/`deleteCookie` write `document.cookie`
      without checking for a window. */
  function Store(w: ApiClient.World, name: string, value: string): ApiClient.World {
    w.(jar := w.jar[name := value])
  }

  function Forget(w: ApiClient.World, name: string): ApiClient.World {
    w.(jar := w.jar - {name})
  }

  /** Both cookies deleted and the in-memory token dropped. */
  function SignOut(w: ApiClient.World): (w': ApiClient.World)
    ensures ApiClient.AccessCookie !in w'.jar && ApiClient.RefreshCookie !in w'.jar && w'.token.None?
    ensures forall n :: n != ApiClient.AccessCookie && n != ApiClient.RefreshCookie ==> Lookup(w'.jar, n) == Lookup(w.jar, n)
    ensures w'.script == w.script && w'.sent == w.sent && w'.hasWindow == w.hasWindow
  {
    Forget(Forget(w, ApiClient.AccessCookie), ApiClient.RefreshCookie).(token := None)
  }

  /** A truthy `SET_USER` payload read from a response body. */
  function UserPayload(v: Option<Json>): (u: Option<User>)
    ensures u.Some? <==> Truthy(v)
    ensures u.Some? ==> u.value == UserFromJson(v.value)
  {
    if Truthy(v) then Some(UserFromJson(v.value)) else None
  }

  /** `response.success && response.data` for a `getCurrentUser()` that
      resolved. */
  predicate HasUser(r: Async<ApiResponse<User>>) {
    r.Resolved? && r.value.success && r.value.data.Some?
  }

  /** `initializeAuth`: no window or no access cookie just stops loading;
      otherwise the cookie becomes the bearer and `/user/me` decides: a user
      signs in, a failure wipes both cookies and the token. When
      `getCurrentUser` rejects, nothing is dispatched and loading never
      ends. */
  function InitializeAuth(s: Session): (s': Session)
    ensures var w := s.world;
            var t := ApiClient.ReadCookie(w, ApiClient.AccessCookie);
            (!w.hasWindow || t.None? || t.value == "") ==> s' == Session(s.state.(loading := false), w)
    ensures Consistent(s.state) ==> Consistent(s'.state)
    ensures var w := s.world;
            var t := ApiClient.ReadCookie(w, ApiClient.AccessCookie);
            w.hasWindow && t.Some? && t.value != "" ==>
              var me := ApiClient.GetCurrentUser(w.(token := ApiClient.TokenOf(t.value)));
              && (me.result.Rejected? ==> s' == Session(s.state, me.world))
              && (HasUser(me.result) ==>
                    && s'.state.user == me.result.value.data && s'.state.isAuthenticated
                    && !s'.state.loading && s'.state.error.None? && s'.world == me.world)
              && (me.result.Resolved? && !HasUser(me.result) ==>
                    && s'.state == s.state.(loading := false)
                    && ApiClient.AccessCookie !in s'.world.jar && ApiClient.RefreshCookie !in s'.world.jar
                    && s'.world.token.None?
                    && forall n :: n != ApiClient.AccessCookie && n != ApiClient.RefreshCookie ==>
                         Lookup(s'.world.jar, n) == Lookup(me.world.jar, n))
    ensures s.state == InitialState && s'.state.loading ==>
              var t := ApiClient.ReadCookie(s.world, ApiClient.AccessCookie).value;
              ApiClient.GetCurrentUser(s.world.(token := ApiClient.TokenOf(t))).result.Rejected?
  {
    var w := s.world;
    if !w.hasWindow then Session(Reduce(s.state, SetLoading(false)), w)
    else
      var t := ApiClient.ReadCookie(w, ApiClient.AccessCookie);
      if t.None? || t.value == "" then Session(Reduce(s.state, SetLoading(false)), w)
      else
        var me := ApiClient.GetCurrentUser(w.(token := ApiClient.TokenOf(t.value)));
        match me.result
        case Rejected(_) => Session(s.state, me.world)
        case Resolved(response) =>
          if HasUser(me.result) then
            Session(Reduce(s.state, SetUser(response.data)), me.world)
          else
            Session(Reduce(s.state, SetLoading(false)), SignOut(me.world))
  }

  /** `login(credentials)`. */
  function Login(s: Session, credentials: Json): (out: Step)
    ensures !out.session.state.loading
    ensures Consistent(s.state) ==> Consistent(out.session.state)
    ensures var resp := ApiClient.Login(s.world, credentials).result;
            out.ok <==> resp.success && Truthy(resp.data) && Truthy(Field(resp.data.value, "token"))
    ensures out.ok ==>
              var d := ApiClient.Login(s.world, credentials).result.data.value;
              && Lookup(out.session.world.jar, ApiClient.AccessCookie) == Some(ToText(Field(d, "token")))
              && out.session.world.token == ApiClient.Bearer(Field(d, "token"))
              && out.session.world.token.Some?
              && out.session.state.error.None?
    ensures out.ok ==>
              var d := ApiClient.Login(s.world, credentials).result.data.value;
              && (Truthy(Field(d, "refresh_token")) ==>
                    Lookup(out.session.world.jar, ApiClient.RefreshCookie) == Some(ToText(Field(d, "refresh_token"))))
              && out.session.state.user == (if Truthy(Field(d, "user")) then UserPayload(Field(d, "user")) else s.state.user)
    ensures !out.ok ==> (out.session.state.error.Some? && out.session.state.error.value != ""
                         && out.session.state.user == s.state.user)
    ensures var r := ApiClient.Login(s.world, credentials);
            var resp := r.result;
            resp.success && Truthy(resp.data) && !Truthy(Field(resp.data.value, "token")) ==>
              && out.session.state.error == Some("No access token found in server response")
              && out.session.world == r.world
    ensures var r := ApiClient.Login(s.world, credentials);
            var resp := r.result;
            !(resp.success && Truthy(resp.data)) ==>
              && out.session.state.error == Some(OrElse(resp.error, "Login failed"))
              && out.session.world == r.world
  {
    var st := Run(s.state, [SetLoading(true), SetError(None)]);
    var r := ApiClient.Login(s.world, credentials);
    var resp := r.result;
    if resp.success && Truthy(resp.data) then
      var d := resp.data.value;
      var token := Field(d, "token");
      if !Truthy(token) then
        Step(false, Session(Reduce(st, SetError(Some("No access token found in server response"))), r.world))
      else
        var w1 := Store(r.world, ApiClient.AccessCookie, ToText(token));
        var refresh := Field(d, "refresh_token");
        var w2 := if Truthy(refresh) then Store(w1, ApiClient.RefreshCookie, ToText(refresh)) else w1;
        var w3 := w2.(token := ApiClient.Bearer(token));
        var user := Field(d, "user");
        var st' := if Truthy(user) then Reduce(st, SetUser(UserPayload(user))) else st;
        Step(true, Session(st', w3))
    else
      Step(false, Session(Reduce(st, SetError(Some(OrElse(resp.error, "Login failed")))), r.world))
  }

  /** `register(data)`: a success with a body stores the body's
      `accessToken` and `refreshToken` as cookie text whatever they are, and
      signs in the body's `user`. */
  function Register(s: Session, data: Json): (out: Step)
    ensures !out.session.state.loading
    ensures Consistent(s.state) ==> Consistent(out.session.state)
    ensures var resp := ApiClient.Request(s.world, ApiClient.RegisterCall(data)).result;
            out.ok <==> resp.success && Truthy(resp.data)
    ensures out.ok ==>
              var d := ApiClient.Request(s.world, ApiClient.RegisterCall(data)).result.data.value;
              && Lookup(out.session.world.jar, ApiClient.AccessCookie) == Some(ToText(Field(d, "accessToken")))
              && Lookup(out.session.world.jar, ApiClient.RefreshCookie) == Some(ToText(Field(d, "refreshToken")))
              && out.session.world.token == ApiClient.Bearer(Field(d, "accessToken"))
              && out.session.state.user == UserPayload(Field(d, "user"))
    ensures !out.ok ==> out.session.state.error.Some? && out.session.state.error.value != ""
    ensures var r := ApiClient.Request(s.world, ApiClient.RegisterCall(data));
            !out.ok ==> && out.session.state.error == Some(OrElse(r.result.error, "Registration failed"))
                        && out.session.state.user == s.state.user
                        && out.session.world == r.world
  {
    var st := Run(s.state, [SetLoading(true), SetError(None)]);
    var r := ApiClient.Request(s.world, ApiClient.RegisterCall(data));
    var resp := r.result;
    if resp.success && Truthy(resp.data) then
      var d := resp.data.value;
      var w1 := Store(r.world, ApiClient.AccessCookie, ToText(Field(d, "accessToken")));
      var w2 := Store(w1, ApiClient.RefreshCookie, ToText(Field(d, "refreshToken")));
      var w3 := w2.(token := ApiClient.Bearer(Field(d, "accessToken")));
      Step(true, Session(Reduce(st, SetUser(UserPayload(Field(d, "user")))), w3))
    else
      Step(false, Session(Reduce(st, SetError(Some(OrElse(resp.error, "Registration failed")))), r.world))
  }

  /** `logout()`: whatever the server answers, the session ends signed out
      with no credentials left. */
  function Logout(s: Session): (s': Session)
    ensures s'.state == InitialState.(loading := false)
    ensures ApiClient.AccessCookie !in s'.world.jar && ApiClient.RefreshCookie !in s'.world.jar
    ensures s'.world.token.None?
  {
    var r := ApiClient.Logout(s.world);
    Session(Reduce(s.state, LogoutAction), SignOut(r.world))
  }

  /** `forgotPassword` and `resetPassword`: the answer is the response's
      `success`, and only a failure touches the state, recording an error. */
  function Outcome(s: Session, r: ApiClient.Exchange<ApiResponse<Json>>, fallback: string): (out: Step)
    requires fallback != ""
    ensures out.ok == r.result.success
    ensures out.session.world == r.world
    ensures out.ok ==> out.session.state == s.state
    ensures !out.ok ==> (out.session.state.error.Some? && out.session.state.error.value != ""
                         && out.session.state.user == s.state.user)
    ensures !out.ok ==> out.session.state.error == Some(OrElse(r.result.error, fallback))
  {
    if !r.result.success then
      Step(false, Session(Reduce(s.state, SetError(Some(OrElse(r.result.error, fallback)))), r.world))
    else Step(true, Session(s.state, r.world))
  }

  function ForgotPassword(s: Session, email: string): (out: Step)
    ensures out.ok == ApiClient.Request(s.world, ApiClient.ForgotPasswordCall(email)).result.success
    ensures !out.ok ==> out.session.state.error.Some?
    ensures out.ok ==> out.session.state == s.state
    ensures var r := ApiClient.Request(s.world, ApiClient.ForgotPasswordCall(email));
            && out.session.world == r.world
            && (!out.ok ==> out.session.state.error == Some(OrElse(r.result.error, "Failed to send reset email")))
  {
    Outcome(s, ApiClient.Request(s.world, ApiClient.ForgotPasswordCall(email)), "Failed to send reset email")
  }

  function ResetPassword(s: Session, token: string, password: string): (out: Step)
    ensures out.ok == ApiClient.Request(s.world, ApiClient.ResetPasswordCall(token, password)).result.success
    ensures !out.ok ==> out.session.state.error.Some?
    ensures out.ok ==> out.session.state == s.state
    ensures var r := ApiClient.Request(s.world, ApiClient.ResetPasswordCall(token, password));
            && out.session.world == r.world
            && (!out.ok ==> out.session.state.error == Some(OrElse(r.result.error, "Failed to reset password")))
  {
    Outcome(s, ApiClient.Request(s.world, ApiClient.ResetPasswordCall(token, password)), "Failed to reset password")
  }

  /** `refreshUser()`: nothing at all unless signed in; then a successful
      `/user/me` replaces the user, and anything else leaves the state. */
  function RefreshUser(s: Session): (s': Session)
    ensures !s.state.isAuthenticated ==> s' == s
    ensures Consistent(s.state) ==> Consistent(s'.state)
    ensures s'.state.user != s.state.user ==> s.state.isAuthenticated && s'.state.user.Some?
    ensures s.state.isAuthenticated ==>
              var me := ApiClient.GetCurrentUser(s.world);
              && s'.world == me.world
              && (HasUser(me.result) ==>
                    && s'.state.user == me.result.value.data && s'.state.isAuthenticated
                    && !s'.state.loading && s'.state.error.None?)
              && (!HasUser(me.result) ==> s'.state == s.state)
  {
    if !s.state.isAuthenticated then s
    else
      var me := ApiClient.GetCurrentUser(s.world);
      match me.result
      case Rejected(_) => Session(s.state, me.world)
      case Resolved(response) =>
        if HasUser(me.result) then Session(Reduce(s.state, SetUser(response.data)), me.world)
        else Session(s.state, me.world)
  }
}

=== FILE: auth_controller.dfy ===
/** The authentication handlers of backend/controllers/auth_controller.go
    over the store. */
module AuthController {
  import opened Wrappers
  import opened Json
  import Text
  import Validators
  import Binding
  import Jwt
  import opened Store
  import opened Server

  /** The user object of the register reply: id, name and e-mail. */
  function CreatedUser(u: User): Json {
    JObj(map["id" := JNum(u.id), "name" := JStr(u.name), "email" := JStr(u.email)])
  }

  /** The role a new user gets: the requested one, or the role named
      `"user"` when none was requested. */
  function DefaultRole(db: Db, requested: nat): (r: Option<nat>)
    ensures requested != 0 ==> r == Some(requested)
    ensures requested == 0 ==> (r.Some? <==> RoleByName(db, "user").Some?)
    ensures requested == 0 && r.Some? ==> r.value == RoleByName(db, "user").value.id
  {
    if requested != 0 then Some(requested)
    else match RoleByName(db, "user")
      case Some(role) => Some(role.id)
      case None => None
  }

  /** `Register`. */
  function Register(env: Env, db: Db, body: Json): (h: Handled)
    ensures h.response.status != 201 ==> h.db == db
    ensures h.response.status == 201 ==> Binding.BindRegister(body, env.isEmail, "validators", 8).Accepted?
    ensures h.response.status == 201 ==>
              var q := Binding.BindRegister(body, env.isEmail, "validators", 8).req;
              && UserByEmail(db, q.email).None?
              && exists u :: && h.db.users == db.users + [u] && h.db.roles == db.roles
                             && u.email == q.email && u.name == q.name && !u.deleted
                             && u.password == env.hash(q.password) && Text.ByteLen(q.password) <= MaxPasswordBytes
                             && u.id == db.nextUserId && !EmailTaken(db, u.email)
                             && Some(u.roleId) == DefaultRole(db, q.roleId)
                             && h.response.body == JObj(map["message" := JStr("User created successfully"), "user" := CreatedUser(u)])
    ensures Binding.BindRegister(body, env.isEmail, "validators", 8).Rejected? ==> h.response.status == 400
    ensures Valid(db) ==> Valid(h.db)
  {
    match Binding.BindRegister(body, env.isEmail, "validators", 8)
    case Rejected(details) =>
      Handled(Response(400, JObj(map["error" := JStr("Invalid register request"), "details" := JStr(details)])), db)
    case Accepted(q) =>
      match Hash(env, q.password)
      case None => Handled(Error(500, "Failed to hash password"), db)
      case Some(hashed) =>
        match DefaultRole(db, q.roleId)
        case None => Handled(Error(500, "Default role not found"), db)
        case Some(roleId) =>
          if UserByEmail(db, q.email).Some? then Handled(Error(409, "Email already registered"), db)
          else match CreateUser(db, q.name, q.email, hashed, roleId, env.stamp)
            case None => Handled(Error(500, "Failed to create user"), db)
            case Some((db', u)) =>
              Handled(Response(201, JObj(map["message" := JStr("User created successfully"), "user" := CreatedUser(u)])), db')
  }

  /** The access-token claims for a user at time `now`. */
  function AccessClaims(db: Db, u: User, now: int): Jwt.Claims {
    Jwt.Generate(Jwt.Access, u.id, u.email, RoleName(db, u.roleId), now)
  }

  /** `Login`: an unknown e-mail and a wrong password get the same reply. */
  function Login(env: Env, db: Db, body: Json): (r: Response)
    ensures r.status == 401 ==> r == Error(401, "Invalid credentials")
    ensures r.status == 401 <==> (Binding.BindLogin(body, env.isEmail).Accepted?
              && (UserByEmail(db, Binding.BindLogin(body, env.isEmail).req.email).None?
                  || !env.compare(UserByEmail(db, Binding.BindLogin(body, env.isEmail).req.email).value.password,
                                  Binding.BindLogin(body, env.isEmail).req.password)))
    ensures r.status == 200 ==> (Binding.BindLogin(body, env.isEmail).Accepted?
              && UserByEmail(db, Binding.BindLogin(body, env.isEmail).req.email).Some?)
    ensures r.status == 200 ==>
              var u := UserByEmail(db, Binding.BindLogin(body, env.isEmail).req.email).value;
              && Member(r, "token") == Some(JStr(env.codec.sign(AccessClaims(db, u, env.now))))
              && Member(r, "refresh_token") == Some(JStr(env.codec.sign(Jwt.Generate(Jwt.Refresh, u.id, u.email, RoleName(db, u.roleId), env.now))))
              && Member(r, "expires_in") == Some(JStr("24h"))
    ensures r.status == 400 <==> Binding.BindLogin(body, env.isEmail).Rejected?
    ensures r.status in {200, 400, 401}
  {
    match Binding.BindLogin(body, env.isEmail)
    case Rejected(details) =>
      Response(400, JObj(map["error" := JStr("Invalid login request"), "details" := JStr(details)]))
    case Accepted(q) =>
      match UserByEmail(db, q.email)
      case None => Error(401, "Invalid credentials")
      case Some(u) =>
        if !env.compare(u.password, q.password) then Error(401, "Invalid credentials")
        else
          var role := RoleName(db, u.roleId);
          Response(200, JObj(map[
            "message" := JStr("Login successful"),
            "token" := JStr(env.codec.sign(AccessClaims(db, u, env.now))),
            "refresh_token" := JStr(env.codec.sign(Jwt.Generate(Jwt.Refresh, u.id, u.email, role, env.now))),
            "expires_in" := JStr("24h"),
            "user" := JObj(map["id" := JNum(u.id), "name" := JStr(u.name), "email" := JStr(u.email), "role" := JStr(role)])]))
  }

  /** `Logout`: the server keeps no session, so it always succeeds. */
  function Logout(): (r: Response)
    ensures r.status == 200 && Member(r, "message") == Some(JStr("Logged out successfully"))
  {
    Message(200, "Logged out successfully")
  }

  /** `GetCurrentUser` for the id the authentication middleware stored. */
  function GetCurrentUser(db: Db, userId: nat): (r: Response)
    ensures r.status == 200 <==> UserById(db, userId).Some?
    ensures r.status != 200 ==> r == Error(404, "User not found")
    ensures r.status == 200 ==> var u := UserById(db, userId).value;
              Member(r, "user") == Some(JObj(map["id" := JNum(u.id), "name" := JStr(u.name), "email" := JStr(u.email),
                                                 "role" := JStr(RoleName(db, u.roleId)),
                                                 "created_at" := JStr(u.createdAt), "updated_at" := JStr(u.updatedAt)]))
  {
    match UserById(db, userId)
    case None => Error(404, "User not found")
    case Some(u) =>
      Response(200, Single("user", JObj(map["id" := JNum(u.id), "name" := JStr(u.name), "email" := JStr(u.email),
                                            "role" := JStr(RoleName(db, u.roleId)),
                                            "created_at" := JStr(u.createdAt), "updated_at" := JStr(u.updatedAt)])))
  }

  /** `RefreshToken`: a refresh-kind token of a live user buys a new access
      token; no new refresh token is issued. */
  function RefreshToken(env: Env, db: Db, body: Json): (r: Response)
    ensures Binding.BindOne(body, "refresh_token", "RefreshToken", false, env.isEmail).Rejected? ==> r == Error(400, "Refresh token is required")
    ensures r.status == 200 ==> Binding.BindOne(body, "refresh_token", "RefreshToken", false, env.isEmail).Accepted?
    ensures r.status == 200 ==>
              var t := Binding.BindOne(body, "refresh_token", "RefreshToken", false, env.isEmail).req;
              && Jwt.Validate(env.codec, Jwt.Refresh, t, env.now).Some?
              && UserById(db, Jwt.Validate(env.codec, Jwt.Refresh, t, env.now).value.userId).Some?
              && var u := UserById(db, Jwt.Validate(env.codec, Jwt.Refresh, t, env.now).value.userId).value;
                 Member(r, "token") == Some(JStr(env.codec.sign(AccessClaims(db, u, env.now))))
    ensures r.status == 200 ==> r.body.JObj? && r.body.fields.Keys == {"message", "token", "expires_in"}
    ensures r.status in {200, 400, 401, 404}
  {
    match Binding.BindOne(body, "refresh_token", "RefreshToken", false, env.isEmail)
    case Rejected(_) => Error(400, "Refresh token is required")
    case Accepted(t) =>
      match Jwt.Validate(env.codec, Jwt.Refresh, t, env.now)
      case None => Error(401, "Invalid refresh token")
      case Some(claims) =>
        match UserById(db, claims.userId)
        case None => Error(404, "User not found")
        case Some(u) =>
          Response(200, JObj(map[
            "message" := JStr("Token refreshed successfully"),
            "token" := JStr(env.codec.sign(AccessClaims(db, u, env.now))),
            "expires_in" := JStr("24h")]))
  }

  const GenericResetMessage := "If the email exists, a password reset link has been sent"

  /** `ForgotPassword`: an unknown e-mail gets a generic 200; a known one
      gets a reset token in the reply itself. */
  function ForgotPassword(env: Env, db: Db, body: Json): (r: Response)
    ensures Binding.BindOne(body, "email", "Email", true, env.isEmail).Rejected? ==> r == Error(400, "Valid email is required")
    ensures var b := Binding.BindOne(body, "email", "Email", true, env.isEmail);
            b.Accepted? && UserByEmail(db, b.req).None? ==> r == Message(200, GenericResetMessage)
    ensures var b := Binding.BindOne(body, "email", "Email", true, env.isEmail);
            b.Accepted? && UserByEmail(db, b.req).Some? ==>
              var u := UserByEmail(db, b.req).value;
              r.status == 200 && Member(r, "reset_token") == Some(JStr(env.codec.sign(Jwt.Generate(Jwt.Reset, u.id, u.email, "", env.now))))
  {
    match Binding.BindOne(body, "email", "Email", true, env.isEmail)
    case Rejected(_) => Error(400, "Valid email is required")
    case Accepted(email) =>
      match UserByEmail(db, email)
      case None => Message(200, GenericResetMessage)
      case Some(u) =>
        Response(200, JObj(map[
          "message" := JStr("Password reset token generated"),
          "reset_token" := JStr(env.codec.sign(Jwt.Generate(Jwt.Reset, u.id, u.email, "", env.now))),
          "note" := JStr("In production, this token should be sent via email")]))
  }

  const PolicyMessage := "Password must be at least 8 characters with uppercase, lowercase, and number"

  /** `ResetPassword`: the policy is checked before the token, and only the
      user's password (and `updated_at`) changes. */
  function ResetPassword(env: Env, db: Db, body: Json): (h: Handled)
    ensures h.response.status != 200 ==> h.db == db
    ensures var b := Binding.BindReset(body);
            b.Accepted? && !Validators.MeetsPolicy(b.req.1) ==> h.response == Error(400, PolicyMessage)
    ensures h.response.status == 200 ==> Binding.BindReset(body).Accepted?
    ensures h.response.status == 200 ==>
              var (t, p) := Binding.BindReset(body).req;
              && Validators.MeetsPolicy(p) && Text.ByteLen(p) <= MaxPasswordBytes
              && Jwt.Validate(env.codec, Jwt.Reset, t, env.now).Some?
              && UserById(db, Jwt.Validate(env.codec, Jwt.Reset, t, env.now).value.userId).Some?
              && var u := UserById(db, Jwt.Validate(env.codec, Jwt.Reset, t, env.now).value.userId).value;
                 h.db == Replace(db, u.(password := env.hash(p), updatedAt := env.stamp))
    ensures h.response.status in {200, 400, 401, 404, 500}
    ensures Valid(db) ==> Valid(h.db)
  {
    match Binding.BindReset(body)
    case Rejected(_) => Handled(Error(400, "Reset token and new password are required"), db)
    case Accepted((t, p)) =>
      if !Validators.MeetsPolicy(p) then Handled(Error(400, PolicyMessage), db)
      else match Jwt.Validate(env.codec, Jwt.Reset, t, env.now)
        case None => Handled(Error(401, "Invalid or expired reset token"), db)
        case Some(claims) =>
          match UserById(db, claims.userId)
          case None => Handled(Error(404, "User not found"), db)
          case Some(u) =>
            match Hash(env, p)
            case None => Handled(Error(500, "Failed to hash password"), db)
            case Some(hashed) =>
              UpdatesValidFor(db, u, hashed, env.stamp);
              Handled(Message(200, "Password reset successfully"), UpdatePassword(db, u, hashed, env.stamp).value)
  }

  lemma UpdatesValidFor(db: Db, u: User, hashed: string, stamp: string)
    requires u in db.users && !u.deleted
    ensures Valid(db) ==> Valid(UpdatePassword(db, u, hashed, stamp).value)
  {
    if Valid(db) { UpdatesValid(db, u, map["password" := JStr(hashed)], stamp); }
  }

  /** The register body the client sends: name, e-mail and password. */
  function RegisterBody(name: string, email: string, password: string): Json {
    JObj(map["name" := JStr(name), "email" := JStr(email), "password" := JStr(password)])
  }

  /** The login body: e-mail and password. */
  function LoginBody(email: string, password: string): Json {
    JObj(map["email" := JStr(email), "password" := JStr(password)])
  }

  /** Registering an e-mail a live user already has answers 409 and
      creates nothing, once the body, the hash and the role are fine. */
  lemma RegisterTakenEmail(env: Env, db: Db, body: Json)
    requires Binding.BindRegister(body, env.isEmail, "validators", 8).Accepted?
    requires var q := Binding.BindRegister(body, env.isEmail, "validators", 8).req;
             Hash(env, q.password).Some? && DefaultRole(db, q.roleId).Some? && UserByEmail(db, q.email).Some?
    ensures Register(env, db, body) == Handled(Error(409, "Email already registered"), db)
  {
  }

  /** A deleted user's e-mail cannot be registered again: no live user has
      it, so the handler goes on to create, and the unique index, which
      still holds the deleted row, refuses. */
  lemma RegisterAfterDelete(env: Env, db: Db, u: User, name: string, password: string)
    requires Valid(db) && u in db.users && !u.deleted
    requires Binding.BindRegister(RegisterBody(name, u.email, password), env.isEmail, "validators", 8).Accepted?
    requires Hash(env, password).Some? && RoleByName(db, "user").Some?
    ensures var db' := DeleteUser(db, u.id);
            Register(env, db', RegisterBody(name, u.email, password)) == Handled(Error(500, "Failed to create user"), db')
  {
    var db' := DeleteUser(db, u.id);
    var body := RegisterBody(name, u.email, password);
    var q := Binding.BindRegister(body, env.isEmail, "validators", 8).req;
    assert q == Validators.RegisterRequest(name, u.email, password, 0);
    DeletedEmailStaysTaken(db, u);
    assert DefaultRole(db', 0) == DefaultRole(db, 0);
    RegisterIndexClash(env, db', body);
  }

  /** After its row is deleted, no live user has the e-mail, but the unique
      index still holds it. */
  lemma DeletedEmailStaysTaken(db: Db, u: User)
    requires Valid(db) && u in db.users && !u.deleted
    ensures var db' := DeleteUser(db, u.id);
            UserByEmail(db', u.email).None? && EmailTaken(db', u.email) && db'.roles == db.roles
  {
    var db' := DeleteUser(db, u.id);
    var i :| 0 <= i < |db.users| && db.users[i] == u;
    assert db'.users[i].email == u.email;
    forall j | 0 <= j < |db'.users| && db'.users[j].email == u.email ensures db'.users[j].deleted {
      assert j == i;
    }
  }

  /** When no live user has the e-mail but the unique index holds it, a
      well-formed register request gets the 500 of a failed create. */
  lemma RegisterIndexClash(env: Env, db: Db, body: Json)
    requires Binding.BindRegister(body, env.isEmail, "validators", 8).Accepted?
    requires var q := Binding.BindRegister(body, env.isEmail, "validators", 8).req;
             && Hash(env, q.password).Some? && DefaultRole(db, q.roleId).Some?
             && UserByEmail(db, q.email).None? && EmailTaken(db, q.email)
    ensures Register(env, db, body) == Handled(Error(500, "Failed to create user"), db)
  {
  }

  /** Someone who registered can log in with the same e-mail and password,
      and the access token names the new row. */
  lemma RegisterThenLogin(env: Env, db: Db, name: string, email: string, password: string)
    requires Valid(db) && BcryptSound(env)
    requires Register(env, db, RegisterBody(name, email, password)).response.status == 201
    ensures var db' := Register(env, db, RegisterBody(name, email, password)).db;
            && Login(env, db', LoginBody(email, password)).status == 200
            && UserByEmail(db', email).Some? && UserByEmail(db', email).value.id == db.nextUserId
  {
    var body := RegisterBody(name, email, password);
    var db' := Register(env, db, body).db;
    RegisteredRow(env, db, body);
    RegisterBodyBinds(env, name, email, password);
    var u := UserByEmail(db', email).value;
    assert env.compare(env.hash(password), password);
    LoginWith(env, db', email, password, u);
  }

  /** A register body the binder accepts carries its three strings as they
      were sent, with no role requested. */
  lemma RegisterBodyBinds(env: Env, name: string, email: string, password: string)
    requires Binding.BindRegister(RegisterBody(name, email, password), env.isEmail, "validators", 8).Accepted?
    ensures Binding.BindRegister(RegisterBody(name, email, password), env.isEmail, "validators", 8).req
            == Validators.RegisterRequest(name, email, password, 0)
    ensures env.isEmail(email) && email != "" && password != ""
  {
  }

  /** A 201 from `Register` leaves a live row under the requested e-mail,
      with the next id and the hash of the requested password. */
  lemma RegisteredRow(env: Env, db: Db, body: Json)
    requires Register(env, db, body).response.status == 201
    ensures Binding.BindRegister(body, env.isEmail, "validators", 8).Accepted?
    ensures var q := Binding.BindRegister(body, env.isEmail, "validators", 8).req;
            var db' := Register(env, db, body).db;
            && UserByEmail(db', q.email).Some?
            && UserByEmail(db', q.email).value.id == db.nextUserId
            && UserByEmail(db', q.email).value.password == env.hash(q.password)
            && Text.ByteLen(q.password) <= MaxPasswordBytes
  {
    var h := Register(env, db, body);
    var q := Binding.BindRegister(body, env.isEmail, "validators", 8).req;
    var u :| && h.db.users == db.users + [u]
             && u.email == q.email && !u.deleted
             && u.password == env.hash(q.password) && Text.ByteLen(q.password) <= MaxPasswordBytes
             && u.id == db.nextUserId && !EmailTaken(db, u.email);
    FoundAfterAppend(db, h.db, u);
  }

  /** A row appended under a fresh e-mail is the one found by it. */
  lemma FoundAfterAppend(db: Db, db': Db, u: User)
    requires db'.users == db.users + [u] && !u.deleted && !EmailTaken(db, u.email)
    ensures UserByEmail(db', u.email) == Some(u)
  {
    assert db'.users[|db.users|] == u;
    assert forall j :: 0 <= j < |db.users| ==> db'.users[j] == db.users[j];
  }

  /** Logging in with the e-mail of a live user and a password the hash
      accepts succeeds. */
  lemma LoginWith(env: Env, db: Db, email: string, password: string, u: User)
    requires UserByEmail(db, email) == Some(u) && env.compare(u.password, password)
    requires env.isEmail(email) && email != "" && password != ""
    ensures Login(env, db, LoginBody(email, password)).status == 200
  {
    assert Binding.BindLogin(LoginBody(email, password), env.isEmail).req == Validators.LoginRequest(email, password);
  }

  /** A successful login hands out an access-kind `token` and a
      refresh-kind `refresh_token` for the same user, each refused by the
      other kind's validator. */
  lemma LoginTokens(env: Env, db: Db, body: Json)
    requires Jwt.Sound(env.codec)
    requires Login(env, db, body).status == 200
    ensures var r := Login(env, db, body);
            var u := UserByEmail(db, Binding.BindLogin(body, env.isEmail).req.email).value;
            var access := Jwt.Validate(env.codec, Jwt.Access, StringAt(r, "token"), env.now);
            var refresh := Jwt.Validate(env.codec, Jwt.Refresh, StringAt(r, "refresh_token"), env.now);
            && access.Some? && access.value.userId == u.id
            && refresh.Some? && refresh.value.userId == u.id
            && Jwt.Validate(env.codec, Jwt.Refresh, StringAt(r, "token"), env.now).None?
            && Jwt.Validate(env.codec, Jwt.Access, StringAt(r, "refresh_token"), env.now).None?
  {
    var u := UserByEmail(db, Binding.BindLogin(body, env.isEmail).req.email).value;
    var role := RoleName(db, u.roleId);
    Jwt.IssuedTokenValidates(env.codec, Jwt.Access, u.id, u.email, role, env.now, env.now);
    Jwt.IssuedTokenValidates(env.codec, Jwt.Refresh, u.id, u.email, role, env.now, env.now);
    Jwt.KindsDoNotMix(env.codec, Jwt.Access, Jwt.Refresh, u.id, u.email, role, env.now, env.now);
    Jwt.KindsDoNotMix(env.codec, Jwt.Refresh, Jwt.Access, u.id, u.email, role, env.now, env.now);
  }

  /** The refresh endpoint's body: `{"refresh_token": t}`. */
  function RefreshBody(t: string): Json {
    Single("refresh_token", JStr(t))
  }

  /** The two tokens of a successful login. */
  lemma LoginReply(env: Env, db: Db, body: Json)
    requires Login(env, db, body).status == 200
    ensures var r := Login(env, db, body);
            var u := UserByEmail(db, Binding.BindLogin(body, env.isEmail).req.email).value;
            && StringAt(r, "token") == env.codec.sign(Jwt.Generate(Jwt.Access, u.id, u.email, RoleName(db, u.roleId), env.now))
            && StringAt(r, "refresh_token") == env.codec.sign(Jwt.Generate(Jwt.Refresh, u.id, u.email, RoleName(db, u.roleId), env.now))
  {
  }

  /** A non-empty token that validates as refresh-kind for a live user is
      accepted; one that does not validate is refused. */
  lemma RefreshOutcome(env: Env, db: Db, t: string)
    requires t != ""
    ensures Jwt.Validate(env.codec, Jwt.Refresh, t, env.now).None? ==> RefreshToken(env, db, RefreshBody(t)) == Error(401, "Invalid refresh token")
    ensures Jwt.Validate(env.codec, Jwt.Refresh, t, env.now).Some? && UserById(db, Jwt.Validate(env.codec, Jwt.Refresh, t, env.now).value.userId).Some?
            ==> RefreshToken(env, db, RefreshBody(t)).status == 200
  {
    assert Binding.BindOne(RefreshBody(t), "refresh_token", "RefreshToken", false, env.isEmail) == Binding.Accepted(t);
  }

  /** Within seven days of a login, while the user lives, posting the
      login's `refresh_token` yields a new access token for that user;
      posting its access `token` instead is refused with 401. */
  lemma LoginThenRefresh(env: Env, db: Db, body: Json, later: int)
    requires Jwt.Sound(env.codec) && Valid(db)
    requires Login(env, db, body).status == 200
    requires env.now <= later < env.now + Jwt.Lifetime(Jwt.Refresh)
    ensures var r := Login(env, db, body);
            var env' := env.(now := later);
            && RefreshToken(env', db, RefreshBody(StringAt(r, "refresh_token"))).status == 200
            && RefreshToken(env', db, RefreshBody(StringAt(r, "token"))) == Error(401, "Invalid refresh token")
  {
    var env' := env.(now := later);
    var u := UserByEmail(db, Binding.BindLogin(body, env.isEmail).req.email).value;
    var role := RoleName(db, u.roleId);
    LoginReply(env, db, body);
    Jwt.IssuedTokenValidates(env.codec, Jwt.Refresh, u.id, u.email, role, env.now, later);
    Jwt.KindsDoNotMix(env.codec, Jwt.Access, Jwt.Refresh, u.id, u.email, role, env.now, later);
    FoundById(db, u);
    RefreshOutcome(env', db, env.codec.sign(Jwt.Generate(Jwt.Refresh, u.id, u.email, role, env.now)));
    RefreshOutcome(env', db, env.codec.sign(Jwt.Generate(Jwt.Access, u.id, u.email, role, env.now)));
  }

  /** The reset endpoint's body. */
  function ResetBody(token: string, password: string): Json {
    JObj(map["reset_token" := JStr(token), "new_password" := JStr(password)])
  }

  /** The forgot-password body. */
  function ForgotBody(email: string): Json {
    Single("email", JStr(email))
  }

  /** The token a forgot-password reply carries for a known e-mail. */
  lemma ForgotReply(env: Env, db: Db, email: string)
    requires env.isEmail(email) && email != "" && UserByEmail(db, email).Some?
    ensures var u := UserByEmail(db, email).value;
            StringAt(ForgotPassword(env, db, ForgotBody(email)), "reset_token") == env.codec.sign(Jwt.Generate(Jwt.Reset, u.id, u.email, "", env.now))
  {
    assert Binding.BindOne(ForgotBody(email), "email", "Email", true, env.isEmail) == Binding.Accepted(email);
  }

  /** A reset with a valid reset-kind token of a live user and an
      acceptable password succeeds and stores the new hash. */
  lemma ResetAccepted(env: Env, db: Db, t: string, password: string, u: User)
    requires t != "" && Validators.MeetsPolicy(password) && |password| >= 8 && Text.ByteLen(password) <= MaxPasswordBytes
    requires Jwt.Validate(env.codec, Jwt.Reset, t, env.now).Some?
    requires UserById(db, Jwt.Validate(env.codec, Jwt.Reset, t, env.now).value.userId) == Some(u)
    ensures ResetPassword(env, db, ResetBody(t, password))
            == Handled(Message(200, "Password reset successfully"), Replace(db, u.(password := env.hash(password), updatedAt := env.stamp)))
  {
    BindResetBody(t, password);
    assert Hash(env, password) == Some(env.hash(password));
    assert UpdatePassword(db, u, env.hash(password), env.stamp).value == Replace(db, u.(password := env.hash(password), updatedAt := env.stamp));
  }

  lemma BindResetBody(t: string, password: string)
    requires t != "" && |password| >= 8
    ensures Binding.BindReset(ResetBody(t, password)) == Binding.Accepted((t, password))
  {
    var m := Binding.Members(ResetBody(t, password));
    assert Binding.StrMember(m, "reset_token") == Some(t);
    assert Binding.StrMember(m, "new_password") == Some(password);
  }

  /** Within the hour, the token a forgot-password reply hands out resets
      the password of the user it was issued for, for any password that
      meets the policy, has eight runes and fits bcrypt. */
  lemma ForgotThenReset(env: Env, db: Db, email: string, password: string, later: int)
    requires Jwt.Sound(env.codec) && Valid(db)
    requires env.isEmail(email) && email != "" && UserByEmail(db, email).Some?
    requires Validators.MeetsPolicy(password) && |password| >= 8 && Text.ByteLen(password) <= MaxPasswordBytes
    requires env.now <= later < env.now + Jwt.Lifetime(Jwt.Reset)
    ensures var t := StringAt(ForgotPassword(env, db, ForgotBody(email)), "reset_token");
            var u := UserByEmail(db, email).value;
            ResetPassword(env.(now := later), db, ResetBody(t, password))
            == Handled(Message(200, "Password reset successfully"), Replace(db, u.(password := env.hash(password), updatedAt := env.stamp)))
  {
    var u := UserByEmail(db, email).value;
    ForgotReply(env, db, email);
    Jwt.IssuedTokenValidates(env.codec, Jwt.Reset, u.id, u.email, "", env.now, later);
    FoundById(db, u);
    ResetAccepted(env.(now := later), db, env.codec.sign(Jwt.Generate(Jwt.Reset, u.id, u.email, "", env.now)), password, u);
  }

  /** Logging in against a row whose password was replaced by the hash of
      `p`: `p` succeeds, and any other NUL-free password within bcrypt's 72
      bytes is refused. */
  lemma LoginAfterRehash(env: Env, db: Db, u: User, p: string, other: string)
    requires Valid(db) && BcryptSound(env) && u in db.users && !u.deleted && Text.ByteLen(p) <= MaxPasswordBytes
    requires Text.ByteLen(other) <= MaxPasswordBytes && NulFree(p) && NulFree(other)
    requires env.isEmail(u.email) && u.email != "" && p != "" && other != "" && other != p
    ensures var db' := Replace(db, u.(password := env.hash(p), updatedAt := env.stamp));
            && Login(env, db', LoginBody(u.email, p)).status == 200
            && Login(env, db', LoginBody(u.email, other)) == Error(401, "Invalid credentials")
  {
    var u' := u.(password := env.hash(p), updatedAt := env.stamp);
    var db' := Replace(db, u');
    ReplacedIsPresent(db, u, u');
    FoundByEmail(db', u');
    assert env.compare(env.hash(p), p) && !env.compare(env.hash(p), other);
    LoginWith(env, db', u.email, p, u');
    LoginRefused(env, db', u.email, other, u');
  }

  /** Logging in with a password the stored hash refuses answers 401. */
  lemma LoginRefused(env: Env, db: Db, email: string, password: string, u: User)
    requires UserByEmail(db, email) == Some(u) && !env.compare(u.password, password)
    requires env.isEmail(email) && email != "" && password != ""
    ensures Login(env, db, LoginBody(email, password)) == Error(401, "Invalid credentials")
  {
    assert Binding.BindLogin(LoginBody(email, password), env.isEmail).req == Validators.LoginRequest(email, password);
  }

  /** After a reset, the new password logs in, and any other NUL-free
      password within bcrypt's 72 bytes is refused. */
  lemma ResetThenLogin(env: Env, db: Db, body: Json, other: string)
    requires Valid(db) && BcryptSound(env)
    requires ResetPassword(env, db, body).response.status == 200
    requires var (t, p) := Binding.BindReset(body).req;
             var u := UserById(db, Jwt.Validate(env.codec, Jwt.Reset, t, env.now).value.userId).value;
             && env.isEmail(u.email) && u.email != "" && other != "" && other != p
             && Text.ByteLen(other) <= MaxPasswordBytes && NulFree(p) && NulFree(other)
    ensures var (t, p) := Binding.BindReset(body).req;
            var u := UserById(db, Jwt.Validate(env.codec, Jwt.Reset, t, env.now).value.userId).value;
            var db' := ResetPassword(env, db, body).db;
            && Login(env, db', LoginBody(u.email, p)).status == 200
            && Login(env, db', LoginBody(u.email, other)) == Error(401, "Invalid credentials")
  {
    var (t, p) := Binding.BindReset(body).req;
    var u := UserById(db, Jwt.Validate(env.codec, Jwt.Reset, t, env.now).value.userId).value;
    LoginAfterRehash(env, db, u, p, other);
  }

  /** The other side of bcrypt's 72-byte key: after the password becomes
      the hash of a 72-byte `p`, logging in with `p` followed by anything
      succeeds, since the login request sets no maximum length. */
  lemma RehashAcceptsExtension(env: Env, db: Db, u: User, p: string, extra: string)
    requires Valid(db) && BcryptTruncates(env) && u in db.users && !u.deleted
    requires Text.ByteLen(p) == MaxPasswordBytes && env.isEmail(u.email) && u.email != ""
    ensures var db' := Replace(db, u.(password := env.hash(p), updatedAt := env.stamp));
            Login(env, db', LoginBody(u.email, p + extra)).status == 200
  {
    var u' := u.(password := env.hash(p), updatedAt := env.stamp);
    var db' := Replace(db, u');
    ReplacedIsPresent(db, u, u');
    FoundByEmail(db', u');
    assert (p + extra)[..|p|] == p;
    assert env.compare(env.hash(p), p + extra);
    LoginWith(env, db', u.email, p + extra, u');
  }

  /** What `Register` needs for a 201: the body binds, bcrypt accepts the
      password, the defaulted role exists and the unique index does not
      hold the e-mail. */
  predicate RegisterCanCreate(env: Env, db: Db, body: Json) {
    && Binding.BindRegister(body, env.isEmail, "validators", 8).Accepted?
    && var q := Binding.BindRegister(body, env.isEmail, "validators", 8).req;
       && Text.ByteLen(q.password) <= MaxPasswordBytes
       && DefaultRole(db, q.roleId).Some?
       && RoleById(db, DefaultRole(db, q.roleId).value).Some?
       && !EmailTaken(db, q.email)
  }

  /** A 201 from `Register` had everything it needs. */
  lemma RegisterCreatedNeeds(env: Env, db: Db, body: Json)
    requires Register(env, db, body).response.status == 201
    ensures RegisterCanCreate(env, db, body)
  {
    var q := Binding.BindRegister(body, env.isEmail, "validators", 8).req;
    var hashed := Hash(env, q.password).value;
    var roleId := DefaultRole(db, q.roleId).value;
    assert CreateUser(db, q.name, q.email, hashed, roleId, env.stamp).Some?;
  }

  /** Everything `Register` needs gives a 201. */
  lemma RegisterCreatedSuffices(env: Env, db: Db, body: Json)
    requires RegisterCanCreate(env, db, body)
    ensures Register(env, db, body).response.status == 201
  {
    var q := Binding.BindRegister(body, env.isEmail, "validators", 8).req;
    var hashed := Hash(env, q.password).value;
    var roleId := DefaultRole(db, q.roleId).value;
    assert CreateUser(db, q.name, q.email, hashed, roleId, env.stamp).Some?;
  }

  /** The converse of `Register`'s 201 clause: a body that binds, a
      password bcrypt accepts, a role that exists and an e-mail the unique
      index does not hold are exactly what a 201 takes. */
  lemma RegisterCreatedExactly(env: Env, db: Db, body: Json)
    ensures Register(env, db, body).response.status == 201 <==> RegisterCanCreate(env, db, body)
  {
    if Register(env, db, body).response.status == 201 {
      RegisterCreatedNeeds(env, db, body);
    }
    if RegisterCanCreate(env, db, body) {
      RegisterCreatedSuffices(env, db, body);
    }
  }
}

=== FILE: binding.dfy ===
/** Gin's `ShouldBindJSON` into the backend's request structs: encoding/json
    decoding, where an absent key or `null` leaves the zero value and a value
    of the wrong JSON kind is an error, followed by the `binding` tags. */
module Binding {
  import opened Wrappers
  import opened Json
  import Text
  import Validators

  datatype GoType = GoString | GoUint

  /** The `binding` tags the request structs use. */
  datatype Tag = Required | Email | Min(n: nat)

  /** A struct field: its JSON key, its Go name, its type and its tags. */
  datatype FieldSpec = FieldSpec(key: string, name: string, typ: GoType, tags: seq<Tag>)

  datatype StructSpec = StructSpec(pkg: string, name: string, fields: seq<FieldSpec>)

  datatype Value = Str(s: string) | Uint(n: nat)

  /** The outcome of binding: the field values in declaration order, or the
      text of the binder's error. */
  datatype Bound = Bound(values: seq<Value>) | Refused(details: string)

  const MaxUint64: int := 0xFFFF_FFFF_FFFF_FFFF

  function Zero(t: GoType): Value {
    match t
    case GoString => Str("")
    case GoUint => Uint(0)
  }

  function TypeName(t: GoType): string {
    match t
    case GoString => "string"
    case GoUint => "uint"
  }

  /** How encoding/json names a JSON value in a type error; numbers that do
      not fit an unsigned field are named with their literal. */
  function KindName(v: Json, t: GoType): string {
    match v
    case JNull => "null"
    case JBool(_) => "bool"
    case JNum(n) => if t == GoUint then "number " + Text.IntToDecimal(n) else "number"
    case JStr(_) => "string"
    case JObj(_) => "object"
  }

  /** A string member as encoding/json decodes it: absent and `null` give
      `""`, a string gives itself, anything else is a type error (`None`). */
  function StrMember(body: map<string, Json>, key: string): (v: Option<string>)
    ensures key !in body || body[key] == JNull ==> v == Some("")
    ensures v.Some? && key in body && body[key] != JNull ==> body[key] == JStr(v.value)
  {
    if key !in body then Some("")
    else match body[key]
      case JNull => Some("")
      case JStr(s) => Some(s)
      case _ => None
  }

  /** An unsigned member: absent and `null` give 0, a number in range gives
      itself, anything else is a type error. */
  function UintMember(body: map<string, Json>, key: string): (v: Option<nat>)
    ensures key !in body || body[key] == JNull ==> v == Some(0)
    ensures v.Some? ==> v.value <= MaxUint64
    ensures v.Some? && key in body && body[key] != JNull ==> body[key] == JNum(v.value)
  {
    if key !in body then Some(0)
    else match body[key]
      case JNull => Some(0)
      case JNum(n) => if 0 <= n <= MaxUint64 then Some(n) else None
      case _ => None
  }

  /** Decoding one field from the body's members; `None` is a type error. */
  function Decode(f: FieldSpec, body: map<string, Json>): (v: Option<Value>)
    ensures f.typ == GoString ==> v == (if StrMember(body, f.key).Some? then Some(Str(StrMember(body, f.key).value)) else None)
    ensures f.typ == GoUint ==> v == (if UintMember(body, f.key).Some? then Some(Uint(UintMember(body, f.key).value)) else None)
  {
    match f.typ
    case GoString => (match StrMember(body, f.key) case Some(s) => Some(Str(s)) case None => None)
    case GoUint => (match UintMember(body, f.key) case Some(n) => Some(Uint(n)) case None => None)
  }

  datatype Decoded = Values(vs: seq<Value>) | Mistyped(field: FieldSpec, value: Json)

  /** Decoding every field; the first mistyped one in declaration order is
      reported. `encoding/json` reports the first mistyped member in the
      order the body lists them; a body is a map here, with no member
      order, so the model fixes declaration order instead. */
  function DecodeAll(fs: seq<FieldSpec>, body: map<string, Json>): (d: Decoded)
    ensures d.Values? <==> forall i :: 0 <= i < |fs| ==> Decode(fs[i], body).Some?
    ensures d.Values? ==> |d.vs| == |fs| && forall i :: 0 <= i < |fs| ==> Decode(fs[i], body) == Some(d.vs[i])
    ensures d.Mistyped? ==> d.field in fs && d.field.key in body && d.value == body[d.field.key] && Decode(d.field, body).None?
    ensures d.Mistyped? ==> exists k :: 0 <= k < |fs| && fs[k] == d.field && forall i :: 0 <= i < k ==> Decode(fs[i], body).Some?
    decreases |fs|
  {
    if |fs| == 0 then Values([])
    else match Decode(fs[0], body)
      case None =>
        assert fs[0].key in body;
        Mistyped(fs[0], body[fs[0].key])
      case Some(v) =>
        match DecodeAll(fs[1..], body)
        case Mistyped(f, j) => Mistyped(f, j)
        case Values(vs) =>
          assert forall i :: 1 <= i < |fs| ==> fs[i] == fs[1..][i - 1];
          Values([v] + vs)
  }

  /** Whether a value meets one tag; `isEmail` is the validator's e-mail
      syntax check. */
  predicate Holds(t: Tag, v: Value, isEmail: string -> bool) {
    match (t, v)
    case (Required, Str(s)) => s != ""
    case (Required, Uint(n)) => n != 0
    case (Email, Str(s)) => isEmail(s)
    case (Email, Uint(_)) => false
    case (Min(k), Str(s)) => |s| >= k
    case (Min(k), Uint(n)) => n >= k
  }

  /** The first tag a value fails, in the order the tags are written. */
  function FirstFailing(tags: seq<Tag>, v: Value, isEmail: string -> bool): (t: Option<Tag>)
    ensures t.None? <==> forall i :: 0 <= i < |tags| ==> Holds(tags[i], v, isEmail)
    ensures t.Some? ==> t.value in tags && !Holds(t.value, v, isEmail)
    decreases |tags|
  {
    if |tags| == 0 then None
    else if !Holds(tags[0], v, isEmail) then Some(tags[0])
    else
      assert forall i :: 1 <= i < |tags| ==> tags[i] == tags[1..][i - 1];
      FirstFailing(tags[1..], v, isEmail)
  }

  function TagName(t: Tag): string {
    match t
    case Required => "required"
    case Email => "email"
    case Min(k) => "min"
  }

  /** The validator's message for one field. */
  function FieldError(s: StructSpec, f: FieldSpec, t: Tag): string {
    "Key: '" + s.name + "." + f.name + "' Error:Field validation for '" + f.name + "' failed on the '" + TagName(t) + "' tag"
  }

  /** One message per failing field, in declaration order. */
  function Violations(s: StructSpec, fs: seq<FieldSpec>, vs: seq<Value>, isEmail: string -> bool): (msgs: seq<string>)
    requires |fs| == |vs|
    ensures |msgs| <= |fs|
    ensures forall i :: 0 <= i < |msgs| ==> msgs[i] != ""
    ensures |msgs| == 0 <==> forall i, j :: 0 <= i < |fs| && 0 <= j < |fs[i].tags| ==> Holds(fs[i].tags[j], vs[i], isEmail)
    decreases |fs|
  {
    if |fs| == 0 then []
    else
      var rest := Violations(s, fs[1..], vs[1..], isEmail);
      assert forall i :: 1 <= i < |fs| ==> fs[i] == fs[1..][i - 1] && vs[i] == vs[1..][i - 1];
      match FirstFailing(fs[0].tags, vs[0], isEmail)
      case None => rest
      case Some(t) => [FieldError(s, fs[0], t)] + rest
  }

  /** The messages joined by newlines, as the validator's error text is. */
  function Join(msgs: seq<string>): (r: string)
    ensures |msgs| == 0 ==> r == ""
    ensures |msgs| > 0 ==> |r| >= |msgs[0]| && r[..|msgs[0]|] == msgs[0]
    decreases |msgs|
  {
    if |msgs| == 0 then "" else if |msgs| == 1 then msgs[0] else msgs[0] + "\n" + Join(msgs[1..])
  }

  /** Binding is possible at all: the body is an object or `null`. */
  predicate Shaped(body: Json) {
    body.JObj? || body.JNull?
  }

  function Members(body: Json): map<string, Json> {
    if body.JObj? then body.fields else map[]
  }

  /** All of the struct's tags hold of the decoded values. */
  predicate TagsHold(s: StructSpec, vs: seq<Value>, isEmail: string -> bool)
    requires |vs| == |s.fields|
  {
    forall i, j :: 0 <= i < |s.fields| && 0 <= j < |s.fields[i].tags| ==> Holds(s.fields[i].tags[j], vs[i], isEmail)
  }

  /** `ShouldBindJSON(&req)`. */
  function Bind(s: StructSpec, body: Json, isEmail: string -> bool): (b: Bound)
    ensures b.Bound? <==> Shaped(body) && DecodeAll(s.fields, Members(body)).Values?
                          && TagsHold(s, DecodeAll(s.fields, Members(body)).vs, isEmail)
    ensures b.Bound? ==> b.values == DecodeAll(s.fields, Members(body)).vs
    ensures b.Refused? ==> b.details != ""
  {
    if !Shaped(body) then
      Refused("json: cannot unmarshal " + KindName(body, GoString) + " into Go value of type " + s.pkg + "." + s.name)
    else match DecodeAll(s.fields, Members(body))
      case Mistyped(f, j) =>
        Refused("json: cannot unmarshal " + KindName(j, f.typ) + " into Go struct field " + s.name + "." + f.key + " of type " + TypeName(f.typ))
      case Values(vs) =>
        var msgs := Violations(s, s.fields, vs, isEmail);
        if |msgs| == 0 then Bound(vs) else Refused(Join(msgs))
  }

  /** A bound request of type `T`, or the binder's error text. */
  datatype Request<T> = Accepted(req: T) | Rejected(details: string)

  /** `RegisterRequest`, declared with `min=8` on the password in the
      validators package and `min=6` in the models package. */
  function RegisterStruct(pkg: string, minPassword: nat): StructSpec {
    StructSpec(pkg, "RegisterRequest", [
      FieldSpec("name", "Name", GoString, [Required]),
      FieldSpec("email", "Email", GoString, [Required, Email]),
      FieldSpec("password", "Password", GoString, [Required, Min(minPassword)]),
      FieldSpec("role_id", "RoleID", GoUint, [])])
  }

  /** What decoding alone makes of a register body. */
  function RegisterFields(body: Json): Option<Validators.RegisterRequest> {
    var m := Members(body);
    if StrMember(m, "name").Some? && StrMember(m, "email").Some? && StrMember(m, "password").Some? && UintMember(m, "role_id").Some?
    then Some(Validators.RegisterRequest(StrMember(m, "name").value, StrMember(m, "email").value, StrMember(m, "password").value, UintMember(m, "role_id").value))
    else None
  }

  /** The register fields decode exactly when each member does, to the
      values `RegisterFields` reads. */
  lemma DecodeRegister(body: Json, pkg: string, minPassword: nat)
    ensures var d := DecodeAll(RegisterStruct(pkg, minPassword).fields, Members(body));
            && (d.Values? <==> RegisterFields(body).Some?)
            && (d.Values? ==> var q := RegisterFields(body).value;
                               d.vs == [Str(q.name), Str(q.email), Str(q.password), Uint(q.roleId)])
  {
    var fs := RegisterStruct(pkg, minPassword).fields;
    var m := Members(body);
    var d := DecodeAll(fs, m);
    if d.Values? {
      assert Decode(fs[0], m) == Some(d.vs[0]) && Decode(fs[1], m) == Some(d.vs[1]);
      assert Decode(fs[2], m) == Some(d.vs[2]) && Decode(fs[3], m) == Some(d.vs[3]);
    } else {
      assert !Decode(fs[0], m).Some? || !Decode(fs[1], m).Some? || !Decode(fs[2], m).Some? || !Decode(fs[3], m).Some? by {
        var i :| 0 <= i < |fs| && Decode(fs[i], m).None?;
        assert i == 0 || i == 1 || i == 2 || i == 3;
      }
    }
  }

  /** The register tags are `RegisterValid`. */
  lemma RegisterTags(q: Validators.RegisterRequest, isEmail: string -> bool, pkg: string, minPassword: nat)
    ensures TagsHold(RegisterStruct(pkg, minPassword), [Str(q.name), Str(q.email), Str(q.password), Uint(q.roleId)], isEmail)
            <==> Validators.RegisterValid(q, isEmail, minPassword)
  {
    var spec := RegisterStruct(pkg, minPassword);
    var vs := [Str(q.name), Str(q.email), Str(q.password), Uint(q.roleId)];
    if Validators.RegisterValid(q, isEmail, minPassword) {
      forall i, j | 0 <= i < |spec.fields| && 0 <= j < |spec.fields[i].tags|
        ensures Holds(spec.fields[i].tags[j], vs[i], isEmail)
      {
        assert i == 0 || i == 1 || i == 2;
      }
    } else {
      assert !Holds(spec.fields[0].tags[0], vs[0], isEmail)
          || !Holds(spec.fields[1].tags[0], vs[1], isEmail)
          || !Holds(spec.fields[1].tags[1], vs[1], isEmail)
          || !Holds(spec.fields[2].tags[0], vs[2], isEmail)
          || !Holds(spec.fields[2].tags[1], vs[2], isEmail);
    }
  }

  lemma RegisterBinding(body: Json, isEmail: string -> bool, pkg: string, minPassword: nat)
    ensures Bind(RegisterStruct(pkg, minPassword), body, isEmail).Bound?
            <==> Shaped(body) && RegisterFields(body).Some? && Validators.RegisterValid(RegisterFields(body).value, isEmail, minPassword)
  {
    DecodeRegister(body, pkg, minPassword);
    if RegisterFields(body).Some? {
      RegisterTags(RegisterFields(body).value, isEmail, pkg, minPassword);
    }
  }

  /** Binding a register body: accepted exactly when the body decodes and
      the decoded request meets the tags. */
  function BindRegister(body: Json, isEmail: string -> bool, pkg: string, minPassword: nat): (r: Request<Validators.RegisterRequest>)
    ensures r.Accepted? <==> Shaped(body) && RegisterFields(body).Some? && Validators.RegisterValid(RegisterFields(body).value, isEmail, minPassword)
    ensures r.Accepted? ==> Some(r.req) == RegisterFields(body)
  {
    RegisterBinding(body, isEmail, pkg, minPassword);
    match Bind(RegisterStruct(pkg, minPassword), body, isEmail)
    case Refused(e) => Rejected(e)
    case Bound(vs) => Accepted(RegisterFields(body).value)
  }

  /** For a struct of strings, decoding succeeds exactly when every member
      is a string or missing, and yields those strings. */
  lemma StringDecode(fs: seq<FieldSpec>, m: map<string, Json>)
    requires forall i :: 0 <= i < |fs| ==> fs[i].typ == GoString
    ensures DecodeAll(fs, m).Values? <==> forall i :: 0 <= i < |fs| ==> StrMember(m, fs[i].key).Some?
    ensures DecodeAll(fs, m).Values? ==> forall i :: 0 <= i < |fs| ==> DecodeAll(fs, m).vs[i] == Str(StrMember(m, fs[i].key).value)
  {
  }

  /** `LoginRequest` of the validators package. */
  const LoginStruct := StructSpec("validators", "LoginRequest", [
    FieldSpec("email", "Email", GoString, [Required, Email]),
    FieldSpec("password", "Password", GoString, [Required])])

  function LoginFields(body: Json): Option<Validators.LoginRequest> {
    var m := Members(body);
    if StrMember(m, "email").Some? && StrMember(m, "password").Some?
    then Some(Validators.LoginRequest(StrMember(m, "email").value, StrMember(m, "password").value))
    else None
  }

  lemma LoginBinding(body: Json, isEmail: string -> bool)
    ensures var b := Bind(LoginStruct, body, isEmail);
            && (b.Bound? <==> Shaped(body) && LoginFields(body).Some? && Validators.LoginValid(LoginFields(body).value, isEmail))
            && (b.Bound? ==> b.values == [Str(LoginFields(body).value.email), Str(LoginFields(body).value.password)])
  {
    var fs := LoginStruct.fields;
    var m := Members(body);
    StringDecode(fs, m);
    assert (forall i :: 0 <= i < |fs| ==> StrMember(m, fs[i].key).Some?) <==> LoginFields(body).Some?;
    if LoginFields(body).Some? {
      var vs := DecodeAll(fs, m).vs;
      assert fs[0].tags == [Required, Email] && fs[1].tags == [Required];
      if Holds(Required, vs[0], isEmail) && Holds(Email, vs[0], isEmail) && Holds(Required, vs[1], isEmail) {
        forall i, j | 0 <= i < |fs| && 0 <= j < |fs[i].tags| ensures Holds(fs[i].tags[j], vs[i], isEmail) {
          assert i == 0 || i == 1;
        }
      } else {
        assert !Holds(fs[0].tags[0], vs[0], isEmail) || !Holds(fs[0].tags[1], vs[0], isEmail) || !Holds(fs[1].tags[0], vs[1], isEmail);
      }
    }
  }

  /** Binding a login body: accepted exactly when it decodes and the
      e-mail is well formed and the password present. */
  function BindLogin(body: Json, isEmail: string -> bool): (r: Request<Validators.LoginRequest>)
    ensures r.Accepted? <==> Shaped(body) && LoginFields(body).Some? && Validators.LoginValid(LoginFields(body).value, isEmail)
    ensures r.Accepted? ==> Some(r.req) == LoginFields(body)
  {
    LoginBinding(body, isEmail);
    match Bind(LoginStruct, body, isEmail)
    case Refused(e) => Rejected(e)
    case Bound(_) => Accepted(LoginFields(body).value)
  }

  /** The anonymous one-field structs of the refresh and forgot-password
      handlers: `key` is a required string, and an e-mail when `email`. */
  function OneStringStruct(key: string, name: string, email: bool): StructSpec {
    StructSpec("", "", [FieldSpec(key, name, GoString, if email then [Required, Email] else [Required])])
  }

  lemma OneBinding(body: Json, key: string, name: string, email: bool, isEmail: string -> bool)
    ensures var m := Members(body);
            Bind(OneStringStruct(key, name, email), body, isEmail).Bound?
            <==> Shaped(body) && StrMember(m, key).Some? && StrMember(m, key).value != "" && (email ==> isEmail(StrMember(m, key).value))
  {
    var spec := OneStringStruct(key, name, email);
    var m := Members(body);
    StringDecode(spec.fields, m);
    if StrMember(m, key).Some? {
      var vs := DecodeAll(spec.fields, m).vs;
      var t := spec.fields[0].tags;
      var ok := StrMember(m, key).value != "" && (email ==> isEmail(StrMember(m, key).value));
      if ok {
        forall i, j | 0 <= i < 1 && 0 <= j < |spec.fields[i].tags| ensures Holds(spec.fields[i].tags[j], vs[i], isEmail) {
          assert j == 0 || j == 1;
        }
      } else if email {
        assert !Holds(t[0], vs[0], isEmail) || !Holds(t[1], vs[0], isEmail);
      } else {
        assert !Holds(t[0], vs[0], isEmail);
      }
    }
  }

  /** Binding a one-string body: accepted exactly when the member decodes
      to a non-empty string that, if asked, is an e-mail. */
  function BindOne(body: Json, key: string, name: string, email: bool, isEmail: string -> bool): (r: Request<string>)
    ensures r.Accepted? <==> Shaped(body) && StrMember(Members(body), key).Some?
                             && StrMember(Members(body), key).value != ""
                             && (email ==> isEmail(StrMember(Members(body), key).value))
    ensures r.Accepted? ==> Some(r.req) == StrMember(Members(body), key)
  {
    var spec := OneStringStruct(key, name, email);
    StringDecode(spec.fields, Members(body));
    OneBinding(body, key, name, email, isEmail);
    match Bind(spec, body, isEmail)
    case Refused(e) => Rejected(e)
    case Bound(vs) => Accepted(vs[0].s)
  }

  /** The reset-password struct. */
  const ResetStruct := StructSpec("", "", [
    FieldSpec("reset_token", "ResetToken", GoString, [Required]),
    FieldSpec("new_password", "NewPassword", GoString, [Required, Min(8)])])

  /** Binding a reset body: a non-empty token and a password of at least
      eight runes. */
  function BindReset(body: Json): (r: Request<(string, string)>)
    ensures var m := Members(body);
            r.Accepted? <==> Shaped(body) && StrMember(m, "reset_token").Some? && StrMember(m, "new_password").Some?
                             && StrMember(m, "reset_token").value != ""
                             && StrMember(m, "new_password").value != "" && |StrMember(m, "new_password").value| >= 8
    ensures r.Accepted? ==> Some(r.req.0) == StrMember(Members(body), "reset_token") && Some(r.req.1) == StrMember(Members(body), "new_password")
  {
    var fs := ResetStruct.fields;
    var m := Members(body);
    var noEmail := (s: string) => false;
    StringDecode(fs, m);
    assert fs[0].tags == [Required] && fs[1].tags == [Required, Min(8)];
    match Bind(ResetStruct, body, noEmail)
    case Refused(e) => Rejected(e)
    case Bound(vs) => Accepted((vs[0].s, vs[1].s))
  }

  /** A body decoded into `map[string]interface{}`, or encoding/json's
      refusal. */
  datatype MapBody = Decoded(m: map<string, Json>) | Undecodable(message: string)

  /** An object gives its members; `null` leaves the map nil, which reads
      and updates as empty; any other value is refused. */
  function DecodeMap(body: Json): (r: MapBody)
    ensures body.JObj? ==> r == Decoded(body.fields)
    ensures body.JNull? ==> r == Decoded(map[])
    ensures r.Undecodable? <==> !Shaped(body)
  {
    match body
    case JObj(m) => Decoded(m)
    case JNull => Decoded(map[])
    case _ => Undecodable("json: cannot unmarshal " + KindName(body, GoString) + " into Go value of type map[string]interface {}")
  }
}

=== FILE: client_types.dfy ===
/** The client's TypeScript records: the signed-in `User`, the uniform
    `ApiResponse` every API call resolves to, and the settled outcome of a
    promise. */
module ClientTypes {
  import opened Wrappers
  import opened Json

  /** The `User` interface. Its fields are strings on the client side. */
  datatype User = User(id: string, email: string, name: string, role: string, createdAt: string, updatedAt: string)

  /** `{ success, data?, error? }`; `None` is an absent (undefined) member. */
  datatype ApiResponse<T> = ApiResponse(success: bool, data: Option<T>, error: Option<string>)

  function Succeeded<T>(data: T): ApiResponse<T> {
    ApiResponse(true, Some(data), None)
  }

  function Failed<T>(error: string): ApiResponse<T> {
    ApiResponse(false, None, Some(error))
  }

  /** How an awaited promise settles: a value, or a thrown exception whose
      message is `Some` when it is an `Error` instance. */
  datatype Async<T> = Resolved(value: T) | Rejected(error: Option<string>)

  /** `e || fallback` for an optional string. */
  function OrElse(e: Option<string>, fallback: string): (r: string)
    ensures fallback != "" ==> r != ""
    ensures e.Some? && e.value != "" ==> r == e.value
  {
    if e.Some? && e.value != "" then e.value else fallback
  }

  /** A user object read from a JSON value the way a TypeScript cast does:
      each member is whatever the value holds, converted to text, so string
      members are copied as they are. */
  function UserFromJson(j: Json): (u: User)
    ensures Field(j, "id").Some? && Field(j, "id").value.JStr? ==> u.id == Field(j, "id").value.s
    ensures Field(j, "email").Some? && Field(j, "email").value.JStr? ==> u.email == Field(j, "email").value.s
    ensures Field(j, "name").Some? && Field(j, "name").value.JStr? ==> u.name == Field(j, "name").value.s
    ensures Field(j, "role").Some? && Field(j, "role").value.JStr? ==> u.role == Field(j, "role").value.s
    ensures Field(j, "createdAt").Some? && Field(j, "createdAt").value.JStr? ==> u.createdAt == Field(j, "createdAt").value.s
    ensures Field(j, "updatedAt").Some? && Field(j, "updatedAt").value.JStr? ==> u.updatedAt == Field(j, "updatedAt").value.s
  {
    User(ToText(Field(j, "id")), ToText(Field(j, "email")), ToText(Field(j, "name")),
         ToText(Field(j, "role")), ToText(Field(j, "createdAt")), ToText(Field(j, "updatedAt")))
  }
}

=== FILE: cookies.dfy ===
/** The browser cookie store as the client sees it: a jar of name/value pairs,
    and the two `getCookie` parsers that read `document.cookie`. The world
    model reads the jar directly; `ParsersReadJar` shows both parsers return
    exactly that lookup on any rendering of the jar. */
module Cookies {
  import opened Wrappers
  import opened Text

  type Jar = map<string, string>

  function Lookup(jar: Jar, name: string): Option<string> {
    if name in jar then Some(jar[name]) else None
  }

  /** `s.split(d)`: the maximal delimiter-free pieces, in order. */
  function Split(s: string, d: char): (parts: seq<string>)
    ensures |parts| >= 1
    ensures forall i :: 0 <= i < |parts| ==> d !in parts[i]
    decreases |s|
  {
    if |s| == 0 then [""]
    else
      var rest := Split(s[1..], d);
      if s[0] == d then [""] + rest else [[s[0]] + rest[0]] + rest[1..]
  }

  function Join(parts: seq<string>, d: char): string
    requires |parts| >= 1
    decreases |parts|
  {
    if |parts| == 1 then parts[0] else parts[0] + [d] + Join(parts[1..], d)
  }

  /** Splitting loses nothing: joining the pieces back gives the input. */
  lemma {:induction false} JoinSplit(s: string, d: char)
    ensures Join(Split(s, d), d) == s
    decreases |s|
  {
    if |s| > 0 {
      var rest := Split(s[1..], d);
      JoinSplit(s[1..], d);
      if s[0] == d {
        assert Split(s, d) == [""] + rest;
        assert ([""] + rest)[1..] == rest;
        assert [d] + s[1..] == s;
      } else {
        var parts := Split(s, d);
        assert parts == [[s[0]] + rest[0]] + rest[1..];
        if |rest| > 1 {
          assert parts[1..] == rest[1..];
        }
        assert [s[0]] + s[1..] == s;
      }
    }
  }

  lemma {:induction false} SplitNoDelimiter(s: string, d: char)
    requires d !in s
    ensures Split(s, d) == [s]
    decreases |s|
  {
    if |s| > 0 {
      SplitNoDelimiter(s[1..], d);
      assert [s[0]] + s[1..] == s;
    }
  }

  lemma {:induction false} SplitAt(a: string, b: string, d: char)
    requires d !in a
    ensures Split(a + [d] + b, d) == [a] + Split(b, d)
    decreases |a|
  {
    var s := a + [d] + b;
    if |a| == 0 {
      assert s[1..] == b;
    } else {
      assert s[1..] == a[1..] + [d] + b;
      SplitAt(a[1..], b, d);
      assert [a[0]] + a[1..] == a;
    }
  }

  /** How each parser cleans an entry before the prefix test: the api client
      strips leading spaces, the auth context trims both ends. */
  function Clean(entry: string, trim: bool): string {
    if trim then Trim(entry) else StripLeadingSpaces(entry)
  }

  /** The entry matches `prefix` once cleaned. */
  predicate Matches(entry: string, prefix: string, trim: bool) {
    StartsWith(Clean(entry, trim), prefix)
  }

  /** The cleaned entry's text after `prefix`. */
  function After(entry: string, prefix: string, trim: bool): string
    requires Matches(entry, prefix, trim)
  {
    Clean(entry, trim)[|prefix|..]
  }

  /** Index of the first entry that matches `prefix`, `|entries|` when none does. */
  function FirstIndex(entries: seq<string>, prefix: string, trim: bool): (k: nat)
    ensures k <= |entries|
    ensures forall j :: 0 <= j < k ==> !Matches(entries[j], prefix, trim)
    ensures k < |entries| ==> Matches(entries[k], prefix, trim)
    decreases |entries|
  {
    if |entries| == 0 then 0
    else if Matches(entries[0], prefix, trim) then 0
    else
      var k := FirstIndex(entries[1..], prefix, trim);
      assert forall j :: 1 <= j <= k ==> entries[j] == entries[1..][j - 1];
      1 + k
  }

  /** The text after `prefix` in the first entry that starts with it once
      cleaned; `None` when no entry does. This is the loop both `getCookie`
      functions run over `document.cookie.split(';')`. */
  function FirstWithPrefix(entries: seq<string>, prefix: string, trim: bool): (r: Option<string>)
    ensures r.None? <==> forall i :: 0 <= i < |entries| ==> !Matches(entries[i], prefix, trim)
    ensures r.Some? ==> var k := FirstIndex(entries, prefix, trim);
                        k < |entries| && r.value == After(entries[k], prefix, trim)
  {
    var k := FirstIndex(entries, prefix, trim);
    if k < |entries| then Some(After(entries[k], prefix, trim)) else None
  }

  lemma FirstWithPrefixCons(x: string, rest: seq<string>, prefix: string, trim: bool)
    ensures FirstWithPrefix([x] + rest, prefix, trim)
            == if Matches(x, prefix, trim) then Some(After(x, prefix, trim)) else FirstWithPrefix(rest, prefix, trim)
  {
    FirstIndexCons(x, rest, prefix, trim);
    var es := [x] + rest;
    assert es[0] == x;
    if !Matches(x, prefix, trim) {
      assert forall j :: 0 <= j < |rest| ==> es[1 + j] == rest[j];
    }
  }

  lemma FirstIndexCons(x: string, rest: seq<string>, prefix: string, trim: bool)
    ensures FirstIndex([x] + rest, prefix, trim)
            == if Matches(x, prefix, trim) then 0 else 1 + FirstIndex(rest, prefix, trim)
  {
    assert ([x] + rest)[0] == x && ([x] + rest)[1..] == rest;
  }

  /** `getCookie` of frontend/lib/api-client.ts: `null` without a window,
      otherwise the value of the first matching entry. */
  function GetCookieApi(hasWindow: bool, cookie: string, name: string): (r: Option<string>)
    ensures !hasWindow ==> r.None?
    ensures hasWindow ==> r == FirstWithPrefix(Split(cookie, ';'), name + "=", false)
    ensures r.Some? ==> ';' !in r.value
  {
    if !hasWindow then None
    else
      var r := FirstWithPrefix(Split(cookie, ';'), name + "=", false);
      ReadValueInside(Split(cookie, ';'), name + "=", false);
      r
  }

  /** `getCookie` of frontend/contexts/auth-context.tsx: trims each entry and
      never checks for a window. A value it returns holds no `;` and ends in
      no whitespace. */
  function GetCookieContext(cookie: string, name: string): (r: Option<string>)
    ensures r.Some? ==> ';' !in r.value && (r.value == [] || !IsJsSpace(r.value[|r.value| - 1]))
  {
    ReadValueInside(Split(cookie, ';'), name + "=", true);
    FirstWithPrefix(Split(cookie, ';'), name + "=", true)
  }

  /** Cleaning keeps only characters of the entry, and trimming leaves no
      trailing whitespace. */
  lemma CleanInside(e: string, trim: bool)
    ensures ';' !in e ==> ';' !in Clean(e, trim)
    ensures trim ==> Clean(e, trim) == [] || !IsJsSpace(Clean(e, trim)[|Clean(e, trim)| - 1])
  {
    var c := Clean(e, trim);
    if trim {
      TrimInside(e);
    } else {
      assert forall j :: 0 <= j < |c| ==> c[j] == e[|e| - |c| + j];
    }
  }

  /** The text after the prefix is a suffix of the cleaned entry. */
  lemma AfterInside(e: string, prefix: string, trim: bool)
    requires Matches(e, prefix, trim)
    ensures ';' !in e ==> ';' !in After(e, prefix, trim)
    ensures trim ==> After(e, prefix, trim) == [] || !IsJsSpace(After(e, prefix, trim)[|After(e, prefix, trim)| - 1])
  {
    CleanInside(e, trim);
    var c := Clean(e, trim);
    var a := After(e, prefix, trim);
    assert forall j :: 0 <= j < |a| ==> a[j] == c[|prefix| + j];
  }

  /** The value read from `;`-free entries is a slice of one of them, and a
      trimmed entry's value ends in no whitespace. */
  lemma ReadValueInside(entries: seq<string>, prefix: string, trim: bool)
    requires forall i :: 0 <= i < |entries| ==> ';' !in entries[i]
    ensures var r := FirstWithPrefix(entries, prefix, trim);
            r.Some? ==> ';' !in r.value && (trim ==> r.value == [] || !IsJsSpace(r.value[|r.value| - 1]))
  {
    var r := FirstWithPrefix(entries, prefix, trim);
    if r.Some? {
      var k := FirstIndex(entries, prefix, trim);
      AfterInside(entries[k], prefix, trim);
    }
  }

  /** One cookie as `document.cookie` lists it. */
  datatype Entry = Entry(name: string, value: string)

  function EntryText(e: Entry): string {
    e.name + "=" + e.value
  }

  /** What the browser hands out: the entries joined by `"; "`. */
  function Render(es: seq<Entry>): string
    decreases |es|
  {
    if |es| == 0 then ""
    else if |es| == 1 then EntryText(es[0])
    else EntryText(es[0]) + "; " + Render(es[1..])
  }

  /** A cookie the parsers can read back: no `;` anywhere, no `=` in the name,
      no whitespace at the start of the name or the end of the value. */
  predicate Parsable(e: Entry) {
    && '=' !in e.name && ';' !in e.name && ';' !in e.value
    && (e.name == [] || !IsJsSpace(e.name[0]))
    && (e.value == [] || !IsJsSpace(e.value[|e.value| - 1]))
  }

  /** The first entry of that name, the reference reading of a cookie list. */
  function LookupEntries(es: seq<Entry>, name: string): (r: Option<string>)
    ensures r.None? <==> forall i :: 0 <= i < |es| ==> es[i].name != name
    ensures r.Some? ==> exists i :: 0 <= i < |es| && es[i].name == name && es[i].value == r.value
    decreases |es|
  {
    if |es| == 0 then None
    else if es[0].name == name then Some(es[0].value)
    else
      var r := LookupEntries(es[1..], name);
      assert forall i :: 1 <= i < |es| ==> es[i] == es[1..][i - 1];
      r
  }

  /** `name=` starts a rendered entry exactly when the entry has that name. */
  lemma NamePrefix(e: Entry, name: string)
    requires Parsable(e) && '=' !in name
    ensures StartsWith(EntryText(e), name + "=") <==> e.name == name
  {
    var t := EntryText(e);
    if StartsWith(t, name + "=") {
      assert t[..|name| + 1] == name + "=";
      assert t[|name|] == '=';
      assert forall i :: 0 <= i < |e.name| ==> t[i] == e.name[i];
      assert t[|e.name|] == '=';
      assert forall i :: 0 <= i < |name| ==> t[i] == name[i];
      assert |name| == |e.name|;
      assert t[..|name|] == name && t[..|e.name|] == e.name;
    }
    if e.name == name {
      assert t[..|name| + 1] == name + "=";
    }
  }

  /** Cleaning a rendered entry, with or without the space the renderer put
      before it, gives back the entry text. */
  lemma CleanEntry(e: Entry, lead: string, trim: bool)
    requires Parsable(e) && (lead == "" || lead == " ")
    ensures Clean(lead + EntryText(e), trim) == EntryText(e)
  {
    var t := EntryText(e);
    assert t[0] != ' ' && !IsJsSpace(t[0]);
    assert !IsJsSpace(t[|t| - 1]);
    TrimStartKeeps(t);
    TrimEndKeeps(t);
    if lead == " " {
      var s := lead + t;
      assert s[0] == ' ' && s[1..] == t;
      StripDrops(s);
      TrimStartDrops(s);
    } else {
      assert lead + t == t;
    }
  }

  /** A rendered entry matches `name=` exactly when it carries that name, and
      then the parser returns its value. */
  lemma MatchRendered(e: Entry, lead: string, name: string, trim: bool)
    requires Parsable(e) && (lead == "" || lead == " ") && '=' !in name
    ensures Matches(lead + EntryText(e), name + "=", trim) <==> e.name == name
    ensures e.name == name ==> After(lead + EntryText(e), name + "=", trim) == e.value
  {
    CleanEntry(e, lead, trim);
    NamePrefix(e, name);
    if e.name == name {
      assert EntryText(e)[|name + "="|..] == e.value;
    }
  }

  /** The text of several cookies is the first one's, `;`, then the rest's
      behind a space. */
  lemma RenderSplitsAtFirst(es: seq<Entry>, lead: string)
    requires |es| >= 2
    ensures lead + Render(es) == (lead + EntryText(es[0])) + [';'] + (" " + Render(es[1..]))
  {
    var a := EntryText(es[0]);
    var b := Render(es[1..]);
    assert Render(es) == a + "; " + b;
    var sep: string := "; ";
    assert sep == [';'] + " ";
    calc {
      lead + (a + sep + b);
      lead + (a + ([';'] + " ") + b);
      { SeqAssoc(lead, a, [';'], " ", b); }
      (lead + a) + [';'] + (" " + b);
    }
  }

  lemma SeqAssoc(p: string, a: string, s: string, t: string, b: string)
    ensures p + (a + (s + t) + b) == (p + a) + s + (t + b)
  {
    assert |p + (a + (s + t) + b)| == |(p + a) + s + (t + b)|;
    forall i | 0 <= i < |p + (a + (s + t) + b)|
      ensures (p + (a + (s + t) + b))[i] == ((p + a) + s + (t + b))[i]
    {
    }
  }

  lemma {:induction false} ParseRendered(es: seq<Entry>, lead: string, name: string, trim: bool)
    requires forall i :: 0 <= i < |es| ==> Parsable(es[i])
    requires lead == "" || lead == " "
    requires '=' !in name
    ensures FirstWithPrefix(Split(lead + Render(es), ';'), name + "=", trim) == LookupEntries(es, name)
    decreases |es|
  {
    if |es| == 0 {
      ParseNothing(lead, name, trim);
    } else if |es| == 1 {
      ParseOne(es, lead, name, trim);
    } else {
      ParseRendered(es[1..], " ", name, trim);
      ParseMore(es, lead, name, trim);
    }
  }

  lemma ParseNothing(lead: string, name: string, trim: bool)
    requires lead == "" || lead == " "
    ensures FirstWithPrefix(Split(lead + Render([]), ';'), name + "=", trim) == None
  {
    assert lead + Render([]) == lead;
    SplitNoDelimiter(lead, ';');
    assert Clean(lead, trim) == "";
    FirstWithPrefixCons(lead, [], name + "=", trim);
  }

  lemma ParseOne(es: seq<Entry>, lead: string, name: string, trim: bool)
    requires |es| == 1 && Parsable(es[0])
    requires lead == "" || lead == " "
    requires '=' !in name
    ensures FirstWithPrefix(Split(lead + Render(es), ';'), name + "=", trim) == LookupEntries(es, name)
  {
    var head := lead + EntryText(es[0]);
    MatchRendered(es[0], lead, name, trim);
    assert lead + Render(es) == head;
    SplitNoDelimiter(head, ';');
    FirstWithPrefixCons(head, [], name + "=", trim);
  }

  /** The step of ParseRendered: the first entry is read, or the search
      moves on to the rest, which is rendered behind a space. */
  lemma ParseMore(es: seq<Entry>, lead: string, name: string, trim: bool)
    requires |es| >= 2 && Parsable(es[0]) && forall i :: 1 <= i < |es| ==> Parsable(es[i])
    requires lead == "" || lead == " "
    requires '=' !in name
    requires FirstWithPrefix(Split(" " + Render(es[1..]), ';'), name + "=", trim) == LookupEntries(es[1..], name)
    ensures FirstWithPrefix(Split(lead + Render(es), ';'), name + "=", trim) == LookupEntries(es, name)
  {
    var head := lead + EntryText(es[0]);
    var tail := " " + Render(es[1..]);
    MatchRendered(es[0], lead, name, trim);
    RenderSplitsAtFirst(es, lead);
    SplitAt(head, tail, ';');
    FirstWithPrefixCons(head, Split(tail, ';'), name + "=", trim);
  }

  /** `es` lists exactly the cookies of `jar`, each name once. */
  predicate Enumerates(es: seq<Entry>, jar: Jar) {
    && (forall i, j :: 0 <= i < j < |es| ==> es[i].name != es[j].name)
    && (forall i :: 0 <= i < |es| ==> es[i].name in jar && jar[es[i].name] == es[i].value)
    && (forall n :: n in jar ==> exists i :: 0 <= i < |es| && es[i].name == n)
  }

  /** Both `getCookie` parsers, run on any rendering of the jar, return the
      jar's value for the name, or null when the jar has none. */
  lemma ParsersReadJar(es: seq<Entry>, jar: Jar, name: string)
    requires Enumerates(es, jar)
    requires forall i :: 0 <= i < |es| ==> Parsable(es[i])
    requires '=' !in name
    ensures GetCookieApi(true, Render(es), name) == Lookup(jar, name)
    ensures GetCookieContext(Render(es), name) == Lookup(jar, name)
  {
    assert "" + Render(es) == Render(es);
    ParseRendered(es, "", name, false);
    ParseRendered(es, "", name, true);
    var r := LookupEntries(es, name);
    if name in jar {
      var i :| 0 <= i < |es| && es[i].name == name;
    }
  }

  /** The parsers are not interchangeable: on `a=b ` the api client's keeps
      the trailing space, the auth context's trims it. */
  lemma ParsersDiffer()
    ensures GetCookieApi(true, "a=b ", "a") == Some("b ")
    ensures GetCookieContext("a=b ", "a") == Some("b")
  {
    ApiKeepsTrailingSpace();
    ContextTrimsTrailingSpace();
  }

  lemma ApiKeepsTrailingSpace()
    ensures GetCookieApi(true, "a=b ", "a") == Some("b ")
  {
    var e, name := "a=b ", "a";
    assert name + "=" == "a=";
    assert e[0] == 'a';
    assert StripLeadingSpaces(e) == e;
    assert Clean(e, false) == e;
    assert e[..2] == "a=";
    ReadOneEntry(e, name, false);
    assert e[2..] == "b ";
  }

  lemma ContextTrimsTrailingSpace()
    ensures GetCookieContext("a=b ", "a") == Some("b")
  {
    var e, kept, name := "a=b ", "a=b", "a";
    assert name + "=" == "a=";
    assert e[0] == 'a' && e[3] == ' ' && kept[2] == 'b';
    assert e[..3] == kept;
    TrimStartKeeps(e);
    TrimEndDrops(e);
    TrimEndKeeps(kept);
    assert Clean(e, true) == kept;
    assert kept[..2] == "a=";
    ReadOneEntry(e, name, true);
    assert kept[2..] == "b";
  }

  /** A cookie string of one entry holding `name=` is read by the cleaned
      entry's text after that prefix. */
  lemma ReadOneEntry(entry: string, name: string, trim: bool)
    requires ';' !in entry && Matches(entry, name + "=", trim)
    ensures FirstWithPrefix(Split(entry, ';'), name + "=", trim) == Some(After(entry, name + "=", trim))
  {
    SplitNoDelimiter(entry, ';');
    assert [entry] == [entry] + [];
    FirstWithPrefixCons(entry, [], name + "=", trim);
  }
}

=== FILE: cross_tier.dfy ===
/** What happens when the client of frontend/lib/api-client.ts and
    frontend/contexts/auth-context.tsx talks to the handlers of
    backend/controllers: each side is modelled as written, and these lemmas
    put a server reply into the client's fetch. */
module CrossTier {
  import opened Wrappers
  import opened Json
  import opened ClientTypes
  import opened Cookies
  import Text
  import Jwt
  import Binding
  import opened Store
  import Server
  import AuthController
  import AdminController
  import ApiClient
  import AuthContext
  import AdminPage

  /** A server reply as the client's `fetch` receives it. */
  function Deliver(r: Server.Response): ApiClient.Reply {
    ApiClient.Answer(r.status, ApiClient.Parsed(r.body))
  }

  /** The client posts `{refreshToken}` but the server binds
      `refresh_token`: every refresh the client sends is refused with 400. */
  lemma RefreshBodyRefused(env: Server.Env, db: Db, rt: string)
    ensures AuthController.RefreshToken(env, db, ApiClient.RefreshCall(rt).body.value) == Server.Error(400, "Refresh token is required")
  {
    var body := ApiClient.RefreshCall(rt).body.value;
    assert "refresh_token" !in body.fields;
    assert Binding.BindOne(body, "refresh_token", "RefreshToken", false, env.isEmail).Rejected?;
  }

  /** Hence the client's `refreshToken()` never succeeds against this
      server: it answers false and wipes both cookies and the token. */
  lemma ClientRefreshFails(env: Server.Env, db: Db, w: ApiClient.World)
    requires ApiClient.HasRefreshCredential(w)
    requires ApiClient.Head(w.script) == Deliver(AuthController.RefreshToken(env, db, ApiClient.RefreshCall(w.jar[ApiClient.RefreshCookie]).body.value))
    ensures var out := ApiClient.RefreshToken(w);
            && !out.result
            && out.world.jar == w.jar - {ApiClient.AccessCookie, ApiClient.RefreshCookie}
            && out.world.token.None?
  {
    RefreshBodyRefused(env, db, w.jar[ApiClient.RefreshCookie]);
  }

  /** So the first 401 on a request made with a token ends the session:
      the refresh is refused, the credentials are gone, and the error shown
      is the generic one, since the server's text is under `error`. */
  lemma ExpiredTokenSignsOut(env: Server.Env, db: Db, w: ApiClient.World, c: ApiClient.Call, message: string)
    requires w.token.Some? && ApiClient.HasRefreshCredential(w) && |w.script| >= 2
    requires w.script[0] == Deliver(Server.Error(401, message))
    requires w.script[1] == Deliver(AuthController.RefreshToken(env, db, ApiClient.RefreshCall(w.jar[ApiClient.RefreshCookie]).body.value))
    ensures var out := ApiClient.Request(w, c);
            && out.result == Failed("An error occurred")
            && out.world.jar == w.jar - {ApiClient.AccessCookie, ApiClient.RefreshCookie}
            && out.world.token.None?
  {
    RefreshBodyRefused(env, db, w.jar[ApiClient.RefreshCookie]);
    assert ApiClient.Head(w.script[1..]) == w.script[1];
    ApiClient.Unauthorized401RefreshRefused(w, c);
  }

  /** Even a refresh the server grants is misread: its reply holds `token`,
      the client reads `accessToken`, so the in-memory token is cleared and
      the access cookie holds the text "undefined". */
  lemma GrantedRefreshMisread(env: Server.Env, db: Db, body: Json, w: ApiClient.World)
    requires AuthController.RefreshToken(env, db, body).status == 200
    requires ApiClient.HasRefreshCredential(w)
    requires ApiClient.Head(w.script) == Deliver(AuthController.RefreshToken(env, db, body))
    ensures var out := ApiClient.RefreshToken(w);
            && out.result
            && out.world.token.None?
            && Lookup(out.world.jar, ApiClient.AccessCookie) == Some("undefined")
  {
    var r := AuthController.RefreshToken(env, db, body);
    assert Field(r.body, "accessToken").None?;
  }

  /** A login the server refuses (400 or 401) shows the client's generic
      text, never the server's reason. */
  lemma RefusedLoginShowsGenericError(env: Server.Env, db: Db, credentials: Json, s: AuthContext.Session)
    requires s.world.token.None?
    requires AuthController.Login(env, db, credentials).status != 200
    requires ApiClient.Head(s.world.script) == Deliver(AuthController.Login(env, db, credentials))
    ensures var out := AuthContext.Login(s, credentials);
            !out.ok && out.session.state.error == Some("An error occurred")
  {
    var r := AuthController.Login(env, db, credentials);
    assert r.body.JObj? && "message" !in r.body.fields;
    ApiClient.RequestWithoutRefresh(s.world, ApiClient.LoginCall(credentials));
  }

  /** A login the server accepts signs the client in with the server's
      access token, which the server then accepts as an access token. */
  lemma AcceptedLoginSignsIn(env: Server.Env, db: Db, credentials: Json, s: AuthContext.Session, later: int)
    requires Jwt.Sound(env.codec)
    requires AuthController.Login(env, db, credentials).status == 200
    requires s.world.token.None? && s.world.hasWindow
    requires ApiClient.Head(s.world.script) == Deliver(AuthController.Login(env, db, credentials))
    requires env.now <= later < env.now + Jwt.Lifetime(Jwt.Access)
    ensures var out := AuthContext.Login(s, credentials);
            && out.ok
            && out.session.world.token == Some(Server.StringAt(AuthController.Login(env, db, credentials), "token"))
            && Jwt.Validate(env.codec, Jwt.Access, out.session.world.token.value, later).Some?
  {
    var r := AuthController.Login(env, db, credentials);
    var u := UserByEmail(db, Binding.BindLogin(credentials, env.isEmail).req.email).value;
    var claims := AuthController.AccessClaims(db, u, env.now);
    var t := env.codec.sign(claims);
    assert Server.Member(r, "token") == Some(JStr(t));
    assert t != "";
    ApiClient.RequestWithoutRefresh(s.world, ApiClient.LoginCall(credentials));
    assert ApiClient.Login(s.world, credentials).result == Succeeded(r.body);
    assert Field(r.body, "token") == Some(JStr(t));
    Jwt.IssuedTokenValidates(env.codec, Jwt.Access, u.id, u.email, RoleName(db, u.roleId), env.now, later);
  }

  /** A successful register answers without tokens, yet the client stores
      the missing `accessToken` and `refreshToken` as the text "undefined"
      and holds no usable bearer. */
  lemma RegisterStoresUndefined(env: Server.Env, db: Db, data: Json, s: AuthContext.Session)
    requires s.world.hasWindow
    requires AuthController.Register(env, db, data).response.status == 201
    requires ApiClient.Head(s.world.script) == Deliver(AuthController.Register(env, db, data).response)
    ensures var out := AuthContext.Register(s, data);
            && out.ok
            && Lookup(out.session.world.jar, ApiClient.AccessCookie) == Some("undefined")
            && Lookup(out.session.world.jar, ApiClient.RefreshCookie) == Some("undefined")
            && out.session.world.token.None?
  {
    RegisterReplyHasNoTokens(env, db, data);
    ClientRegisterWithoutTokens(s, data, AuthController.Register(env, db, data).response);
  }

  /** The client side of `RegisterStoresUndefined`, for any 2xx reply that
      carries neither token. */
  lemma ClientRegisterWithoutTokens(s: AuthContext.Session, data: Json, r: Server.Response)
    requires s.world.hasWindow && r.status == 201 && r.body.JObj?
    requires "accessToken" !in r.body.fields && "refreshToken" !in r.body.fields
    requires ApiClient.Head(s.world.script) == Deliver(r)
    ensures var out := AuthContext.Register(s, data);
            && out.ok
            && Lookup(out.session.world.jar, ApiClient.AccessCookie) == Some("undefined")
            && Lookup(out.session.world.jar, ApiClient.RefreshCookie) == Some("undefined")
            && out.session.world.token.None?
  {
    ApiClient.RequestWithoutRefresh(s.world, ApiClient.RegisterCall(data));
    assert ApiClient.Request(s.world, ApiClient.RegisterCall(data)).result == Succeeded(r.body);
  }

  /** The register reply is the message and the user, nothing else. */
  lemma RegisterReplyHasNoTokens(env: Server.Env, db: Db, data: Json)
    requires AuthController.Register(env, db, data).response.status == 201
    ensures var r := AuthController.Register(env, db, data).response;
            r.body.JObj? && r.body.fields.Keys == {"message", "user"}
  {
    var q := Binding.BindRegister(data, env.isEmail, "validators", 8).req;
    var u :| AuthController.Register(env, db, data).response.body
              == JObj(map["message" := JStr("User created successfully"), "user" := AuthController.CreatedUser(u)]);
  }

  /** The reset body names its members `token` and `password`; the server
      binds `reset_token` and `new_password`, so every reset is refused
      and the store is untouched. */
  lemma ResetBodyRefused(env: Server.Env, db: Db, token: string, password: string)
    ensures AuthController.ResetPassword(env, db, ApiClient.ResetPasswordCall(token, password).body.value)
            == Server.Handled(Server.Error(400, "Reset token and new password are required"), db)
  {
    var body := ApiClient.ResetPasswordCall(token, password).body.value;
    assert "reset_token" !in body.fields;
    assert Binding.BindReset(body).Rejected?;
  }

  /** The forgot-password body matches: the server accepts it exactly when
      the e-mail is non-empty and well formed. */
  lemma ForgotBodyBinds(env: Server.Env, email: string)
    ensures Binding.BindOne(ApiClient.ForgotPasswordCall(email).body.value, "email", "Email", true, env.isEmail).Accepted?
            <==> email != "" && env.isEmail(email)
  {
    var body := ApiClient.ForgotPasswordCall(email).body.value;
    assert Binding.StrMember(Binding.Members(body), "email") == Some(email);
  }

  /** The admin page's update always carries `role`, which names no
      column, so no edit from that page is ever stored. */
  lemma AdminPageUpdateNeverApplies(env: Server.Env, db: Db, id: string, f: AdminPage.Form)
    ensures var h := AdminController.UpdateUser(env, db, id, AdminPage.UpdateBody(f));
            h.response.status != 200 && h.db == db
  {
    var body := AdminPage.UpdateBody(f);
    assert Binding.DecodeMap(body) == Binding.Decoded(body.fields);
    var s := AdminController.SanitizeAdmin(env, body.fields);
    var uid := AdminController.UserId(id);
    if s.Clean? && uid.Some? && UserById(db, uid.value).Some? {
      RoleKeyRefused(db, UserById(db, uid.value).value, s.m, env.stamp);
    }
  }

  /** An update map holding `role` names a column that does not exist, so
      the statement fails whatever else it holds. */
  lemma RoleKeyRefused(db: Db, u: Store.User, m: map<string, Json>, stamp: string)
    requires "role" in m
    ensures Updates(db, u, m, stamp).None?
  {
    assert ColumnOf("role").None?;
  }

  /** The admin page's create form sends `role`, never `role_id`, so the
      user is bound with role id 0 and the insert never succeeds. */
  lemma AdminPageCreateNeverApplies(env: Server.Env, db: Db, f: AdminPage.Form)
    requires Valid(db)
    ensures var h := AdminController.CreateUser(env, db, AdminPage.CreateBody(f));
            h.response.status != 201 && h.db == db
  {
    AdminController.CreateWithoutRoleFails(env, db, AdminPage.CreateBody(f));
  }

  /** `/user/me` round trip: the server's user object, normalised by the
      client, is the stored row with its id printed in decimal and its role
      name. */
  lemma CurrentUserRoundTrip(db: Db, userId: nat, w: ApiClient.World)
    requires UserById(db, userId).Some?
    requires ApiClient.Head(w.script) == Deliver(AuthController.GetCurrentUser(db, userId))
    ensures var u := UserById(db, userId).value;
            ApiClient.GetCurrentUser(w).result
              == Resolved(Succeeded(ClientTypes.User(Text.IntToDecimal(u.id), u.email, u.name, RoleName(db, u.roleId), u.createdAt, u.updatedAt)))
  {
    var u := UserById(db, userId).value;
    var apiUser := JObj(map["id" := JNum(u.id), "name" := JStr(u.name), "email" := JStr(u.email),
                            "role" := JStr(RoleName(db, u.roleId)),
                            "created_at" := JStr(u.createdAt), "updated_at" := JStr(u.updatedAt)]);
    var r := AuthController.GetCurrentUser(db, userId);
    assert r.status == 200 && Server.Member(r, "user") == Some(apiUser);
    ApiClient.RequestWithoutRefresh(w, ApiClient.MeCall);
    var res := ApiClient.Request(w, ApiClient.MeCall).result;
    assert res == Succeeded(r.body);
    assert Field(r.body, "user") == Some(apiUser);
    assert ApiClient.Normalize(apiUser)
           == ClientTypes.User(Text.IntToDecimal(u.id), u.email, u.name, RoleName(db, u.roleId), u.createdAt, u.updatedAt);
  }

  /** The user `/user/me` reports, as the client holds it. */
  function ClientUser(db: Db, u: Store.User): ClientTypes.User {
    ClientTypes.User(Text.IntToDecimal(u.id), u.email, u.name, RoleName(db, u.roleId), u.createdAt, u.updatedAt)
  }

  /** Reloading the page with the access cookie of a user who still exists
      signs that user back in. */
  lemma InitializeRestoresSession(db: Db, userId: nat, s: AuthContext.Session)
    requires var t := ApiClient.ReadCookie(s.world, ApiClient.AccessCookie);
             s.world.hasWindow && t.Some? && t.value != ""
    requires UserById(db, userId).Some?
    requires ApiClient.Head(s.world.script) == Deliver(AuthController.GetCurrentUser(db, userId))
    ensures var s' := AuthContext.InitializeAuth(s);
            && s'.state.user == Some(ClientUser(db, UserById(db, userId).value))
            && s'.state.isAuthenticated && !s'.state.loading && s'.state.error.None?
  {
    var t := ApiClient.ReadCookie(s.world, ApiClient.AccessCookie).value;
    CurrentUserRoundTrip(db, userId, s.world.(token := ApiClient.TokenOf(t)));
  }

  /** A 404 from `/user/me` for a user who no longer exists: the client
      reads `message`, the server wrote `error`, so the generic text
      reaches the caller. */
  lemma MissingUserReply(db: Db, userId: nat, w: ApiClient.World)
    requires UserById(db, userId).None?
    requires ApiClient.Head(w.script) == Deliver(AuthController.GetCurrentUser(db, userId))
    ensures var me := ApiClient.GetCurrentUser(w);
            && me.result == Resolved(ApiResponse(false, None, Some("An error occurred")))
            && me.world.jar == w.jar && me.world.token == w.token
  {
    var r := AuthController.GetCurrentUser(db, userId);
    assert r == Server.Error(404, "User not found");
    ApiClient.RequestWithoutRefresh(w, ApiClient.MeCall);
    assert r.body.JObj? && "message" !in r.body.fields;
  }

  /** Reloading the page with the access cookie of a deleted user signs the
      client out: both cookies and the token are gone. */
  lemma InitializeDropsMissingUser(db: Db, userId: nat, s: AuthContext.Session)
    requires var t := ApiClient.ReadCookie(s.world, ApiClient.AccessCookie);
             s.world.hasWindow && t.Some? && t.value != ""
    requires UserById(db, userId).None?
    requires ApiClient.Head(s.world.script) == Deliver(AuthController.GetCurrentUser(db, userId))
    ensures var s' := AuthContext.InitializeAuth(s);
            && s'.state == s.state.(loading := false)
            && ApiClient.ReadCookie(s'.world, ApiClient.AccessCookie).None?
            && ApiClient.ReadCookie(s'.world, ApiClient.RefreshCookie).None?
            && s'.world.token.None?
  {
    var t := ApiClient.ReadCookie(s.world, ApiClient.AccessCookie).value;
    MissingUserReply(db, userId, s.world.(token := ApiClient.TokenOf(t)));
  }

  /** `refreshUser` after the user was deleted keeps the stale user signed
      in: the 404 is ignored. */
  lemma RefreshUserKeepsDeletedUser(db: Db, userId: nat, s: AuthContext.Session)
    requires s.state.isAuthenticated
    requires UserById(db, userId).None?
    requires ApiClient.Head(s.world.script) == Deliver(AuthController.GetCurrentUser(db, userId))
    ensures AuthContext.RefreshUser(s).state == s.state
  {
    MissingUserReply(db, userId, s.world);
  }

  /** `refreshUser` for a user who still exists loads the server's current
      copy of that user. */
  lemma RefreshUserReloads(db: Db, userId: nat, s: AuthContext.Session)
    requires s.state.isAuthenticated
    requires UserById(db, userId).Some?
    requires ApiClient.Head(s.world.script) == Deliver(AuthController.GetCurrentUser(db, userId))
    ensures var s' := AuthContext.RefreshUser(s);
            s'.state.user == Some(ClientUser(db, UserById(db, userId).value)) && s'.state.isAuthenticated
  {
    CurrentUserRoundTrip(db, userId, s.world);
  }

  /** The server's logout reply reaches the client as a success carrying
      its message, after exactly one call, and the client has signed out. */
  lemma LogoutRoundTrip(w: ApiClient.World)
    requires ApiClient.Head(w.script) == Deliver(AuthController.Logout())
    ensures var out := ApiClient.Logout(w);
            && out.result == Succeeded(AuthController.Logout().body)
            && Field(out.result.data.value, "message") == Some(JStr("Logged out successfully"))
            && |out.world.sent| == |w.sent| + 1
            && out.world.token.None?
  {
    ApiClient.RequestWithoutRefresh(w, ApiClient.LogoutCall);
  }
}

=== FILE: database.dfy ===
/** `seedData` of backend/config/database.go: make sure the roles `admin`,
    `manager` and `user` exist. */
module Database {
  import opened Store

  /** The role names seeded, in order. */
  const SeedRoles: seq<string> := ["admin", "manager", "user"]

  /** One step of the seeding loop. A name whose lookup fails with an error
      other than "record not found" (those in `faulty`) is skipped; a name
      that is found is left alone; otherwise the role is created. */
  function SeedRole(db: Db, name: string, faulty: set<string>): (db': Db)
    ensures name in faulty || RoleByName(db, name).Some? ==> db' == db
    ensures name !in faulty && RoleByName(db, name).None? ==> db' == CreateRole(db, name)
  {
    if name in faulty then db
    else match RoleByName(db, name)
      case Some(_) => db
      case None => CreateRole(db, name)
  }

  /** The seeding loop over `names`. */
  function SeedAll(db: Db, names: seq<string>, faulty: set<string>): (db': Db)
    ensures db'.users == db.users
    ensures |db.roles| <= |db'.roles| && db'.roles[..|db.roles|] == db.roles
    ensures forall n :: n in names && n !in faulty ==> RoleByName(db', n).Some?
    ensures forall n :: RoleByName(db, n).Some? ==> RoleByName(db', n) == RoleByName(db, n)
    ensures forall n :: n !in names || n in faulty ==> RoleByName(db', n) == RoleByName(db, n)
    ensures Valid(db) ==> Valid(db')
    decreases |names|
  {
    if |names| == 0 then db
    else
      var step := SeedRole(db, names[0], faulty);
      SeedRoleLookups(db, names[0], faulty);
      var rest := SeedAll(step, names[1..], faulty);
      assert forall n :: n in names ==> n == names[0] || n in names[1..];
      rest
  }

  /** What one step does to the lookups by name. */
  lemma SeedRoleLookups(db: Db, name: string, faulty: set<string>)
    ensures var db' := SeedRole(db, name, faulty);
            && db'.users == db.users
            && |db.roles| <= |db'.roles| && db'.roles[..|db.roles|] == db.roles
            && (name !in faulty ==> RoleByName(db', name).Some?)
            && (forall n :: RoleByName(db, n).Some? ==> RoleByName(db', n) == RoleByName(db, n))
            && (forall n :: n != name || name in faulty ==> RoleByName(db', n) == RoleByName(db, n))
  {
    if name !in faulty && RoleByName(db, name).None? {
      var db' := CreateRole(db, name);
      assert db'.roles[|db.roles|].name == name;
      forall n | RoleByName(db, n).Some? ensures RoleByName(db', n) == RoleByName(db, n) {
        FoundInPrefix(db.roles, [Role(db.nextRoleId, name)], n);
      }
      forall n | n != name ensures RoleByName(db', n) == RoleByName(db, n) {
        if RoleByName(db, n).Some? {
          FoundInPrefix(db.roles, [Role(db.nextRoleId, name)], n);
        } else {
          assert forall i :: 0 <= i < |db'.roles| ==> db'.roles[i].name != n;
        }
      }
    }
  }

  /** A name found among the first roles is found at the same place after
      more roles are added. */
  lemma FoundInPrefix(roles: seq<Role>, extra: seq<Role>, n: string)
    requires FindRole(roles, (r: Role) => r.name == n) < |roles|
    ensures FindRole(roles + extra, (r: Role) => r.name == n) == FindRole(roles, (r: Role) => r.name == n)
  {
    var p := (r: Role) => r.name == n;
    var k := FindRole(roles, p);
    var k' := FindRole(roles + extra, p);
    assert (roles + extra)[k] == roles[k];
  }

  /** `seedData`. */
  function SeedData(db: Db, faulty: set<string>): (db': Db)
    ensures db'.users == db.users
    ensures forall n :: n in SeedRoles && n !in faulty ==> RoleByName(db', n).Some?
    ensures forall n :: RoleByName(db, n).Some? ==> RoleByName(db', n) == RoleByName(db, n)
    ensures forall n :: n in faulty ==> RoleByName(db', n) == RoleByName(db, n)
    ensures Valid(db) ==> Valid(db')
  {
    SeedAll(db, SeedRoles, faulty)
  }

  /** When every name is already there, seeding changes nothing. */
  lemma {:induction false} SeedAllPresent(db: Db, names: seq<string>, faulty: set<string>)
    requires forall n :: n in names ==> RoleByName(db, n).Some?
    ensures SeedAll(db, names, faulty) == db
    decreases |names|
  {
    if |names| > 0 {
      assert SeedRole(db, names[0], faulty) == db;
      assert forall n :: n in names[1..] ==> n in names;
      SeedAllPresent(db, names[1..], faulty);
    }
  }

  /** After a run in which no lookup failed, a second run creates nothing,
      whatever its own lookups do. */
  lemma SeedTwice(db: Db, faulty: set<string>)
    ensures SeedData(SeedData(db, {}), faulty) == SeedData(db, {})
  {
    SeedAllPresent(SeedData(db, {}), SeedRoles, faulty);
  }
}

=== FILE: json.dfy ===
/** Parsed JSON bodies as the JavaScript client sees them: property reads,
    truthiness and string conversion. Arrays are not represented (no modelled
    decision reads one) and numbers are integers. */
module Json {
  import opened Wrappers
  import Text

  datatype Json =
    | JNull
    | JBool(b: bool)
    | JNum(n: int)
    | JStr(s: string)
    | JObj(fields: map<string, Json>)

  /** JavaScript truthiness; `None` stands for `undefined`. */
  predicate Truthy(v: Option<Json>) {
    match v
    case None => false
    case Some(JNull) => false
    case Some(JBool(b)) => b
    case Some(JNum(n)) => n != 0
    case Some(JStr(s)) => s != ""
    case Some(JObj(_)) => true
  }

  /** `j.key` on a value that is neither null nor undefined: an object's own
      property; primitives carry none of the keys the model reads. */
  function Field(j: Json, key: string): Option<Json> {
    if j.JObj? && key in j.fields then Some(j.fields[key]) else None
  }

  /** The outcome of `v.key` when `v` may be null or undefined. */
  datatype Access = Throws(message: string) | Read(value: Option<Json>)

  /** `v.key`: a TypeError on null and undefined, a property read otherwise. */
  function Get(v: Option<Json>, key: string): (a: Access)
    ensures a.Throws? <==> (v.None? || v == Some(JNull))
    ensures a.Read? ==> a.value == Field(v.value, key)
  {
    match v
    case None => Throws(ReadError("undefined", key))
    case Some(JNull) => Throws(ReadError("null", key))
    case Some(j) => Read(Field(j, key))
  }

  /** The TypeError message V8 gives for a property read on null/undefined. */
  function ReadError(base: string, key: string): string {
    "Cannot read properties of " + base + " (reading '" + key + "')"
  }

  /** `String(v)`, also what a template literal `${v}` produces. */
  function ToText(v: Option<Json>): string {
    match v
    case None => "undefined"
    case Some(JNull) => "null"
    case Some(JBool(b)) => if b then "true" else "false"
    case Some(JNum(n)) => Text.IntToDecimal(n)
    case Some(JStr(s)) => s
    case Some(JObj(_)) => "[object Object]"
  }

  /** A one-key object body, as `{ key: value }` in either language. */
  function Single(key: string, value: Json): Json {
    JObj(map[key := value])
  }
}

=== FILE: jwt.dfy ===
/** Token issue and validation, backend/utils/jwt.go. Signing and parsing
    are opaque: a `Codec` pairs the signer with the parser that accepts
    what it signed under the same secret. Times are whole seconds. */
module Jwt {
  import opened Wrappers

  /** The three kinds of token, told apart only by the `sub` claim. */
  datatype Kind = Access | Refresh | Reset

  function Subject(k: Kind): (s: string)
    ensures s != ""
  {
    match k
    case Access => "access"
    case Refresh => "refresh"
    case Reset => "reset"
  }

  /** How long each kind lives, in seconds. */
  function Lifetime(k: Kind): (seconds: nat)
    ensures seconds > 0
  {
    match k
    case Access => 24 * 3600
    case Refresh => 7 * 24 * 3600
    case Reset => 3600
  }

  datatype Claims = Claims(userId: nat, email: string, role: string, subject: string, issuedAt: int, expiresAt: int)

  /** `sign` is HS256 over the claims; `parse` recovers claims from a
      string whose signature checks, `None` otherwise. */
  datatype Codec = Codec(sign: Claims -> string, parse: string -> Option<Claims>)

  /** A signed token is a non-empty string, and parsing it gives the
      claims back. */
  ghost predicate Sound(codec: Codec) {
    forall c :: codec.sign(c) != "" && codec.parse(codec.sign(c)) == Some(c)
  }

  /** The claims a generator signs at time `now`. */
  function Generate(k: Kind, userId: nat, email: string, role: string, now: int): (c: Claims)
    ensures c.subject == Subject(k) && c.expiresAt == now + Lifetime(k) && c.issuedAt == now
    ensures c.userId == userId && c.email == email
    ensures k == Reset ==> c.role == "reset"
    ensures k != Reset ==> c.role == role
  {
    Claims(userId, email, if k == Reset then "reset" else role, Subject(k), now, now + Lifetime(k))
  }

  /** `ValidateJWT`: the token parses and has not expired (the library
      accepts while `now` is strictly before `exp`). */
  function ValidateAny(codec: Codec, token: string, now: int): (r: Option<Claims>)
    ensures r.Some? ==> codec.parse(token) == r && now < r.value.expiresAt
    ensures codec.parse(token).Some? && now < codec.parse(token).value.expiresAt ==> r.Some?
  {
    match codec.parse(token)
    case None => None
    case Some(c) => if now < c.expiresAt then Some(c) else None
  }

  /** `ValidateAccessToken` and its siblings: a valid token of the wrong
      subject is refused. */
  function Validate(codec: Codec, k: Kind, token: string, now: int): (r: Option<Claims>)
    ensures r.Some? ==> r == ValidateAny(codec, token, now) && r.value.subject == Subject(k)
    ensures ValidateAny(codec, token, now).Some? && ValidateAny(codec, token, now).value.subject == Subject(k) ==> r.Some?
  {
    match ValidateAny(codec, token, now)
    case None => None
    case Some(c) => if c.subject == Subject(k) then Some(c) else None
  }

  /** A token of one kind, validated as that kind, gives its claims back
      exactly until it expires. */
  lemma IssuedTokenValidates(codec: Codec, k: Kind, userId: nat, email: string, role: string, issued: int, now: int)
    requires Sound(codec)
    ensures var c := Generate(k, userId, email, role, issued);
            Validate(codec, k, codec.sign(c), now) == (if now < issued + Lifetime(k) then Some(c) else None)
  {
    var c := Generate(k, userId, email, role, issued);
    assert codec.parse(codec.sign(c)) == Some(c);
  }

  /** No validator accepts a token of another kind, at any time. */
  lemma KindsDoNotMix(codec: Codec, issuedAs: Kind, checkedAs: Kind, userId: nat, email: string, role: string, issued: int, now: int)
    requires Sound(codec) && issuedAs != checkedAs
    ensures Validate(codec, checkedAs, codec.sign(Generate(issuedAs, userId, email, role, issued)), now).None?
  {
    var c := Generate(issuedAs, userId, email, role, issued);
    assert codec.parse(codec.sign(c)) == Some(c);
    assert Subject(issuedAs) != Subject(checkedAs);
  }
}

=== FILE: manager_controller.dfy ===
/** `GetReports` of backend/controllers/manager_controller.go: the live
    users grouped by the name of their role. */
module ManagerController {
  import opened Store

  /** The users whose key is `k`, in fetch order. */
  function Filter(us: seq<User>, key: User -> string, k: string): (r: seq<User>)
    ensures |r| <= |us|
    ensures forall u :: u in r <==> u in us && key(u) == k
    decreases |us|
  {
    if |us| == 0 then []
    else Filter(us[..|us| - 1], key, k) + (if key(us[|us| - 1]) == k then [us[|us| - 1]] else [])
  }

  /** The distinct keys of `us`, in order of first occurrence. */
  function Names(us: seq<User>, key: User -> string): (ns: seq<string>)
    ensures forall k :: k in ns <==> exists i :: 0 <= i < |us| && key(us[i]) == k
    ensures forall i, j :: 0 <= i < j < |ns| ==> ns[i] != ns[j]
    decreases |us|
  {
    if |us| == 0 then []
    else
      var ns := Names(us[..|us| - 1], key);
      var k := key(us[|us| - 1]);
      assert forall i :: 0 <= i < |us| - 1 ==> us[..|us| - 1][i] == us[i];
      if k in ns then ns else ns + [k]
  }

  /** The sizes of the groups named in `ns`, added up. */
  function Total(g: map<string, seq<User>>, ns: seq<string>): nat
    requires forall i :: 0 <= i < |ns| ==> ns[i] in g
  {
    if |ns| == 0 then 0 else |g[ns[0]]| + Total(g, ns[1..])
  }

  /** The reply data: the groups and `len(users)`. */
  datatype Report = Report(usersByRole: map<string, seq<User>>, totalUsers: nat)

  /** The grouping loop's invariant after the first `n` users: a group per
      key seen so far, each holding that key's users in fetch order. */
  ghost predicate Grouped(us: seq<User>, key: User -> string, n: nat, g: map<string, seq<User>>)
    requires n <= |us|
  {
    && (forall k :: k in g <==> exists i :: 0 <= i < n && key(us[i]) == k)
    && (forall k :: k in g ==> g[k] == Filter(us[..n], key, k))
  }

  /** Appending user `n` to the group of its key keeps the invariant. */
  lemma GroupStep(us: seq<User>, key: User -> string, n: nat, g: map<string, seq<User>>)
    requires n < |us| && Grouped(us, key, n, g)
    ensures var k := key(us[n]);
            Grouped(us, key, n + 1, g[k := (if k in g then g[k] else []) + [us[n]]])
  {
    var k := key(us[n]);
    if k !in g {
      FilterNone(us[..n], key, k);
    }
    var g' := g[k := (if k in g then g[k] else []) + [us[n]]];
    forall k' | k' in g' ensures g'[k'] == Filter(us[..n + 1], key, k') {
      FilterStep(us, n, key, k');
    }
    forall k' ensures k' in g' <==> exists i :: 0 <= i < n + 1 && key(us[i]) == k' {
      if k' in g' && k' != k {
        var i :| 0 <= i < n && key(us[i]) == k';
        assert 0 <= i < n + 1;
      }
    }
  }

  /** The grouping loop: each user is appended to the group of its key. */
  method GroupBy(us: seq<User>, key: User -> string) returns (g: map<string, seq<User>>)
    ensures forall k :: k in g <==> exists i :: 0 <= i < |us| && key(us[i]) == k
    ensures forall k :: k in g ==> g[k] == Filter(us, key, k)
  {
    g := map[];
    for n := 0 to |us|
      invariant Grouped(us, key, n, g)
    {
      GroupStep(us, key, n, g);
      var k := key(us[n]);
      var prior := if k in g then g[k] else [];
      g := g[k := prior + [us[n]]];
    }
    assert us[..|us|] == us;
  }

  lemma FilterStep(us: seq<User>, n: nat, key: User -> string, k: string)
    requires n < |us|
    ensures Filter(us[..n + 1], key, k) == Filter(us[..n], key, k) + (if key(us[n]) == k then [us[n]] else [])
  {
    assert us[..n + 1][..n] == us[..n];
  }

  /** No user with key `k`, no group for it. */
  lemma {:induction false} FilterNone(us: seq<User>, key: User -> string, k: string)
    requires forall i :: 0 <= i < |us| ==> key(us[i]) != k
    ensures Filter(us, key, k) == []
    decreases |us|
  {
    if |us| > 0 {
      FilterNone(us[..|us| - 1], key, k);
    }
  }

  /** `GetReports`: the live users grouped by role name (the empty name for
      a missing role row) and their count. */
  method GetReports(db: Db) returns (r: Report)
    ensures r.totalUsers == |LiveUsers(db)|
    ensures forall k :: k in r.usersByRole <==> k in Names(LiveUsers(db), RoleOf(db))
    ensures forall k :: k in r.usersByRole ==> r.usersByRole[k] == Filter(LiveUsers(db), RoleOf(db), k)
    ensures forall k :: k in r.usersByRole ==> r.usersByRole[k] != []
    ensures Total(r.usersByRole, Names(LiveUsers(db), RoleOf(db))) == r.totalUsers
  {
    var us := LiveUsers(db);
    var key := RoleOf(db);
    var g := GroupBy(us, key);
    GroupsShape(us, key, g);
    r := Report(g, |us|);
  }

  /** What the grouping loop's result adds up to. */
  lemma GroupsShape(us: seq<User>, key: User -> string, g: map<string, seq<User>>)
    requires forall k :: k in g <==> exists i :: 0 <= i < |us| && key(us[i]) == k
    requires forall k :: k in g ==> g[k] == Filter(us, key, k)
    ensures forall k :: k in g <==> k in Names(us, key)
    ensures forall k :: k in g ==> g[k] != []
    ensures Total(g, Names(us, key)) == |us|
  {
    forall k | k in g ensures g[k] != [] {
      var i :| 0 <= i < |us| && key(us[i]) == k;
      assert us[i] in Filter(us, key, k);
    }
    GroupsCover(us, key);
    var ns := Names(us, key);
    forall i | 0 <= i < |ns| ensures ns[i] in g && g[ns[i]] == Filter(us, key, ns[i]) {
      assert ns[i] in ns;
    }
    TotalOfFilters(g, us, key, ns);
  }

  /** `user.Role.Name` for the grouping. */
  function RoleOf(db: Db): User -> string {
    (u: User) => RoleName(db, u.roleId)
  }

  /** A user is in the group of its role name and in no other. */
  lemma ReportPlacesUser(db: Db, k: string, u: User)
    ensures u in Filter(LiveUsers(db), RoleOf(db), k) <==> u in db.users && !u.deleted && RoleName(db, u.roleId) == k
  {
  }

  /** Counting the groups named in `ns` one by one is counting their
      filters. */
  lemma {:induction false} TotalOfFilters(g: map<string, seq<User>>, us: seq<User>, key: User -> string, ns: seq<string>)
    requires forall i :: 0 <= i < |ns| ==> ns[i] in g && g[ns[i]] == Filter(us, key, ns[i])
    ensures Total(g, ns) == Sizes(us, key, ns)
    decreases |ns|
  {
    if |ns| > 0 { TotalOfFilters(g, us, key, ns[1..]); }
  }

  /** The sizes of the filters for the keys in `ns`, added up. */
  function Sizes(us: seq<User>, key: User -> string, ns: seq<string>): nat {
    if |ns| == 0 then 0 else |Filter(us, key, ns[0])| + Sizes(us, key, ns[1..])
  }

  /** Every user lands in exactly one group, so the group sizes add up to
      the number of users. */
  lemma {:induction false} GroupsCover(us: seq<User>, key: User -> string)
    ensures Sizes(us, key, Names(us, key)) == |us|
    decreases |us|
  {
    if |us| > 0 {
      var front := us[..|us| - 1];
      var x := us[|us| - 1];
      GroupsCover(front, key);
      var ns := Names(front, key);
      SizesGrow(front, x, key, ns);
      assert front + [x] == us;
      if key(x) !in ns {
        assert Names(us, key) == ns + [key(x)];
        SizesAppend(us, key, ns, key(x));
        FilterNone(front, key, key(x));
        assert Filter(us, key, key(x)) == [x];
      } else {
        assert Names(us, key) == ns;
      }
    }
  }

  /** Adding one user to the end grows by one exactly the sum that
      includes its key, for distinct keys. */
  lemma {:induction false} SizesGrow(front: seq<User>, x: User, key: User -> string, ns: seq<string>)
    requires forall i, j :: 0 <= i < j < |ns| ==> ns[i] != ns[j]
    ensures Sizes(front + [x], key, ns) == Sizes(front, key, ns) + (if key(x) in ns then 1 else 0)
    decreases |ns|
  {
    if |ns| > 0 {
      assert (front + [x])[..|front + [x]| - 1] == front;
      SizesGrow(front, x, key, ns[1..]);
      assert key(x) in ns <==> key(x) == ns[0] || key(x) in ns[1..];
      assert key(x) == ns[0] ==> key(x) !in ns[1..];
    }
  }

  /** Summing over one more key adds its filter. */
  lemma {:induction false} SizesAppend(us: seq<User>, key: User -> string, ns: seq<string>, k: string)
    ensures Sizes(us, key, ns + [k]) == Sizes(us, key, ns) + |Filter(us, key, k)|
    decreases |ns|
  {
    if |ns| > 0 {
      assert (ns + [k])[1..] == ns[1..] + [k];
      SizesAppend(us, key, ns[1..], k);
    }
  }
}

=== FILE: middleware.dfy ===
/** The edge middleware of frontend/middleware.ts: which paths are
    protected, what a request without an access cookie is answered with,
    and which paths the middleware runs on at all. */
module Middleware {
  import opened Wrappers
  import opened Text

  /** One entry of `protectedRoutes`: a path prefix and its role list. */
  datatype Route = Route(prefix: string, roles: seq<string>)

  const ProtectedRoutes: seq<Route> := [
    Route("/dashboard", ["user", "manager", "admin"]),
    Route("/admin", ["admin"]),
    Route("/manager", ["manager", "admin"]),
    Route("/profile", ["user", "manager", "admin"])
  ]

  const AuthPages: seq<string> := ["/login", "/register"]

  datatype Response = Next | Redirect(target: string, callbackUrl: Option<string>)

  /** The position of the first route whose key starts the path, in table
      order; `|table|` when none does. */
  function FindRoute(table: seq<Route>, pathname: string): (k: nat)
    ensures k <= |table|
    ensures forall i :: 0 <= i < k ==> !StartsWith(pathname, table[i].prefix)
    ensures k < |table| ==> StartsWith(pathname, table[k].prefix)
    decreases |table|
  {
    if |table| == 0 then 0
    else if StartsWith(pathname, table[0].prefix) then 0
    else 1 + FindRoute(table[1..], pathname)
  }

  /** Protection as stated by the table: some key is a prefix. */
  predicate Protected(table: seq<Route>, pathname: string) {
    exists i :: 0 <= i < |table| && StartsWith(pathname, table[i].prefix)
  }

  lemma FindRouteFindsProtected(table: seq<Route>, pathname: string)
    ensures FindRoute(table, pathname) < |table| <==> Protected(table, pathname)
  {
  }

  /** The token read: `request.cookies.get('accessToken')?.value`, truthy. */
  predicate HasToken(token: Option<string>) {
    token.Some? && token.value != ""
  }

  function Handle(table: seq<Route>, pathname: string, token: Option<string>): (r: Response)
    ensures Protected(table, pathname) && !HasToken(token) ==> r == Redirect("/login", Some(pathname))
    ensures pathname in AuthPages && HasToken(token) ==> r == Redirect("/dashboard", None)
    ensures r.Redirect? && r.target == "/dashboard" ==> pathname in AuthPages && HasToken(token)
    ensures r.Redirect? && r.target == "/login" ==> Protected(table, pathname) && !HasToken(token)
    ensures !(Protected(table, pathname) && !HasToken(token)) && !(pathname in AuthPages && HasToken(token)) ==> r == Next
  {
    FindRouteFindsProtected(table, pathname);
    if FindRoute(table, pathname) < |table| && !HasToken(token) then Redirect("/login", Some(pathname))
    else if pathname in AuthPages && HasToken(token) then Redirect("/dashboard", None)
    else Next
  }

  /** Two tables with the same keys in the same order. */
  predicate SameKeys(a: seq<Route>, b: seq<Route>) {
    |a| == |b| && forall i :: 0 <= i < |a| ==> a[i].prefix == b[i].prefix
  }

  /** The role lists are never read: only the keys decide. */
  lemma RolesAreIgnored(a: seq<Route>, b: seq<Route>, pathname: string, token: Option<string>)
    requires SameKeys(a, b)
    ensures Handle(a, pathname, token) == Handle(b, pathname, token)
  {
    FindRouteFindsProtected(a, pathname);
    FindRouteFindsProtected(b, pathname);
    if Protected(a, pathname) {
      var i :| 0 <= i < |a| && StartsWith(pathname, a[i].prefix);
      assert StartsWith(pathname, b[i].prefix);
    }
    if Protected(b, pathname) {
      var i :| 0 <= i < |b| && StartsWith(pathname, b[i].prefix);
      assert StartsWith(pathname, a[i].prefix);
    }
  }

  /** The bases of the `:path*` patterns in `config.matcher`. */
  const MatcherBases: seq<string> := ["/dashboard", "/admin", "/manager", "/profile"]

  /** `/<base>/:path*` matches the base itself and anything below it;
      `/login` and `/register` match exactly. */
  predicate Matched(pathname: string) {
    || (exists i :: 0 <= i < |MatcherBases| && (pathname == MatcherBases[i] || StartsWith(pathname, MatcherBases[i] + "/")))
    || pathname in AuthPages
  }

  /** What a request for `pathname` meets: the middleware only where the
      matcher sends it there. */
  function Effective(pathname: string, token: Option<string>): (r: Response)
    ensures !Matched(pathname) ==> r == Next
    ensures Matched(pathname) ==> r == Handle(ProtectedRoutes, pathname, token)
  {
    if Matched(pathname) then Handle(ProtectedRoutes, pathname, token) else Next
  }

  /** A path that differs from `base + "/"` at position `j` is not under it. */
  lemma NotUnder(p: string, base: string, j: nat)
    requires j <= |base| && j < |p|
    requires (j < |base| && p[j] != base[j]) || (j == |base| && p[j] != '/')
    ensures p != base && !StartsWith(p, base + "/")
  {
    if |base| + 1 <= |p| {
      assert p[..|base| + 1][j] != (base + "/")[j];
    }
  }

  /** The table protects by bare prefix, so `/administrator` counts as
      protected; the matcher never runs the middleware there, so the
      request goes through without a token. */
  lemma PrefixBeyondMatcher()
    ensures Handle(ProtectedRoutes, "/administrator", None) == Redirect("/login", Some("/administrator"))
    ensures Effective("/administrator", None) == Next
  {
    var p := "/administrator";
    assert StartsWith(p, ProtectedRoutes[1].prefix);
    NotUnder(p, MatcherBases[0], 1);
    NotUnder(p, MatcherBases[1], 6);
    NotUnder(p, MatcherBases[2], 1);
    NotUnder(p, MatcherBases[3], 1);
    assert p !in AuthPages by {
      assert p != AuthPages[0] by { assert p[1] != AuthPages[0][1]; }
      assert p != AuthPages[1] by { assert p[1] != AuthPages[1][1]; }
    }
  }

  /** A prefix of a prefix is a prefix. */
  lemma StartsWithShorter(p: string, base: string, suffix: string)
    requires StartsWith(p, base + suffix)
    ensures StartsWith(p, base)
  {
    assert p[..|base|] == p[..|base + suffix|][..|base|];
    assert (base + suffix)[..|base|] == base;
  }

  /** Every path the matcher sends under one of its bases is protected by
      the table: the matcher only narrows the prefix test. */
  lemma MatchedUnderBaseIsProtected(pathname: string)
    requires exists i :: 0 <= i < |MatcherBases| && (pathname == MatcherBases[i] || StartsWith(pathname, MatcherBases[i] + "/"))
    ensures Protected(ProtectedRoutes, pathname)
  {
    var i :| 0 <= i < |MatcherBases| && (pathname == MatcherBases[i] || StartsWith(pathname, MatcherBases[i] + "/"));
    assert ProtectedRoutes[i].prefix == MatcherBases[i];
    if pathname != MatcherBases[i] {
      StartsWithShorter(pathname, MatcherBases[i], "/");
    }
    assert StartsWith(pathname, ProtectedRoutes[i].prefix);
  }
}

=== FILE: protected_route.dfy ===
/** The `ProtectedRoute` of frontend/components/auth/protected-route.tsx:
    what it renders, and the login redirect its effect schedules, as a
    function of the auth state and the props. */
module ProtectedRoute {
  import opened Wrappers
  import opened ClientTypes
  import Uri
  import RoleGuard

  datatype View = Spinner | Fallback | Nothing | AccessDenied | Children

  /** The rendered view and the navigation scheduled after 100 ms. */
  datatype Decision = Decision(view: View, redirect: Option<string>)

  /** `requiredRoles` when the prop is omitted. */
  const DefaultRoles: seq<string> := ["user"]

  function Roles(requiredRoles: Option<seq<string>>): seq<string> {
    requiredRoles.GetOr(DefaultRoles)
  }

  /** `/login?callbackUrl=` followed by the encoded path and search. */
  function LoginUrl(pathname: string, search: string): (url: string)
    ensures |url| >= 19 && url[..19] == "/login?callbackUrl="
  {
    "/login?callbackUrl=" + Uri.EncodeComponent(pathname + search)
  }

  function Decide(loading: bool, isAuthenticated: bool, user: Option<User>, requiredRoles: Option<seq<string>>,
                  hasFallback: bool, pathname: string, search: string): (d: Decision)
    ensures loading ==> d.view == Spinner
    ensures d.redirect.Some? <==> !loading && !isAuthenticated
    ensures d.redirect.Some? ==> d.redirect.value == LoginUrl(pathname, search)
    ensures !loading && (!isAuthenticated || user.None?) ==> d.view == (if hasFallback then Fallback else Nothing)
    ensures d.view == Children <==>
              !loading && isAuthenticated && user.Some?
              && (|Roles(requiredRoles)| == 0 || user.value.role in Roles(requiredRoles))
    ensures d.view == AccessDenied <==>
              !loading && isAuthenticated && user.Some?
              && |Roles(requiredRoles)| > 0 && user.value.role !in Roles(requiredRoles)
  {
    var redirect := if !loading && !isAuthenticated then Some(LoginUrl(pathname, search)) else None;
    var roles := Roles(requiredRoles);
    var view :=
      if loading then Spinner
      else if !isAuthenticated || user.None? then (if hasFallback then Fallback else Nothing)
      else if |roles| > 0 && user.value.role !in roles then AccessDenied
      else Children;
    Decision(view, redirect)
  }

  /** With the prop omitted only the `user` role gets through: managers and
      admins are denied. */
  lemma DefaultDeniesOtherRoles(user: User, hasFallback: bool, pathname: string, search: string)
    requires user.role != "user"
    ensures Decide(false, true, Some(user), None, hasFallback, pathname, search).view == AccessDenied
  {
  }

  /** Where the route and the guard agree: for a settled, authenticated
      user and a non-empty role list, the route shows children exactly when
      the guard would. */
  lemma RouteAgreesWithGuard(user: User, roles: seq<string>, hasFallback: bool, pathname: string, search: string)
    requires |roles| > 0
    ensures (Decide(false, true, Some(user), Some(roles), hasFallback, pathname, search).view == Children)
            <==> (RoleGuard.Guard(Some(user), roles, hasFallback) == RoleGuard.Children)
  {
  }

  /** Where they differ: an empty role list opens the route to every
      signed-in user but the guard to nobody. */
  lemma EmptyRolesDiffer(user: User, hasFallback: bool, pathname: string, search: string)
    ensures Decide(false, true, Some(user), Some([]), hasFallback, pathname, search).view == Children
    ensures RoleGuard.Guard(Some(user), [], hasFallback) != RoleGuard.Children
  {
  }

  /** The callback decodes back to the path and search it was built from
      (for ASCII locations). */
  lemma CallbackRoundTrip(pathname: string, search: string)
    requires Uri.IsAscii(pathname + search)
    ensures Uri.DecodeAscii(LoginUrl(pathname, search)[19..]) == pathname + search
  {
    var url := LoginUrl(pathname, search);
    assert url[19..] == Uri.EncodeComponent(pathname + search);
    Uri.DecodeEncodeAscii(pathname + search);
  }

  /** The callback travels as one query value: after the fixed prefix the
      URL holds no `&`, `#`, `=` or `?`, whatever the path and search were. */
  lemma CallbackIsOneValue(pathname: string, search: string)
    ensures var url := LoginUrl(pathname, search);
            forall i :: 19 <= i < |url| ==> url[i] !in "&#=?"
  {
    var url := LoginUrl(pathname, search);
    var enc := Uri.EncodeComponent(pathname + search);
    forall i | 19 <= i < |url|
      ensures url[i] !in "&#=?"
    {
      assert url[i] == enc[i - 19];
    }
  }
}

=== FILE: role_check.dfy ===
/** The role predicates of frontend/hooks/use-role-check.ts over the
    signed-in user (`None` when there is none). */
module RoleCheck {
  import opened Wrappers
  import opened ClientTypes

  /** The memoised flags the hook returns. */
  datatype Flags = Flags(isUser: bool, isManager: bool, isAdmin: bool, isManagerOrAdmin: bool)

  /** `user?.role === r`. */
  predicate RoleIs(user: Option<User>, r: string) {
    user.Some? && user.value.role == r
  }

  function Check(user: Option<User>): (f: Flags)
    ensures user.None? ==> !f.isUser && !f.isManager && !f.isAdmin && !f.isManagerOrAdmin
    ensures f.isUser == RoleIs(user, "user") && f.isManager == RoleIs(user, "manager") && f.isAdmin == RoleIs(user, "admin")
    ensures f.isManagerOrAdmin <==> f.isManager || f.isAdmin
    ensures (f.isUser ==> !f.isManager && !f.isAdmin) && (f.isManager ==> !f.isAdmin)
  {
    Flags(RoleIs(user, "user"), RoleIs(user, "manager"), RoleIs(user, "admin"),
          RoleIs(user, "manager") || RoleIs(user, "admin"))
  }

  /** `hasRole(roles)`: `roles.includes(user.role)`. */
  predicate HasRole(user: Option<User>, roles: seq<string>)
    ensures HasRole(user, roles) <==> user.Some? && exists i :: 0 <= i < |roles| && roles[i] == user.value.role
    ensures user.None? || roles == [] ==> !HasRole(user, roles)
  {
    user.Some? && user.value.role in roles
  }

  /** `hasAnyRole(roles)`: `roles.some(role => user.role === role)`, the
      scan written out. */
  predicate HasAnyRole(user: Option<User>, roles: seq<string>)
    ensures HasAnyRole(user, roles) <==> user.Some? && exists i :: 0 <= i < |roles| && roles[i] == user.value.role
    decreases |roles|
  {
    user.Some? && |roles| > 0 && (user.value.role == roles[0] || HasAnyRole(user, roles[1..]))
  }

  /** The two list checks agree on every user and every list. */
  lemma {:induction false} HasRoleIsHasAnyRole(user: Option<User>, roles: seq<string>)
    ensures HasRole(user, roles) <==> HasAnyRole(user, roles)
    decreases |roles|
  {
    if user.Some? && |roles| > 0 {
      HasRoleIsHasAnyRole(user, roles[1..]);
      assert roles == [roles[0]] + roles[1..];
    }
  }

  /** `isManagerOrAdmin` is `hasRole(['manager', 'admin'])`. */
  lemma ManagerOrAdminIsHasRole(user: Option<User>)
    ensures Check(user).isManagerOrAdmin <==> HasRole(user, ["manager", "admin"])
  {
  }
}

=== FILE: role_guard.dfy ===
/** The `RoleGuard` of frontend/components/auth/role-guard.tsx: children
    for an allowed user, the fallback (or nothing) otherwise. It reads
    neither `loading` nor `isAuthenticated` and never redirects. */
module RoleGuard {
  import opened Wrappers
  import opened ClientTypes
  import RoleCheck

  datatype Render = Children | Fallback | Nothing

  /** `fallback || null`. */
  function OrFallback(hasFallback: bool): (r: Render)
    ensures r != Children
  {
    if hasFallback then Fallback else Nothing
  }

  function Guard(user: Option<User>, allowedRoles: seq<string>, hasFallback: bool): (r: Render)
    ensures r == Children <==> user.Some? && user.value.role in allowedRoles
    ensures r != Children ==> r == OrFallback(hasFallback)
    ensures user.None? ==> r == OrFallback(hasFallback)
    ensures |allowedRoles| == 0 ==> r != Children
  {
    if user.None? || !(user.value.role in allowedRoles) then OrFallback(hasFallback) else Children
  }

  /** The guard is `hasRole` from the role-check hook. */
  lemma GuardIsHasRole(user: Option<User>, allowedRoles: seq<string>, hasFallback: bool)
    ensures Guard(user, allowedRoles, hasFallback) == Children <==> RoleCheck.HasRole(user, allowedRoles)
  {
  }
}

=== FILE: server.dfy ===
/** What every backend handler shares: the outside world it depends on and
    the shape of its JSON reply. */
module Server {
  import opened Json
  import opened Wrappers
  import Text
  import Jwt
  import Store

  /** The handlers' environment: bcrypt's hash and compare (the salt is
      folded into `hash`), the JWT codec, the validator's e-mail syntax
      check, the clock in seconds, and the timestamp the store writes. */
  datatype Env = Env(hash: string -> string, compare: (string, string) -> bool, codec: Jwt.Codec,
                     isEmail: string -> bool, now: int, stamp: string)

  /** bcrypt refuses passwords longer than this many bytes. */
  const MaxPasswordBytes: nat := 72

  /** `bcrypt.GenerateFromPassword`: fails on a password over 72 bytes. */
  function Hash(env: Env, password: string): (h: Option<string>)
    ensures h.Some? <==> Text.ByteLen(password) <= MaxPasswordBytes
    ensures h.Some? ==> h.value == env.hash(password)
  {
    if Text.ByteLen(password) <= MaxPasswordBytes then Some(env.hash(password)) else None
  }

  /** No NUL character. bcrypt appends a zero byte to the password and
      cycles the result to fill 72 bytes, so a NUL inside a password can
      make it collide with a shorter one (`a\0a` with `a`). */
  predicate NulFree(s: string) {
    forall i :: 0 <= i < |s| ==> s[i] != '\0'
  }

  /** What `CompareHashAndPassword` guarantees within bcrypt's key: a hash
      accepts the password it was made from, and two different NUL-free
      passwords of at most 72 bytes never share a hash. */
  ghost predicate BcryptSound(env: Env) {
    && (forall p {:trigger env.hash(p)} :: Text.ByteLen(p) <= MaxPasswordBytes ==> env.compare(env.hash(p), p))
    && (forall p, q {:trigger env.compare(env.hash(p), q)} ::
          && Text.ByteLen(p) <= MaxPasswordBytes && Text.ByteLen(q) <= MaxPasswordBytes
          && NulFree(p) && NulFree(q) && p != q
          ==> !env.compare(env.hash(p), q))
  }

  /** `CompareHashAndPassword` has no length check and reads only the first
      72 bytes of what it is given: the hash of a 72-byte password accepts
      every extension of it. */
  ghost predicate BcryptTruncates(env: Env) {
    forall p, q {:trigger env.compare(env.hash(p), q)} ::
      Text.ByteLen(p) == MaxPasswordBytes && |p| <= |q| && q[..|p|] == p ==> env.compare(env.hash(p), q)
  }

  /** The reply a handler writes with `c.JSON(status, body)`. */
  datatype Response = Response(status: nat, body: Json)

  /** `gin.H{"error": message}`. */
  function Error(status: nat, message: string): (r: Response)
    ensures r.status == status && r.body.JObj? && r.body.fields == map["error" := JStr(message)]
  {
    Response(status, Single("error", JStr(message)))
  }

  /** `gin.H{"message": message}`. */
  function Message(status: nat, message: string): (r: Response)
    ensures r.status == status && r.body.JObj? && r.body.fields == map["message" := JStr(message)]
  {
    Response(status, Single("message", JStr(message)))
  }

  /** The value under `key` in an object reply. */
  function Member(r: Response, key: string): Option<Json> {
    Field(r.body, key)
  }

  /** The string under `key` in an object reply, `""` when there is none. */
  function StringAt(r: Response, key: string): (s: string)
    ensures Member(r, key).Some? && Member(r, key).value.JStr? ==> s == Member(r, key).value.s
  {
    match Member(r, key)
    case Some(JStr(s)) => s
    case _ => ""
  }

  /** The non-empty string under `key`, if that is what the map holds there. */
  function PlainPassword(m: map<string, Json>, key: string): (p: Option<string>)
    ensures p.Some? <==> key in m && m[key].JStr? && m[key].s != ""
    ensures p.Some? ==> m[key] == JStr(p.value)
  {
    if key in m && m[key].JStr? && m[key].s != "" then Some(m[key].s) else None
  }

  /** An update map after the handlers' password step, or the hash failure
      that stops the handler. */
  datatype Sanitized = Clean(m: map<string, Json>) | HashFailed

  /** The handlers' password step on `key`: a non-empty string is replaced
      by its hash; any other value is dropped when `drop`, kept otherwise. */
  function HashKey(env: Env, m: map<string, Json>, key: string, drop: bool): (r: Sanitized)
    ensures r.HashFailed? <==> PlainPassword(m, key).Some? && Text.ByteLen(PlainPassword(m, key).value) > MaxPasswordBytes
    ensures r.Clean? && PlainPassword(m, key).Some? ==> key in r.m && r.m[key] == JStr(env.hash(PlainPassword(m, key).value))
    ensures r.Clean? && PlainPassword(m, key).None? ==> r.m == (if drop then m - {key} else m)
    ensures r.Clean? ==> forall k :: k != key ==> (k in r.m <==> k in m) && (k in m ==> r.m[k] == m[k])
  {
    match PlainPassword(m, key)
    case Some(p) =>
      (match Hash(env, p)
       case None => HashFailed
       case Some(h) => Clean(m[key := JStr(h)]))
    case None => Clean(if drop then m - {key} else m)
  }

  /** A handler's reply together with the store it leaves behind. */
  datatype Handled = Handled(response: Response, db: Store.Db)
}

=== FILE: store.dfy ===
/** The rows of backend/models/models.go and the GORM operations the
    controllers use, over an in-memory store. Users are kept in ascending
    id order. `First` orders by primary key, so it returns the lowest id;
    `Find` has no ORDER BY and the database may return rows in any order,
    which the model fixes as id order. Deletes are soft: the row stays,
    marked deleted, and queries skip it. The unique index on e-mail (which
    still covers deleted rows) and the `users.role_id` reference to
    `roles.id` come from the model's `gorm` tags; the schema is assumed to
    carry them, since backend/config/database.go does not migrate it. */
module Store {
  import opened Wrappers
  import opened Json

  datatype Role = Role(id: nat, name: string)

  /** A user row; `password` holds whatever string was stored. */
  datatype User = User(id: nat, name: string, email: string, password: string, roleId: nat,
                       createdAt: string, updatedAt: string, deleted: bool)

  datatype Db = Db(users: seq<User>, roles: seq<Role>, nextUserId: nat, nextRoleId: nat)

  /** The store's invariant: ids ascending, positive and below the next id;
      e-mails unique over all rows, deleted or not; role names unique. */
  predicate Valid(db: Db) {
    && db.nextUserId >= 1 && db.nextRoleId >= 1
    && (forall i, j :: 0 <= i < j < |db.users| ==> db.users[i].id < db.users[j].id)
    && (forall i :: 0 <= i < |db.users| ==> 1 <= db.users[i].id < db.nextUserId)
    && (forall i, j :: 0 <= i < j < |db.users| ==> db.users[i].email != db.users[j].email)
    && (forall i, j :: 0 <= i < j < |db.roles| ==> db.roles[i].id < db.roles[j].id)
    && (forall i :: 0 <= i < |db.roles| ==> 1 <= db.roles[i].id < db.nextRoleId)
    && (forall i, j :: 0 <= i < j < |db.roles| ==> db.roles[i].name != db.roles[j].name)
  }

  const Empty := Db([], [], 1, 1)

  /** The position of the first user satisfying `p`, `|users|` if none. */
  function FindUser(users: seq<User>, p: User -> bool): (k: nat)
    ensures k <= |users|
    ensures forall i :: 0 <= i < k ==> !p(users[i])
    ensures k < |users| ==> p(users[k])
    decreases |users|
  {
    if |users| == 0 then 0 else if p(users[0]) then 0 else 1 + FindUser(users[1..], p)
  }

  /** The position of the first role satisfying `p`, `|roles|` if none. */
  function FindRole(roles: seq<Role>, p: Role -> bool): (k: nat)
    ensures k <= |roles|
    ensures forall i :: 0 <= i < k ==> !p(roles[i])
    ensures k < |roles| ==> p(roles[k])
    decreases |roles|
  {
    if |roles| == 0 then 0 else if p(roles[0]) then 0 else 1 + FindRole(roles[1..], p)
  }

  /** `First(&user, id)`: the live row with that id. */
  function UserById(db: Db, id: int): (u: Option<User>)
    ensures u.Some? <==> exists i :: 0 <= i < |db.users| && db.users[i].id == id && !db.users[i].deleted
    ensures u.Some? ==> u.value in db.users && u.value.id == id && !u.value.deleted
  {
    var k := FindUser(db.users, (u: User) => u.id == id && !u.deleted);
    if k < |db.users| then Some(db.users[k]) else None
  }

  /** `Where("email = ?", email).First(&user)`: the live row with that
      e-mail. */
  function UserByEmail(db: Db, email: string): (u: Option<User>)
    ensures u.Some? <==> exists i :: 0 <= i < |db.users| && db.users[i].email == email && !db.users[i].deleted
    ensures u.Some? ==> u.value in db.users && u.value.email == email && !u.value.deleted
  {
    var k := FindUser(db.users, (u: User) => u.email == email && !u.deleted);
    if k < |db.users| then Some(db.users[k]) else None
  }

  /** Whether the unique index already holds `email`, deleted rows included. */
  predicate EmailTaken(db: Db, email: string)
    ensures EmailTaken(db, email) <==> exists i :: 0 <= i < |db.users| && db.users[i].email == email
  {
    FindUser(db.users, (u: User) => u.email == email) < |db.users|
  }

  function RoleById(db: Db, id: nat): (r: Option<Role>)
    ensures r.Some? <==> exists i :: 0 <= i < |db.roles| && db.roles[i].id == id
    ensures r.Some? ==> r.value in db.roles && r.value.id == id
  {
    var k := FindRole(db.roles, (r: Role) => r.id == id);
    if k < |db.roles| then Some(db.roles[k]) else None
  }

  /** `Where("name = ?", name).First(&role)`. */
  function RoleByName(db: Db, name: string): (r: Option<Role>)
    ensures r.Some? <==> exists i :: 0 <= i < |db.roles| && db.roles[i].name == name
    ensures r.Some? ==> r.value in db.roles && r.value.name == name
  {
    var k := FindRole(db.roles, (r: Role) => r.name == name);
    if k < |db.roles| then Some(db.roles[k]) else None
  }

  /** `user.Role.Name` after `Preload("Role")`: the empty string when the
      role row is missing. */
  function RoleName(db: Db, roleId: nat): (name: string)
    ensures RoleById(db, roleId).Some? ==> name == RoleById(db, roleId).value.name
    ensures RoleById(db, roleId).None? ==> name == ""
  {
    match RoleById(db, roleId)
    case Some(r) => r.name
    case None => ""
  }

  /** The live rows, in id order: `Find(&users)`. */
  function LiveUsers(db: Db): (us: seq<User>)
    ensures forall u :: u in us <==> u in db.users && !u.deleted
  {
    Live(db.users)
  }

  function Live(users: seq<User>): (us: seq<User>)
    ensures forall u :: u in us <==> u in users && !u.deleted
    ensures |us| <= |users|
    decreases |users|
  {
    if |users| == 0 then []
    else if users[0].deleted then Live(users[1..])
    else [users[0]] + Live(users[1..])
  }

  /** `Create(&user)`: fails on a taken e-mail (the unique index) or a role
      id with no row (the foreign key), otherwise appends the row under the
      next id with both timestamps `stamp`. */
  function CreateUser(db: Db, name: string, email: string, password: string, roleId: nat, stamp: string): (r: Option<(Db, User)>)
    ensures r.None? <==> EmailTaken(db, email) || RoleById(db, roleId).None?
    ensures r.Some? ==> var (db', u) := r.value;
              && db'.users == db.users + [u] && db'.roles == db.roles && db'.nextRoleId == db.nextRoleId
              && u == User(db.nextUserId, name, email, password, roleId, stamp, stamp, false)
    ensures r.Some? && Valid(db) ==> Valid(r.value.0)
  {
    if EmailTaken(db, email) || RoleById(db, roleId).None? then None
    else
      var u := User(db.nextUserId, name, email, password, roleId, stamp, stamp, false);
      Some((db.(users := db.users + [u], nextUserId := db.nextUserId + 1), u))
  }

  /** `Create(&Role{Name: name})` after a lookup by name found nothing. */
  function CreateRole(db: Db, name: string): (db': Db)
    requires RoleByName(db, name).None?
    ensures db'.users == db.users && db'.roles == db.roles + [Role(db.nextRoleId, name)]
    ensures Valid(db) ==> Valid(db')
  {
    db.(roles := db.roles + [Role(db.nextRoleId, name)], nextRoleId := db.nextRoleId + 1)
  }

  /** Overwrite the live row whose id is `u.id`; nothing else changes. */
  function Replace(db: Db, u: User): (db': Db)
    ensures |db'.users| == |db.users| && db'.roles == db.roles
    ensures db'.nextUserId == db.nextUserId && db'.nextRoleId == db.nextRoleId
    ensures forall i :: 0 <= i < |db.users| ==>
              db'.users[i] == (if db.users[i].id == u.id && !db.users[i].deleted then u else db.users[i])
  {
    db.(users := seq(|db.users|, i requires 0 <= i < |db.users| =>
                       if db.users[i].id == u.id && !db.users[i].deleted then u else db.users[i]))
  }

  /** Replacing a live row by one with the same id and a fresh or unchanged
      e-mail keeps the store valid. */
  lemma ReplaceValid(db: Db, prior: User, u: User)
    requires Valid(db) && prior in db.users && !prior.deleted && u.id == prior.id
    requires u.email == prior.email || !EmailTaken(db, u.email)
    ensures Valid(Replace(db, u))
  {
    var db' := Replace(db, u);
    forall i, j | 0 <= i < j < |db'.users| ensures db'.users[i].email != db'.users[j].email {
      if db.users[i].id == u.id && db.users[j].id == u.id {
        assert false;
      }
    }
  }

  /** `Delete(&User{}, id)`: the live row with that id becomes deleted; a
      missing id changes nothing and is not an error. */
  function DeleteUser(db: Db, id: int): (db': Db)
    ensures |db'.users| == |db.users| && db'.roles == db.roles
    ensures db'.nextUserId == db.nextUserId && db'.nextRoleId == db.nextRoleId
    ensures forall i :: 0 <= i < |db.users| ==>
              db'.users[i] == (if db.users[i].id == id then db.users[i].(deleted := true) else db.users[i])
    ensures Valid(db) ==> Valid(db')
  {
    db.(users := seq(|db.users|, i requires 0 <= i < |db.users| =>
                       if db.users[i].id == id then db.users[i].(deleted := true) else db.users[i]))
  }

  /** The columns a map update can name, by column name or Go field name. */
  datatype Column = NameCol | EmailCol | PasswordCol | RoleIdCol

  /** GORM's lookup of a map key: the column name or the Go field name of a
      `User` field. Keys naming no modelled column are `None`. */
  function ColumnOf(key: string): (c: Option<Column>)
    ensures key == "name" || key == "Name" <==> c == Some(NameCol)
    ensures key == "email" || key == "Email" <==> c == Some(EmailCol)
    ensures key == "password" || key == "Password" <==> c == Some(PasswordCol)
    ensures key == "role_id" || key == "RoleID" <==> c == Some(RoleIdCol)
  {
    if key == "name" || key == "Name" then Some(NameCol)
    else if key == "email" || key == "Email" then Some(EmailCol)
    else if key == "password" || key == "Password" then Some(PasswordCol)
    else if key == "role_id" || key == "RoleID" then Some(RoleIdCol)
    else None
  }

  /** What an update does to one column. */
  datatype Write = Keep | SetTo(value: Json)

  /** The write for column `c`: none when no key names it, `None` when two
      keys do (two assignments to one column are an SQL error). */
  function WriteOf(m: map<string, Json>, c: Column): (w: Option<Write>)
    ensures w == Some(Keep) <==> forall k :: k in m ==> ColumnOf(k) != Some(c)
    ensures w.Some? && w.value.SetTo? ==> exists k :: k in m && ColumnOf(k) == Some(c) && m[k] == w.value.value
  {
    var (a, b) := match c
      case NameCol => ("name", "Name")
      case EmailCol => ("email", "Email")
      case PasswordCol => ("password", "Password")
      case RoleIdCol => ("role_id", "RoleID");
    if a in m && b in m then None
    else if a in m then Some(SetTo(m[a]))
    else if b in m then Some(SetTo(m[b]))
    else Some(Keep)
  }

  /** A string column's new value; other JSON kinds are refused. */
  function StringWrite(w: Write, current: string): Option<string> {
    match w
    case Keep => Some(current)
    case SetTo(JStr(s)) => Some(s)
    case SetTo(_) => None
  }

  /** The role column's new value: a non-negative number. */
  function RoleWrite(w: Write, current: nat): Option<nat> {
    match w
    case Keep => Some(current)
    case SetTo(JNum(n)) => if n >= 0 then Some(n) else None
    case SetTo(_) => None
  }

  /** The row a map update would produce, before constraints: `None` when a
      key names no column, a column is named twice or a value has the wrong
      kind. */
  function Updated(u: User, m: map<string, Json>, stamp: string): (r: Option<User>)
    ensures r.Some? ==> forall k :: k in m ==> ColumnOf(k).Some?
    ensures r.Some? ==> r.value.id == u.id && r.value.createdAt == u.createdAt && r.value.updatedAt == stamp && r.value.deleted == u.deleted
    ensures r.Some? && WriteOf(m, NameCol) == Some(Keep) ==> r.value.name == u.name
    ensures r.Some? && WriteOf(m, EmailCol) == Some(Keep) ==> r.value.email == u.email
    ensures r.Some? && WriteOf(m, PasswordCol) == Some(Keep) ==> r.value.password == u.password
    ensures r.Some? && WriteOf(m, RoleIdCol) == Some(Keep) ==> r.value.roleId == u.roleId
    ensures r.Some? && WriteOf(m, PasswordCol).Some? && WriteOf(m, PasswordCol).value.SetTo? ==> WriteOf(m, PasswordCol).value.value == JStr(r.value.password)
  {
    if exists k :: k in m && ColumnOf(k).None? then None
    else
      match (WriteOf(m, NameCol), WriteOf(m, EmailCol), WriteOf(m, PasswordCol), WriteOf(m, RoleIdCol))
      case (Some(wn), Some(we), Some(wp), Some(wr)) =>
        (match (StringWrite(wn, u.name), StringWrite(we, u.email), StringWrite(wp, u.password), RoleWrite(wr, u.roleId))
         case (Some(n), Some(e), Some(p), Some(r)) => Some(u.(name := n, email := e, password := p, roleId := r, updatedAt := stamp))
         case _ => None)
      case _ => None
  }

  /** `Model(&user).Updates(m)` on a live row: the columns the keys name
      are set and `updated_at` is stamped; a taken e-mail or a role without
      a row fails the statement. */
  function Updates(db: Db, u: User, m: map<string, Json>, stamp: string): (r: Option<Db>)
    ensures r.Some? ==> Updated(u, m, stamp).Some? && r.value == Replace(db, Updated(u, m, stamp).value)
    ensures r.Some? ==> Updated(u, m, stamp).value.email == u.email || !EmailTaken(db, Updated(u, m, stamp).value.email)
    ensures Updated(u, m, stamp).Some? && Updated(u, m, stamp).value.email == u.email && Updated(u, m, stamp).value.roleId == u.roleId ==> r.Some?
  {
    match Updated(u, m, stamp)
    case None => None
    case Some(u') =>
      if u'.email != u.email && EmailTaken(db, u'.email) then None
      else if u'.roleId != u.roleId && RoleById(db, u'.roleId).None? then None
      else Some(Replace(db, u'))
  }

  /** An update of a live row keeps the store valid. */
  lemma UpdatesValid(db: Db, u: User, m: map<string, Json>, stamp: string)
    requires Valid(db) && u in db.users && !u.deleted
    ensures Updates(db, u, m, stamp).Some? ==> Valid(Updates(db, u, m, stamp).value)
  {
    if Updates(db, u, m, stamp).Some? {
      ReplaceValid(db, u, Updated(u, m, stamp).value);
    }
  }

  /** `UpdatesValid` for callers that do not know the store is valid. */
  lemma UpdatesKeepValid(db: Db, u: User, m: map<string, Json>, stamp: string)
    requires u in db.users && !u.deleted && Updates(db, u, m, stamp).Some?
    ensures Valid(db) ==> Valid(Updates(db, u, m, stamp).value)
  {
    if Valid(db) { UpdatesValid(db, u, m, stamp); }
  }

  /** Setting one column (`Model(&user).Update(column, value)`) is a map
      update with one key. */
  function UpdatePassword(db: Db, u: User, hash: string, stamp: string): (r: Option<Db>)
    ensures r.Some?
    ensures r.value == Replace(db, u.(password := hash, updatedAt := stamp))
  {
    var m := map["password" := JStr(hash)];
    assert WriteOf(m, NameCol) == Some(Keep) && WriteOf(m, EmailCol) == Some(Keep) && WriteOf(m, RoleIdCol) == Some(Keep);
    Updates(db, u, m, stamp)
  }

  /** A live row is the one found by its id. */
  lemma FoundById(db: Db, u: User)
    requires Valid(db) && u in db.users && !u.deleted
    ensures UserById(db, u.id) == Some(u)
  {
    var i :| 0 <= i < |db.users| && db.users[i] == u;
    var k := FindUser(db.users, (v: User) => v.id == u.id && !v.deleted);
    assert k <= i;
  }

  /** A live row is the one found by its e-mail. */
  lemma FoundByEmail(db: Db, u: User)
    requires Valid(db) && u in db.users && !u.deleted
    ensures UserByEmail(db, u.email) == Some(u)
  {
    var i :| 0 <= i < |db.users| && db.users[i] == u;
    var k := FindUser(db.users, (v: User) => v.email == u.email && !v.deleted);
    assert k <= i;
  }

  /** After a live row is replaced by one with the same id, the new row is
      in the store, live, and nothing about the store's validity is lost. */
  lemma ReplacedIsPresent(db: Db, prior: User, u: User)
    requires Valid(db) && prior in db.users && !prior.deleted && u.id == prior.id && !u.deleted
    requires u.email == prior.email || !EmailTaken(db, u.email)
    ensures Valid(Replace(db, u)) && u in Replace(db, u).users
  {
    ReplaceValid(db, prior, u);
    var i :| 0 <= i < |db.users| && db.users[i] == prior;
    assert Replace(db, u).users[i] == u;
  }
}

=== FILE: text.dfy ===
/** String helpers with the exact semantics of the JavaScript and Go library
    calls the system makes: prefix tests, `trim`, number printing,
    `strconv.Atoi` and UTF-8 byte counts. */
module Text {
  import opened Wrappers

  /** `s.startsWith(p)`, equivalently `s.indexOf(p) === 0`. */
  predicate StartsWith(s: string, p: string) {
    |p| <= |s| && s[..|p|] == p
  }

  /** The characters `String.prototype.trim` removes: ECMAScript WhiteSpace
      and LineTerminator code points. */
  predicate IsJsSpace(c: char) {
    || c == '\t' || c == '\n' || c == '\U{B}' || c == '\U{C}' || c == '\r'
    || c == ' ' || c == '\U{A0}' || c == '\U{1680}'
    || ('\U{2000}' <= c <= '\U{200A}')
    || c == '\U{2028}' || c == '\U{2029}' || c == '\U{202F}' || c == '\U{205F}'
    || c == '\U{3000}' || c == '\U{FEFF}'
  }

  /** Drops leading `' '` characters only, as the loop
      `while (c.charAt(0) === ' ') c = c.substring(1)` does. */
  function StripLeadingSpaces(s: string): (r: string)
    ensures |r| <= |s| && r == s[|s| - |r|..]
    ensures forall i :: 0 <= i < |s| - |r| ==> s[i] == ' '
    ensures r == [] || r[0] != ' '
    decreases |s|
  {
    if |s| > 0 && s[0] == ' ' then StripLeadingSpaces(s[1..]) else s
  }

  /** `s.trimStart()`. */
  function TrimStart(s: string): (r: string)
    ensures |r| <= |s| && r == s[|s| - |r|..]
    ensures forall i :: 0 <= i < |s| - |r| ==> IsJsSpace(s[i])
    ensures r == [] || !IsJsSpace(r[0])
    decreases |s|
  {
    if |s| > 0 && IsJsSpace(s[0]) then TrimStart(s[1..]) else s
  }

  /** `s.trimEnd()`. */
  function TrimEnd(s: string): (r: string)
    ensures |r| <= |s| && r == s[..|r|]
    ensures forall i :: |r| <= i < |s| ==> IsJsSpace(s[i])
    ensures r == [] || !IsJsSpace(r[|r| - 1])
    decreases |s|
  {
    if |s| > 0 && IsJsSpace(s[|s| - 1]) then TrimEnd(s[..|s| - 1]) else s
  }

  /** `s.trim()`: the longest middle slice with no whitespace at either end. */
  function Trim(s: string): string {
    TrimEnd(TrimStart(s))
  }

  /** `trim()` keeps a slice of its input that ends in no whitespace. */
  lemma TrimInside(s: string)
    ensures forall j :: 0 <= j < |Trim(s)| ==> Trim(s)[j] in s
    ensures Trim(s) == [] || !IsJsSpace(Trim(s)[|Trim(s)| - 1])
  {
    var a := TrimStart(s);
    var b := TrimEnd(a);
    forall j | 0 <= j < |b| ensures b[j] in s {
      assert b[j] == a[j] == s[|s| - |a| + j];
    }
  }

  /** One step of each trimming function, for reasoning about literals. */
  lemma TrimStartKeeps(s: string)
    requires |s| > 0 && !IsJsSpace(s[0])
    ensures TrimStart(s) == s
  {
  }

  lemma TrimStartDrops(s: string)
    requires |s| > 0 && IsJsSpace(s[0])
    ensures TrimStart(s) == TrimStart(s[1..])
  {
  }

  lemma StripDrops(s: string)
    requires |s| > 0 && s[0] == ' '
    ensures StripLeadingSpaces(s) == StripLeadingSpaces(s[1..])
  {
  }

  lemma TrimEndDrops(s: string)
    requires |s| > 0 && IsJsSpace(s[|s| - 1])
    ensures TrimEnd(s) == TrimEnd(s[..|s| - 1])
  {
  }

  lemma TrimEndKeeps(s: string)
    requires |s| > 0 && !IsJsSpace(s[|s| - 1])
    ensures TrimEnd(s) == s
  {
  }

  predicate IsDigit(c: char) {
    '0' <= c <= '9'
  }

  predicate AllDigits(s: string) {
    forall i :: 0 <= i < |s| ==> IsDigit(s[i])
  }

  /** The number a string of decimal digits denotes. */
  function DigitsValue(s: string): nat
    requires AllDigits(s)
    decreases |s|
  {
    if |s| == 0 then 0
    else DigitsValue(s[..|s| - 1]) * 10 + (s[|s| - 1] as int - '0' as int)
  }

  /** Decimal digits of a natural number, without leading zeros; this is
      JavaScript's `String(n)` and Go's `%d` for the magnitudes the model uses. */
  function NatToDecimal(n: nat): (s: string)
    ensures |s| >= 1 && AllDigits(s)
    ensures DigitsValue(s) == n
    ensures s[0] == '0' ==> n == 0
    decreases n
  {
    var last := [('0' as int + n % 10) as char];
    if n < 10 then last
    else
      var prefix := NatToDecimal(n / 10);
      assert (prefix + last)[..|prefix + last| - 1] == prefix;
      prefix + last
  }

  function IntToDecimal(n: int): string {
    if n < 0 then "-" + NatToDecimal(-n) else NatToDecimal(n)
  }

  const MinInt64: int := -0x8000_0000_0000_0000
  const MaxInt64: int := 0x7FFF_FFFF_FFFF_FFFF

  /** What follows an optional leading `+` or `-`. */
  function Unsigned(s: string): string {
    if |s| > 0 && (s[0] == '+' || s[0] == '-') then s[1..] else s
  }

  /** The syntax `strconv.Atoi` accepts: an optional sign, then one or more
      decimal digits. */
  predicate AtoiSyntax(s: string) {
    |Unsigned(s)| > 0 && AllDigits(Unsigned(s))
  }

  /** The integer a string in that syntax denotes. */
  function SignedValue(s: string): int
    requires AtoiSyntax(s)
  {
    var magnitude: int := DigitsValue(Unsigned(s));
    if s[0] == '-' then -magnitude else magnitude
  }

  /** Go's `strconv.Atoi` on a 64-bit platform: an optional sign followed by
      one or more decimal digits whose value fits in `int64`; anything else
      is an error (`None`). */
  function Atoi(s: string): (r: Option<int>)
    ensures r.Some? <==> AtoiSyntax(s) && MinInt64 <= SignedValue(s) <= MaxInt64
    ensures r.Some? ==> r.value == SignedValue(s)
    ensures r.Some? ==> MinInt64 <= r.value <= MaxInt64
    ensures AllDigits(s) && |s| > 0 && DigitsValue(s) <= MaxInt64 ==> r == Some(DigitsValue(s))
  {
    if |s| == 0 then None
    else
      var signed := s[0] == '+' || s[0] == '-';
      var digits := if signed then s[1..] else s;
      if |digits| == 0 || !AllDigits(digits) then None
      else
        var magnitude: int := DigitsValue(digits);
        var v := if s[0] == '-' then -magnitude else magnitude;
        if MinInt64 <= v <= MaxInt64 then Some(v) else None
  }

  /** Trailing garbage, a bare sign and a doubled sign are all errors; a
      signed number is read with its sign. */
  lemma AtoiExamples()
    ensures Atoi("1a").None? && Atoi("+").None? && Atoi("--1").None? && Atoi("").None?
    ensures Atoi("-42") == Some(-42) && Atoi("+7") == Some(7)
  {
    assert !IsDigit('a') && "1a"[1] == 'a';
    assert Unsigned("--1") == "-1" && !IsDigit("-1"[0]);
    assert Unsigned("-42") == "42" && "42"[..1] == "4";
    assert Unsigned("+7") == "7";
  }

  /** Every integer Go can hold survives printing in decimal and parsing back
      with `Atoi`: the ids the client prints are the ids the server reads. */
  lemma AtoiInverts(n: int)
    requires MinInt64 <= n <= MaxInt64
    ensures Atoi(IntToDecimal(n)) == Some(n)
  {
    var s := IntToDecimal(n);
    if n < 0 {
      var d := NatToDecimal(-n);
      assert s[1..] == d;
    }
  }

  /** The UTF-8 encoding of one code point, as byte values. */
  function Utf8(c: char): (bytes: seq<nat>)
    ensures 1 <= |bytes| <= 4
    ensures forall i :: 0 <= i < |bytes| ==> bytes[i] < 256
    ensures (c as int < 0x80) <==> |bytes| == 1
    ensures c as int < 0x80 ==> bytes == [c as int]
  {
    var n := c as int;
    if n < 0x80 then [n]
    else if n < 0x800 then [0xC0 + n / 64, 0x80 + n % 64]
    else if n < 0x10000 then [0xE0 + n / 4096, 0x80 + (n / 64) % 64, 0x80 + n % 64]
    else [0xF0 + n / 262144, 0x80 + (n / 4096) % 64, 0x80 + (n / 64) % 64, 0x80 + n % 64]
  }

  /** The number of bytes of a string's UTF-8 encoding: Go's `len`. */
  function ByteLen(s: string): (n: nat)
    ensures n >= |s|
  {
    if |s| == 0 then 0 else |Utf8(s[0])| + ByteLen(s[1..])
  }
}

=== FILE: uri.dfy ===
/** `encodeURIComponent` as section 18.2.6.5 of ECMA-262 defines it: the
    unreserved marks and alphanumerics pass through, every other code point
    becomes the `%XX` escapes of its UTF-8 bytes. */
module Uri {
  import Text

  predicate IsAlnum(c: char) {
    ('A' <= c <= 'Z') || ('a' <= c <= 'z') || ('0' <= c <= '9')
  }

  /** The characters `encodeURIComponent` leaves as they are. */
  predicate IsUnreserved(c: char) {
    IsAlnum(c) || c in "-_.!~*'()"
  }

  predicate IsHexDigit(c: char) {
    ('0' <= c <= '9') || ('A' <= c <= 'F')
  }

  const HexDigits := "0123456789ABCDEF"

  /** `%XX` for one byte, upper-case hex. */
  function Escape(b: nat): (s: string)
    requires b < 256
    ensures |s| == 3 && s[0] == '%' && IsHexDigit(s[1]) && IsHexDigit(s[2])
  {
    ['%', HexDigits[b / 16], HexDigits[b % 16]]
  }

  function HexValue(c: char): nat
    requires IsHexDigit(c)
  {
    if '0' <= c <= '9' then (c as int - '0' as int) else (c as int - 'A' as int + 10)
  }

  lemma HexDigitValue(i: nat)
    requires i < 16
    ensures IsHexDigit(HexDigits[i]) && HexValue(HexDigits[i]) == i
  {
  }

  function EscapeAll(bytes: seq<nat>): (s: string)
    requires forall i :: 0 <= i < |bytes| ==> bytes[i] < 256
    ensures |s| == 3 * |bytes|
    ensures forall i :: 0 <= i < |s| ==> s[i] == '%' || IsHexDigit(s[i])
  {
    if |bytes| == 0 then "" else Escape(bytes[0]) + EscapeAll(bytes[1..])
  }

  /** What `encodeURIComponent` yields for one character. */
  function EncodeChar(c: char): (s: string)
    ensures IsUnreserved(c) ==> s == [c]
    ensures !IsUnreserved(c) ==> |s| >= 3 && s[0] == '%'
    ensures forall i :: 0 <= i < |s| ==> IsUnreserved(s[i]) || s[i] == '%'
  {
    if IsUnreserved(c) then [c] else EscapeAll(Text.Utf8(c))
  }

  /** `encodeURIComponent(s)`: nothing in the result can end a query value. */
  function EncodeComponent(s: string): (r: string)
    ensures forall i :: 0 <= i < |r| ==> IsUnreserved(r[i]) || r[i] == '%'
    ensures |r| >= |s|
  {
    if |s| == 0 then "" else EncodeChar(s[0]) + EncodeComponent(s[1..])
  }

  /** A string made only of unreserved characters is its own encoding. */
  lemma {:induction false} EncodeUnreserved(s: string)
    requires forall i :: 0 <= i < |s| ==> IsUnreserved(s[i])
    ensures EncodeComponent(s) == s
  {
    if |s| > 0 {
      EncodeUnreserved(s[1..]);
      assert s == [s[0]] + s[1..];
    }
  }

  /** `decodeURIComponent` restricted to single-byte escapes: the partner
      that undoes the encoding of ASCII text. */
  function DecodeAscii(s: string): string
    decreases |s|
  {
    if |s| >= 3 && s[0] == '%' && IsHexDigit(s[1]) && IsHexDigit(s[2]) then
      [(HexValue(s[1]) * 16 + HexValue(s[2])) as char] + DecodeAscii(s[3..])
    else if |s| > 0 then [s[0]] + DecodeAscii(s[1..])
    else ""
  }

  predicate IsAscii(s: string) {
    forall i :: 0 <= i < |s| ==> s[i] as int < 0x80
  }

  lemma DecodeEscapedByte(b: nat, rest: string)
    requires b < 0x80
    ensures DecodeAscii(Escape(b) + rest) == [b as char] + DecodeAscii(rest)
  {
    HexDigitValue(b / 16);
    HexDigitValue(b % 16);
    var e := Escape(b) + rest;
    assert e[3..] == rest;
  }

  /** Decoding the encoding of ASCII text gives the text back. */
  lemma {:induction false} DecodeEncodeAscii(s: string)
    requires IsAscii(s)
    ensures DecodeAscii(EncodeComponent(s)) == s
  {
    if |s| > 0 {
      DecodeEncodeAscii(s[1..]);
      var rest := EncodeComponent(s[1..]);
      if IsUnreserved(s[0]) {
        assert EncodeComponent(s) == [s[0]] + rest;
        assert s[0] != '%';
      } else {
        var b := s[0] as int;
        assert Text.Utf8(s[0]) == [b];
        assert EscapeAll([b]) == Escape(b) + EscapeAll([]);
        assert EncodeComponent(s) == Escape(b) + rest;
        DecodeEscapedByte(b, rest);
        assert (b as char) == s[0];
      }
      assert s == [s[0]] + s[1..];
    }
  }
}

=== FILE: use_api.dfy ===
/** The `useApi` hook of frontend/hooks/use-api.ts: the state an API call
    leaves behind and the boolean `execute` answers with. */
module UseApi {
  import opened Wrappers
  import opened ClientTypes

  datatype ApiState<T> = ApiState(loading: bool, error: Option<string>, data: Option<T>)

  /** The hook's initial state. */
  function Idle<T>(): ApiState<T> {
    ApiState(false, None, None)
  }

  /** `execute(apiCall)` given how the call's promise settled. A success
      needs `data` to be defined; a failure keeps the previous data. */
  function Execute<T>(s: ApiState<T>, settled: Async<ApiResponse<T>>): (out: (bool, ApiState<T>))
    ensures !out.1.loading
    ensures out.0 <==> settled.Resolved? && settled.value.success && settled.value.data.Some?
    ensures out.0 ==> out.1.data == settled.value.data && out.1.error.None?
    ensures !out.0 ==> out.1.data == s.data && out.1.error.Some?
    ensures settled.Resolved? && !out.0 ==> out.1.error.value != ""
    ensures settled.Resolved? && !out.0 ==> out.1.error == Some(OrElse(settled.value.error, "An error occurred"))
    ensures settled.Rejected? ==> out.1.error == Some(settled.error.GetOr("An unexpected error occurred"))
  {
    match settled
    case Rejected(e) => (false, ApiState(false, Some(e.GetOr("An unexpected error occurred")), s.data))
    case Resolved(response) =>
      if response.success && response.data.Some? then (true, ApiState(false, None, response.data))
      else (false, ApiState(false, Some(OrElse(response.error, "An error occurred")), s.data))
  }

  /** `reset()`. */
  function Reset<T>(s: ApiState<T>): (s': ApiState<T>)
    ensures s' == Idle()
  {
    ApiState(false, None, None)
  }

  /** A successful call followed by a failing one leaves the first call's
      data in place. */
  lemma FailureKeepsLastData<T>(s: ApiState<T>, first: T, failure: Async<ApiResponse<T>>)
    requires !(failure.Resolved? && failure.value.success && failure.value.data.Some?)
    ensures var after := Execute(s, Resolved(Succeeded(first))).1;
            var out := Execute(after, failure);
            !out.0 && out.1.data == Some(first)
  {
  }
}

=== FILE: user_controller.dfy ===
/** `UpdateUserProfile` of backend/controllers/user_controller.go: a user
    edits their own row through a free-form JSON map. */
module UserController {
  import opened Wrappers
  import opened Json
  import Text
  import Binding
  import opened Store
  import opened Server

  /** The sanitisation as written: the keys `role_id` and `email` are
      deleted and `password` goes through the password step, dropping an
      empty or non-string value. Other spellings GORM accepts for the same
      columns are not touched. */
  function SanitizeProfileAsWritten(env: Env, m: map<string, Json>): (r: Sanitized)
    ensures r.HashFailed? <==> PlainPassword(m, "password").Some? && Text.ByteLen(PlainPassword(m, "password").value) > MaxPasswordBytes
    ensures r.Clean? ==> "role_id" !in r.m && "email" !in r.m
    ensures r.Clean? ==> ("password" in r.m <==> PlainPassword(m, "password").Some?)
    ensures r.Clean? && "password" in r.m ==> r.m["password"] == JStr(env.hash(PlainPassword(m, "password").value))
    ensures r.Clean? ==> forall k :: k != "role_id" && k != "email" && k != "password" ==>
              (k in r.m <==> k in m) && (k in m ==> r.m[k] == m[k])
  {
    HashKey(env, m - {"role_id", "email"}, "password", true)
  }

  /** The sanitisation the handler evidently intends: every key GORM would
      map to the e-mail or role column is deleted, and every key it would
      map to the password column goes through the password step. */
  function SanitizeProfile(env: Env, m: map<string, Json>): (r: Sanitized)
    ensures r.Clean? ==> forall k :: k in r.m ==> ColumnOf(k) != Some(EmailCol) && ColumnOf(k) != Some(RoleIdCol)
    ensures r.Clean? ==> forall k :: k in r.m && ColumnOf(k) == Some(PasswordCol) ==>
              PlainPassword(m, k).Some? && r.m[k] == JStr(env.hash(PlainPassword(m, k).value))
    ensures r.Clean? ==> forall k :: ColumnOf(k) == Some(PasswordCol) && PlainPassword(m, k).Some? ==> k in r.m
    ensures r.Clean? ==> forall k :: ColumnOf(k).None? || ColumnOf(k) == Some(NameCol) ==>
              (k in r.m <==> k in m) && (k in m ==> r.m[k] == m[k])
    ensures r.HashFailed? ==> exists k :: ColumnOf(k) == Some(PasswordCol) && PlainPassword(m, k).Some?
                                          && Text.ByteLen(PlainPassword(m, k).value) > MaxPasswordBytes
  {
    var m1 := m - {"role_id", "RoleID", "email", "Email"};
    assert PlainPassword(m1, "password") == PlainPassword(m, "password");
    match HashKey(env, m1, "password", true)
    case HashFailed => HashFailed
    case Clean(m2) =>
      assert PlainPassword(m2, "Password") == PlainPassword(m, "Password");
      HashKey(env, m2, "Password", true)
  }

  /** Whether `u'` is `u` after a profile update: same id, e-mail and role;
      the password either kept or replaced by a hash. */
  ghost predicate ProfileEdit(env: Env, u: User, u': User) {
    && u'.id == u.id && u'.email == u.email && u'.roleId == u.roleId && !u'.deleted
    && (u'.password == u.password || exists s :: u'.password == env.hash(s))
  }

  /** `UpdateUserProfile` for the id the authentication middleware stored,
      with the corrected sanitisation. A missing user is reported before
      the body is read. */
  function UpdateUserProfile(env: Env, db: Db, userId: nat, body: Json): (h: Handled)
    ensures UserById(db, userId).None? ==> h == Handled(Error(404, "User not found"), db)
    ensures UserById(db, userId).Some? && Binding.DecodeMap(body).Undecodable? ==>
              h == Handled(Error(400, Binding.DecodeMap(body).message), db)
    ensures h.response.status != 200 ==> h.db == db
    ensures h.response.status == 200 ==> h.response == Message(200, "Profile updated successfully")
    ensures h.response.status == 200 ==> exists u' :: h.db == Replace(db, u') && ProfileEdit(env, UserById(db, userId).value, u')
    ensures h.response.status in {200, 400, 404, 500}
    ensures Valid(db) ==> Valid(h.db)
  {
    match UserById(db, userId)
    case None => Handled(Error(404, "User not found"), db)
    case Some(u) =>
      match Binding.DecodeMap(body)
      case Undecodable(message) => Handled(Error(400, message), db)
      case Decoded(m) =>
        match SanitizeProfile(env, m)
        case HashFailed => Handled(Error(500, "Failed to hash password"), db)
        case Clean(clean) =>
          match Updates(db, u, clean, env.stamp)
          case None => Handled(Error(500, "Failed to update profile"), db)
          case Some(db') =>
            ProfileUpdateKeeps(env, db, u, m, clean);
            UpdatesKeepValid(db, u, clean, env.stamp);
            Handled(Message(200, "Profile updated successfully"), db')
  }

  /** What a successful update with the corrected sanitisation can do to
      the row. */
  lemma ProfileUpdateKeeps(env: Env, db: Db, u: User, m: map<string, Json>, clean: map<string, Json>)
    requires !u.deleted && SanitizeProfile(env, m) == Clean(clean) && Updates(db, u, clean, env.stamp).Some?
    ensures ProfileEdit(env, u, Updated(u, clean, env.stamp).value)
  {
    var u' := Updated(u, clean, env.stamp).value;
    assert WriteOf(clean, EmailCol) == Some(Keep);
    assert WriteOf(clean, RoleIdCol) == Some(Keep);
    var w := WriteOf(clean, PasswordCol);
    if w.value.SetTo? {
      var k :| k in clean && ColumnOf(k) == Some(PasswordCol) && clean[k] == w.value.value;
      assert u'.password == env.hash(PlainPassword(m, k).value);
    }
  }

  /** As written, the role column is reachable through its Go field name:
      `{"RoleID": r}` passes the sanitisation and sets the role of the
      caller's own row to any existing role. */
  lemma ProfileAsWrittenSetsRole(env: Env, db: Db, u: User, roleId: nat, stamp: string)
    requires RoleById(db, roleId).Some?
    ensures var s := SanitizeProfileAsWritten(env, map["RoleID" := JNum(roleId)]);
            && s == Clean(map["RoleID" := JNum(roleId)])
            && Updates(db, u, s.m, stamp) == Some(Replace(db, u.(roleId := roleId, updatedAt := stamp)))
  {
    var m := map["RoleID" := JNum(roleId)];
    assert SanitizeProfileAsWritten(env, m).m == m;
    assert WriteOf(m, NameCol) == Some(Keep) && WriteOf(m, EmailCol) == Some(Keep) && WriteOf(m, PasswordCol) == Some(Keep);
  }

  /** As written, `{"Password": p}` skips the password step and the row
      stores `p` itself. */
  lemma ProfileAsWrittenStoresPlaintext(env: Env, db: Db, u: User, p: string, stamp: string)
    ensures var s := SanitizeProfileAsWritten(env, map["Password" := JStr(p)]);
            && s == Clean(map["Password" := JStr(p)])
            && Updates(db, u, s.m, stamp) == Some(Replace(db, u.(password := p, updatedAt := stamp)))
  {
    var m := map["Password" := JStr(p)];
    assert SanitizeProfileAsWritten(env, m).m == m;
    assert WriteOf(m, NameCol) == Some(Keep) && WriteOf(m, EmailCol) == Some(Keep) && WriteOf(m, RoleIdCol) == Some(Keep);
  }
}

=== FILE: validators.dfy ===
/** The request checks of backend/validators/auth_validator.go: the
    password policy and the binding constraints of the register and login
    bodies. */
module Validators {
  import opened Wrappers
  import opened Text

  /** How the policy's `switch` classifies one rune. */
  datatype CharClass = Lower | Upper | Digit | Other

  function Classify(c: char): (k: CharClass)
    ensures k == Lower <==> 'a' <= c <= 'z'
    ensures k == Upper <==> 'A' <= c <= 'Z'
    ensures k == Digit <==> '0' <= c <= '9'
  {
    if 'a' <= c <= 'z' then Lower
    else if 'A' <= c <= 'Z' then Upper
    else if '0' <= c <= '9' then Digit
    else Other
  }

  predicate Contains(p: string, k: CharClass) {
    exists i :: 0 <= i < |p| && Classify(p[i]) == k
  }

  /** The policy: at least 8 bytes, and an upper-case letter, a lower-case
      letter and a digit among the runes. */
  predicate MeetsPolicy(p: string) {
    ByteLen(p) >= 8 && Contains(p, Upper) && Contains(p, Lower) && Contains(p, Digit)
  }

  /** `ValidatePassword`: one pass over the runes setting three flags. */
  method ValidatePassword(p: string) returns (ok: bool)
    ensures ok <==> MeetsPolicy(p)
  {
    var hasMinLen := ByteLen(p) >= 8;
    var hasUpper, hasLower, hasNumber := false, false, false;
    var i := 0;
    while i < |p|
      invariant 0 <= i <= |p|
      invariant hasLower <==> Contains(p[..i], Lower)
      invariant hasUpper <==> Contains(p[..i], Upper)
      invariant hasNumber <==> Contains(p[..i], Digit)
    {
      var k := Classify(p[i]);
      assert p[..i + 1] == p[..i] + [p[i]];
      if k == Lower {
        hasLower := true;
      } else if k == Upper {
        hasUpper := true;
      } else if k == Digit {
        hasNumber := true;
      }
      i := i + 1;
    }
    assert p[..i] == p;
    ok := hasMinLen && hasUpper && hasLower && hasNumber;
  }

  predicate IsAscii(s: string) {
    forall i :: 0 <= i < |s| ==> s[i] as int < 0x80
  }

  /** For ASCII text the byte count is the character count. */
  lemma {:induction false} AsciiByteLen(s: string)
    requires IsAscii(s)
    ensures ByteLen(s) == |s|
    decreases |s|
  {
    if |s| > 0 {
      AsciiByteLen(s[1..]);
    }
  }

  lemma {:induction false} ByteLenAppend(a: string, b: string)
    ensures ByteLen(a + b) == ByteLen(a) + ByteLen(b)
    decreases |a|
  {
    if |a| == 0 {
      assert a + b == b;
    } else {
      assert (a + b)[1..] == a[1..] + b;
      ByteLenAppend(a[1..], b);
    }
  }

  /** Appending anything to an accepted password keeps it accepted. */
  lemma AppendKeepsPolicy(p: string, q: string)
    requires MeetsPolicy(p)
    ensures MeetsPolicy(p + q)
  {
    ByteLenAppend(p, q);
    forall k | Contains(p, k)
      ensures Contains(p + q, k)
    {
      var i :| 0 <= i < |p| && Classify(p[i]) == k;
      assert (p + q)[i] == p[i];
    }
  }

  /** Bytes, not characters: six characters, three of them two-byte, meet
      the length rule. */
  lemma SixCharactersCanPass()
    ensures MeetsPolicy("Aa1ééé") && |"Aa1ééé"| == 6
  {
    var p := "Aa1ééé";
    assert ByteLen(p[5..]) == 2;
    assert ByteLen(p[4..]) == 4;
    assert ByteLen(p[3..]) == 6;
    assert ByteLen(p) == 9;
    assert Classify(p[0]) == Upper && Classify(p[1]) == Lower && Classify(p[2]) == Digit;
  }

  /** Letters outside ASCII set no flag: an all-accented password fails
      however long it is. */
  lemma NonAsciiLettersSetNoFlag(p: string)
    requires forall i :: 0 <= i < |p| ==> p[i] as int >= 0x80
    ensures !MeetsPolicy(p)
  {
    if |p| > 0 {
      assert Classify(p[0]) == Other;
    }
    assert !Contains(p, Upper);
  }

  /** `binding:"required"` on a string: present and not empty. */
  predicate Required(s: string) {
    s != ""
  }

  /** `binding:"min=n"` on a string counts runes. */
  predicate MinRunes(s: string, n: nat) {
    |s| >= n
  }

  /** The bound register body (`RegisterRequest`). */
  datatype RegisterRequest = RegisterRequest(name: string, email: string, password: string, roleId: nat)

  /** The bound login body (`LoginRequest`). */
  datatype LoginRequest = LoginRequest(email: string, password: string)

  /** The tag constraints of the register body, with the validator's
      e-mail syntax check `isEmail` as a parameter. */
  predicate RegisterValid(r: RegisterRequest, isEmail: string -> bool, minPassword: nat) {
    Required(r.name) && Required(r.email) && isEmail(r.email) && Required(r.password) && MinRunes(r.password, minPassword)
  }

  /** The tag constraints of the login body: the e-mail must be well formed,
      the password only present. */
  predicate LoginValid(r: LoginRequest, isEmail: string -> bool) {
    Required(r.email) && isEmail(r.email) && Required(r.password)
  }

  /** Binding counts runes, the policy counts bytes: for ASCII passwords
      binding's `min=8` is the policy's length rule. */
  lemma BindingLengthMatchesPolicyOnAscii(p: string)
    requires IsAscii(p)
    ensures MinRunes(p, 8) <==> ByteLen(p) >= 8
  {
    AsciiByteLen(p);
  }
}

=== FILE: wrappers.dfy ===
/** The optional value used across the model: JavaScript's `null`/`undefined`,
    Go's nil results and "not found" results all become `None`. */
module Wrappers {

  datatype Option<+T> = None | Some(value: T) {

    /** The value, or `default` when there is none. */
    function GetOr(default: T): T {
      match this
      case Some(v) => v
      case None => default
    }
  }
}
